=== FILE: README.md ===
# Florence, modelled in Dafny

Florence is an on-screen virtual keyboard. This project models its
decision logic as pure Dafny functions over immutable datatypes and proves
properties about them. Nothing in it draws, reads files or talks to X.

The model covers these parts:

- **Layout editor scene engine** (`editor/toolkit.py`).
  - Modules: `SceneObject` (`toolkit_object.dfy`), `Selection` (`toolkit_selection.dfy`), `Snapping` (`toolkit_snap.dfy`) and `Scene` (`toolkit_scene.dfy`).
  - Objects are rectangles with a status, a resize anchor and a pending "hug" offset.
  - A selection moves its objects as one.
  - The scene keeps objects in z-order and handles press, motion, release and leave.
  - Motion covers rubber-band selection and the three-stage snap: grid, then neighbour edges, then the canvas border.
  - `SceneProps` (`toolkit_scene_props.dfy`) proves that every event keeps the scene's bookkeeping, and holds worked examples.
- **Key state machine** of the GTK keyboard (`src/fsm.c`) in `KeyFsm`: the mouse and touch transition tables and the event processor.
- **Pressed keys and the global modifier mask** (`src/status.c`) in `KeyStatus`.
- **Keyboards and their extensions** (`src/keyboard.c`) in `Keyboard`.
  - The colon-separated extension lists shared with the settings dialog are in `ColonList`.
- **XKB layout names** (`src/xkeyboard.c`) in `XKeyboard`: the symbols-string tokenizer, the "us" fallback and group switching.
- **Settings dialog** (`src/settings-window.c`) in `SettingsWindow`: `#RRGGBB` colours to and from 16-bit channels, and the extension check boxes.
- **Ramble input method** (`src/ramble.c`) in `Ramble`.
  - It keeps a bounded mouse path with invalidated rectangles.
  - Reset reports an event.
- **Qt widget** (`qt/src/*.cpp`): `QtSymbol`, `QtKeymap`, `QtKey`, `QtFlorence` and `QtStyleItem`.
  - Symbol roles and modifiers.
  - The keymap with its best-match symbol choice and byte-wide global modifier.
  - The key status machine.
  - The widget's latched-key list, focus and auto-repeat handling.
  - SVG colour-placeholder substitution.
- **Web demo text field** (`web/demo/florence.js`).
  - `WebText` holds the JavaScript string operations with their edge behaviour.
  - `WebField` holds the field with its DOM selection setters and the editing operations.
  - `WebKeys` holds the key-release dispatch and the latch/lock modifier groups.
- **Shared helpers** in `common.dfy`: `Optional` and `Seqs`.

Some source behaviour is kept as written, and lemmas exhibit it:

- `hit` is strict on all four sides, so a point on an edge never hits (`SceneObject.HitIsStrict`). A half-open test might be expected instead.
- `onrelease` does not re-apply the 10-unit minimum size (`SceneObject.ReleaseCanUndercutFloor`). Every other operation keeps it.
- The selection's extents treat a coordinate of 0 as unset (`Selection.ExtentsForgetZero`).
- The ramble reset's bounding rectangle is not tight (`Ramble.BoundsNotTight`).
- The Qt keymap's `removeModifier` subtracts rather than clears (`QtKeymap.OverlapNotRestored`).
- A '+' directly after a '+' in an XKB symbols string yields an empty layout name (`XKeyboard.DoublePlus`).

## Model

| member | source | states |
|---|---|---|
| SceneObject.New | editor/toolkit.py:13-28 | a new object keeps the given name and geometry, is Normal, idle and clean, with no hug and the body anchor |
| SceneObject.HitIsStrict | editor/toolkit.py:33-39 | `hit` holds exactly when the point lies strictly inside on all four sides; a point on any edge never hits |
| SceneObject.CollideIsOverlap | editor/toolkit.py:41-56 | for a rectangle of non-negative size, `collide` is the overlap of the closed rectangle with the closed drag box, whichever corner comes first |
| SceneObject.Activate | editor/toolkit.py:58-61 | only Normal becomes Active; the dirty flag is raised exactly on a change; nothing else changes |
| SceneObject.Deactivate | editor/toolkit.py:63-66 | only Active becomes Normal; dirty exactly on a change; nothing else changes |
| SceneObject.Select | editor/toolkit.py:68-71 | any status becomes Selected; dirty exactly on a change |
| SceneObject.Deselect | editor/toolkit.py:73-76 | any status becomes Normal; dirty exactly on a change |
| SceneObject.TransitionsIdempotent | editor/toolkit.py:58-76 | a second activate, deactivate, select or deselect changes nothing |
| SceneObject.AnchorAt | editor/toolkit.py:85-102 | the chosen anchor's zone contains the press offset and no zone of higher precedence (corners 1-4 with inclusive bounds, then strict edge boxes 5-8, body last) does |
| SceneObject.OnPress | editor/toolkit.py:78-102 | a press starts moving, records the offset of the press point from the corner, picks the first zone containing it, and changes nothing else |
| SceneObject.OnRelease | editor/toolkit.py:104-136 | release moves exactly the edges the anchor drags by the hug (both for the body), clears the hug, stops moving |
| SceneObject.ReleaseCanUndercutFloor | editor/toolkit.py:104-136 | release does not re-apply the floor: a bottom-right hug of -5 leaves a 10-wide object 5 wide |
| SceneObject.FloorAxisDrag | editor/toolkit.py:149-207 | one drag axis never ends below 10 and, from a size of at least 10, keeps the opposite edge where clamping happens |
| SceneObject.OnMotion | editor/toolkit.py:138-216 | while moving: at least 10 x 10, body translates, an edge drag keeps the opposite edge, the hug and status stay; otherwise only the hover status changes (Normal to Active under the mouse, Active to Normal away) |
| SceneObject.OnLeave | editor/toolkit.py:218-221 | leaving is a deactivation |
| SceneObject.Hug | editor/toolkit.py:310-312 | sets the pending offset and nothing else |
| SceneObject.DragKeepsFloor | editor/toolkit.py:78-207 | without a hug, press, at least one motion and release leave the object at least 10 x 10 |
| SceneObject.MotionsKeepFloor | editor/toolkit.py:138-207 | every motion of a moving object keeps it at least 10 x 10 and moving |
| Selection.Empty | editor/toolkit.py:315-317 | a new selection has no members |
| Selection.Update | editor/toolkit.py:470-475 | a handler applied to one stored object changes exactly that object; the key set and every other object are kept |
| Selection.ForEach | editor/toolkit.py:362-363 | a loop over the member list transforms exactly the listed objects, each once when the list has no duplicates |
| Selection.Add | editor/toolkit.py:342-344 | appends without a duplicate check and selects the object; nothing else changes |
| Selection.Remove | editor/toolkit.py:346-351 | drops the first occurrence and deselects; an absent object leaves everything as it was |
| Selection.RemoveAll | editor/toolkit.py:378-381 | removing each of a sub-multiset of members leaves exactly the rest and deselects the removed ones |
| Selection.Clear | editor/toolkit.py:378-381 | the selection ends empty, former members are Normal, other objects are untouched |
| Selection.Select | editor/toolkit.py:335-340 | a member leaves the selection as it is; a non-member becomes the only member, Selected, and former members turn Normal |
| Selection.Toggle | editor/toolkit.py:353-358 | a member is removed, a non-member added: membership of the object flips, every other stays |
| Selection.ToggleTwice | editor/toolkit.py:353-358 | toggling twice restores the member list (as a multiset when the object was a member) |
| Selection.MotionFold | editor/toolkit.py:360-365 | every member reacts to the mouse in order; the flag is set exactly when some member is dirty |
| Selection.Motion | editor/toolkit.py:360-365 | members react to the mouse, non-members do not, the list is unchanged; the flag reports a dirty member |
| Selection.Press | editor/toolkit.py:367-372 | the pressed object is pressed; every other member is pressed at the same point and takes the pressed object's anchor |
| Selection.PressFollowing | editor/toolkit.py:370-372 | a follower starts moving from the press point with the given anchor |
| Selection.Release | editor/toolkit.py:374-376 | every member commits its hug; non-members are untouched |
| Selection.Hug | editor/toolkit.py:383-385 | every member gets the same pending offset and nothing else changes |
| Selection.HugForEach | editor/toolkit.py:383-385 | a member listed twice still ends with the group's offset |
| Selection.BoundSound | editor/toolkit.py:324-332 | the accumulated bound is one of the coordinates, and the extreme one when no coordinate is 0 |
| Selection.GetExtents | editor/toolkit.py:319-333 | the extents exist exactly when some member is stored; with none the source raises a TypeError, modelled as no extents |
| Selection.ExtentsAttained | editor/toolkit.py:319-333 | each edge of the reported box is an edge of some selected object |
| Selection.ExtentsSound | editor/toolkit.py:319-333 | each edge is the extreme one when no selected object has that edge at 0 |
| Selection.ExtentsForgetZero | editor/toolkit.py:325-326 | the `not x` test forgets a 0: objects at x = 0 and x = 20 report a left edge of 20 |
| Scene.Reset | editor/toolkit.py:561-571 | reset leaves a consistent scene with no objects, selection, press target, band or grid |
| Scene.FreshId | editor/toolkit.py:573-574 | a new object's key differs from every stored one |
| Scene.AddObject | editor/toolkit.py:573-574 | a new object goes on top of the z-order, keeps the scene consistent and leaves the selection alone |
| Scene.SetGrid | editor/toolkit.py:393-395 | stores the grid spacing and nothing else |
| Scene.SetSize | editor/toolkit.py:540-542 | stores the canvas size and nothing else |
| Scene.Raise | editor/toolkit.py:390-391 | the object moves to the end of the z-order, which keeps the same elements, others in their order |
| Scene.ToTop | editor/toolkit.py:388-391 | the object becomes the press target and is raised |
| Scene.Topmost | editor/toolkit.py:482 | the z-order walked from the top down |
| Scene.FirstHit | editor/toolkit.py:482-484 | the first listed object under the point, or none when no listed object is hit |
| Scene.Press | editor/toolkit.py:480-500 | a press hits the topmost object under the mouse, else starts on empty canvas |
| Scene.PressHit | editor/toolkit.py:483-492 | Control toggles without raising; otherwise the object is raised, becomes the target and is selected; a Selected result presses the whole selection |
| Scene.PressEmpty | editor/toolkit.py:493-500 | a miss clears the selection without Control and starts a rubber band at the mouse |
| Scene.Band | editor/toolkit.py:463-467 | a non-selected object touching the band becomes Active, one off it Normal |
| Scene.HoverWalk | editor/toolkit.py:469-476 | the hover walk changes only listed objects and never makes or unmakes a Selected one |
| Scene.Motion | editor/toolkit.py:402-478 | a motion keeps the z-order, the target and the selection list; a band follows the mouse, requests a redraw and (de)activates every object by contact; a drag without Alt resets the members' hug (the drag itself: SceneProps.DragMoves and SceneProps.AltDragSnaps) |
| SceneProps.DragMoves | editor/toolkit.py:402-407 | without Alt, every member reacts as `onmotion` with its hug reset, other objects and the rest of the scene stay, and a redraw is requested exactly when a member is dirty |
| SceneProps.AltDragSnaps | editor/toolkit.py:408-457 | with Alt, the plain drag's selection box is pulled by Snapping.Snap against the grid, the objects top-down and the border, every member takes that pull as its hug and the redraw request is the plain drag's; with no stored member (the source raises in `get_extents`) the plain drag stays and no redraw is requested |
| SceneProps.HoverWalkRedraw | editor/toolkit.py:469-476 | the hover walk requests a redraw exactly when a listed object ends dirty |
| SceneProps.HoverRedraw | editor/toolkit.py:468-478 | the idle hover requests a redraw exactly when an object of the z-order ends dirty |
| Scene.BandEach | editor/toolkit.py:463-467 | the band sets every listed object's status even when the list repeats it |
| Scene.AddActive | editor/toolkit.py:505-507 | only the listed objects can change |
| Scene.Release | editor/toolkit.py:503-511 | a band adds the Active objects; otherwise the selection commits its hug; the target is dropped |
| Scene.Leave | editor/toolkit.py:397-399 | every object is deactivated, nothing else changes |
| Scene.Delete | editor/toolkit.py:576-579 | the selected objects leave the z-order and the store, the rest stay, the selection ends empty |
| Scene.RemoveEach | editor/toolkit.py:577-578 | removing each listed key keeps exactly the unlisted ones |
| Snapping.PyMod | editor/toolkit.py:415-431 | Python's remainder takes the divisor's sign and differs from the dividend by a multiple |
| Snapping.GridOffset | editor/toolkit.py:414-431 | without a grid no pull; otherwise a nonzero offset has magnitude at most 10 and puts the low or high edge on a grid line, low edge first |
| Snapping.GridFacts | editor/toolkit.py:415-418 | both pulls land on a grid line and vanish together |
| Snapping.Scan | editor/toolkit.py:433-448 | the neighbour scan keeps a chosen offset, ignores Selected objects, and a new offset puts the box flush against an in-line neighbour within 10; 0 means no such neighbour |
| Snapping.PullSound | editor/toolkit.py:436-446 | what one neighbour's pull guarantees |
| Snapping.Border | editor/toolkit.py:449-456 | the border pull is the last fallback: low edge to 0 when within 10, else high edge to the canvas size |
| Snapping.Snap | editor/toolkit.py:409-457 | a grid pull wins over neighbours and border |
| Snapping.SnapWithoutGrid | editor/toolkit.py:433-456 | without a grid each offset is 0 or flush with a neighbour or the canvas border |
| SceneProps.MotionKeepsValid | editor/toolkit.py:402-478 | every motion keeps the scene consistent |
| SceneProps.DragKeepsValid | editor/toolkit.py:404-457 | dragging, snapped or not, keeps the scene consistent |
| SceneProps.BandKeepsValid | editor/toolkit.py:459-467 | stretching the rubber band keeps the scene consistent |
| SceneProps.ToggleKeepsValid | editor/toolkit.py:353-358 | toggling keeps status and membership in step |
| SceneProps.SelectKeepsValid | editor/toolkit.py:335-340 | selecting keeps status and membership in step |
| SceneProps.RaiseKeepsValid | editor/toolkit.py:388-391 | raising keeps the z-order a duplicate-free list of the stored objects |
| SceneProps.PressKeepsValid | editor/toolkit.py:480-500 | a press keeps the scene consistent |
| SceneProps.AddActiveSpec | editor/toolkit.py:504-507 | a band release appends exactly the Active objects in z-order and selects them; nothing else changes |
| SceneProps.ReleaseKeepsValid | editor/toolkit.py:503-511 | a release keeps the scene consistent |
| SceneProps.LeaveKeepsValid | editor/toolkit.py:397-399 | leaving keeps the scene consistent |
| SceneProps.DeleteKeepsValid | editor/toolkit.py:576-579 | deleting keeps the scene consistent |
| SceneProps.PressRaisesAndSelects | editor/toolkit.py:480-492 | a plain press raises the topmost hit object to the top, selects and grabs it, and makes it the only member if it was not one |
| SceneProps.CtrlPressKeepsOrder | editor/toolkit.py:485-486 | a Control press changes neither the z-order nor the press target |
| SceneProps.HoverWalkSpec | editor/toolkit.py:469-476 | only the first object under the mouse can end Active, and it does unless Selected |
| SceneProps.HoverSingleActive | editor/toolkit.py:468-476 | an idle motion leaves at most the topmost hit object Active |
| SceneProps.RubberBandRelease | editor/toolkit.py:504-508 | a band release appends the Active objects bottom-most first and leaves none Active |
| SceneProps.HitExample | editor/toolkit.py:33-39 | inside a 20 x 20 object at (10, 10), (29, 29) hits, (30, 30) and (10, 10) do not |
| SceneProps.GridExample | editor/toolkit.py:414-418 | with spacing 30, a box at x = 28 is pulled 2 to the right |
| SceneProps.RubberBandPressExample | editor/toolkit.py:493-500 | pressing empty canvas in the three-object scene starts a band |
| SceneProps.PressMissStartsBand | editor/toolkit.py:493-500 | with nothing selected, a missed press only starts a band at the mouse |
| SceneProps.RubberBandMotionExample | editor/toolkit.py:459-467 | dragging the band to (50, 50) activates A only and requests a redraw |
| SceneProps.RubberBandReleaseExample | editor/toolkit.py:503-508 | releasing that band selects only A |
| SceneProps.BandReleaseOfThree | editor/toolkit.py:504-508 | releasing a band over three objects with only the first Active selects exactly it |
| SceneProps.DeleteExample | editor/toolkit.py:576-579 | deleting C from the three-object scene leaves A and B and no selection |
| KeyFsm.Table | src/fsm.c:180-181 | the touch table is used exactly for the touch input method, the mouse table otherwise |
| KeyFsm.TypeOf | src/fsm.c:184-185 | normal exactly without a modifier, locker for a modifier key marked locker, modifier otherwise |
| KeyFsm.Process | src/fsm.c:175-196 | a missing key does nothing; otherwise the key takes the entry's new state, the window is focused, then the entry's actions run in order |
| KeyFsm.Effects | src/fsm.c:192-194 | the action list runs in order, one effect per action |
| KeyFsm.Drive | src/fsm.c:183-187 | events change only the state, never the modifier or locker flag |
| KeyFsm.MouseErrors | src/fsm.c:52-110 | the mouse table flags an error exactly for a modifier or locker key in the pressed state |
| KeyFsm.TouchErrors | src/fsm.c:114-172 | the touch table flags an error for a pressed modifier or locker key except on a press, and for a released normal key receiving a released event |
| KeyFsm.StepKeepsLegal | src/fsm.c:52-172 | from a legal state both tables move to a legal state without flagging an error (except the touch released-on-released entry) |
| KeyFsm.DriveKeepsLegal | src/fsm.c:52-172 | a legal key stays legal along any run that avoids that entry |
| KeyFsm.ModifierCycle | src/fsm.c:59-61 | a non-locker modifier cycles released, latched, locked, released under presses with the mouse and under releases on touch (src/fsm.c:135-137) |
| KeyFsm.MouseNormalClick | src/fsm.c:56 | with the mouse, a normal key driven through press, pressed, release, released goes released, pressed, pressed, released (entries at src/fsm.c:84, 69, 97) |
| KeyFsm.MouseClickSteps | src/fsm.c:56-97 | the four single steps of that click |
| KeyFsm.DriveFour | src/fsm.c:187 | a run visits the state each single step reaches |
| KeyFsm.MouseModifierIgnoresFeedback | src/fsm.c:87-89 | with the mouse, pressed and released events leave a released, locked or latched modifier unchanged and run no action (also src/fsm.c:101-103) |
| KeyStatus.New | src/status.c:138-144 | a new status is all zero: no focus, nothing pressed, no global modifier, no timer |
| KeyStatus.GlobalmodSet | src/status.c:97-100 | the mask's bits become set and every other bit is kept |
| KeyStatus.GlobalmodUnset | src/status.c:103-106 | exactly the mask's bits are cleared |
| KeyStatus.SetUnsetRestores | src/status.c:97-106 | setting bits that were clear and unsetting them restores the status |
| KeyStatus.Press | src/status.c:109-114 | the key is recorded once (prepended only if absent, so no duplicate appears); a pressed modifier key sets its bits, nothing else does |
| KeyStatus.Release | src/status.c:117-123 | the first occurrence is dropped, so a duplicate-free list no longer holds the key; a modifier key no longer pressed clears its bits |
| KeyStatus.PressReleaseRestores | src/status.c:109-123 | recording and releasing a modifier key whose bits were clear gives back the original status |
| KeyStatus.PressedSet | src/status.c:42-60 | setting takes the focus key as pressed, presses and redraws it (everything for a modifier or an active global modifier); clearing releases, drops it and clears a modifier's bits from the global mask unless it is still pressed, and leaves no pressed key |
| KeyStatus.Reset | src/status.c:155-164 | reset clears focus, pressed key, timer, pressed list and global modifier |
| KeyStatus.ResetIsNew | src/status.c:138-164 | a reset status equals a new one, whatever came before |
| Keyboard.New | src/keyboard.c:106-113 | a keyboard before its layout is read: the given name and placement, no keys, zero size |
| Keyboard.Activated | src/keyboard.c:78-96 | the main keyboard is always shown; an extension only when the setting exists and one of its colon-separated tokens equals the name |
| Keyboard.SetSize | src/keyboard.c:68-74 | the size reads back as set and nothing else changes |
| Keyboard.SetSizeOverrides | src/keyboard.c:68-74 | a second size report replaces the first |
| Keyboard.InsertKey | src/keyboard.c:52-63 | the key is appended and, when there is a key table, stored under its code with every other code kept; it starts pressed exactly when its modifier meets the locked modifiers, and then the status is the one the status press gives (focus, pressed key, timer and other pressed keys kept, the key added once, its bits set); otherwise the status is untouched |
| Keyboard.Record | src/keyboard.c:57 | with a key table, the key is stored under its code and every other code keeps its key; without one there is still none |
| Keyboard.InsertKeyThenRelease | src/keyboard.c:59-63 | a key created pressed, not pressed before and with its modifier bits clear, is one status release away from the status before it |
| ColonList.Split | src/keyboard.c:87 | splitting at colons gives colon-free tokens, and no tokens only for the empty string |
| ColonList.Join | src/settings-window.c:370-372 | joining no tokens gives the empty string and one token gives that token |
| ColonList.JoinSplit | src/settings-window.c:361-372 | joining what was split gives back the string |
| ColonList.SplitJoin | src/settings-window.c:361-372 | splitting a join of colon-free tokens gives them back, except the lone empty token |
| ColonList.Find | src/keyboard.c:86-91 | the token-by-token walk finds the name exactly when it is one of the tokens |
| ColonList.Without | src/settings-window.c:365 | the kept tokens are exactly the tokens other than the name |
| ColonList.WithoutAbsent | src/settings-window.c:365 | dropping an absent name keeps the list as it was |
| ColonList.WithoutAppend | src/settings-window.c:365-368 | dropping the name after appending it equals dropping it from the original list |
| SettingsWindow.HexValue | src/settings-window.c:153 | a hex digit of either case has a value below 16, and only hex digits have one |
| SettingsWindow.HexDigit | src/settings-window.c:320 | the digit written for a value reads back as that value and is never lower case |
| SettingsWindow.Byte | src/settings-window.c:153-156 | two hex digits read as high digit times 16 plus low digit, and fail otherwise |
| SettingsWindow.ConvertColor | src/settings-window.c:150-159 | the strict form, '#' and six hex digits, gives a colour whose channels are their bytes times 256; every other string gives no colour (weaker: the lenient forms `%02x` also accepts are under Left out) |
| SettingsWindow.Hex2 | src/settings-window.c:320 | a byte is written as two digits that read back as the byte |
| SettingsWindow.FormatColor | src/settings-window.c:314-320 | the stored string is '#' and six upper-case hex digits, readable by the conversion |
| SettingsWindow.ConvertFormat | src/settings-window.c:153-157 | writing then reading a colour keeps each channel's high byte and zeroes its low byte |
| SettingsWindow.FormatConvert | src/settings-window.c:320 | reading then writing gives the first seven characters back with the digits upper-cased |
| SettingsWindow.DigitOfValue | src/settings-window.c:320 | writing a digit's value gives the digit in upper case |
| SettingsWindow.CurrentExtensions | src/settings-window.c:355-358 | the pending value of the change set wins over the stored setting |
| SettingsWindow.Toggle | src/settings-window.c:355-376 | a missing list is a fatal error; otherwise the rewritten list is stored |
| SettingsWindow.DeactivateRemoves | src/settings-window.c:365-372 | after unticking, the id is no token of the list and the other tokens keep their order |
| SettingsWindow.ActivateAppends | src/settings-window.c:365-372 | after ticking, the id is the last token and appears nowhere before it |
| SettingsWindow.RewriteIdempotent | src/settings-window.c:365-372 | the same toggle applied twice gives what it gives once |
| SettingsWindow.CheckboxActive | src/settings-window.c:186-191 | a box starts ticked exactly when the stored setting holds its id as a token |
| SettingsWindow.ToggledOnReadsActive | src/settings-window.c:186-191 | a box re-read from the list it just wrote shows the state it was toggled to |
| XKeyboard.NotSym | src/xkeyboard.c:30-39 | a name is no layout name exactly when it is one of the six listed non-symbols |
| XKeyboard.PlusAtSkips | src/xkeyboard.c:62-67 | no '+' occurs before the index found for the first '+' |
| XKeyboard.PlusAtIs | src/xkeyboard.c:62-67 | the first-'+' index is the unique index with no '+' before it and a '+' or the end at it |
| XKeyboard.LeadRunShape | src/xkeyboard.c:68-78 | a name is the prefix of letters and underscores, stopped by the first other character |
| XKeyboard.Trunc | src/xkeyboard.c:69-72 | a name keeps at most its first 31 characters and short names are kept whole |
| XKeyboard.RunConcat | src/xkeyboard.c:60-79 | the character loop reads a concatenation as one part after the other |
| XKeyboard.SkipToPlus | src/xkeyboard.c:62-67 | outside a name, everything up to the next '+' is skipped |
| XKeyboard.ReadNameSegment | src/xkeyboard.c:68-72 | inside a name, letters and underscores extend it, truncated at 31 characters |
| XKeyboard.ReadStop | src/xkeyboard.c:73-78 | inside a name, another character that is not '+' emits the name and leaves the name state |
| XKeyboard.ReadSegment | src/xkeyboard.c:68-78 | a segment holding another character emits its leading name and skips the rest up to the next '+' |
| XKeyboard.SegmentThenPlus | src/xkeyboard.c:62-66 | a segment and its '+' emit the segment's name and start a new one |
| XKeyboard.LastSegment | src/xkeyboard.c:81-82 | the open name at the end is emitted only when it is not empty |
| XKeyboard.RunSegments | src/xkeyboard.c:60-82 | inside a name, the state machine emits exactly the names of the segments |
| XKeyboard.SymParseIsReference | src/xkeyboard.c:51-85 | the state machine equals the description: drop everything before the first '+', then each '+'-separated segment gives its leading name when that is a layout name |
| XKeyboard.SymParseShape | src/xkeyboard.c:51-85 | every emitted name is a layout name, made of letters and underscores, at most 31 long |
| XKeyboard.PrefixIgnored | src/xkeyboard.c:62-67 | nothing before the first '+' is read |
| XKeyboard.SegmentsCons | src/xkeyboard.c:62-66 | a segment followed by '+' contributes its name before the rest |
| XKeyboard.VariantDropped | src/xkeyboard.c:73-78 | a variant in parentheses ends the layout name |
| XKeyboard.ThreeSegments | src/xkeyboard.c:60-82 | three segments contribute their three names in order |
| XKeyboard.ModelAndThree | src/xkeyboard.c:60-82 | a model and three segments yield the three names; the model is dropped |
| XKeyboard.TypicalSymbols | src/xkeyboard.c:51-85 | "pc+us+fr(oss)+inet" yields the layouts us and fr |
| XKeyboard.DoublePlus | src/xkeyboard.c:62-66 | two '+' in a row yield an empty name, which the non-symbol test lets through |
| XKeyboard.Groups | src/xkeyboard.c:209-212 | the layouts are the parsed names, or "us" alone when there are none, so there is always one |
| XKeyboard.NextGroup | src/xkeyboard.c:169 | switching moves to the next group and wraps from the last to the first |
| XKeyboard.CurrentLayout | src/xkeyboard.c:155 | the current layout is the name at the group index, and none past the list |
| XKeyboard.SwitchAdd | src/xkeyboard.c:169 | switching a times then b times is switching a+b times |
| XKeyboard.SwitchUp | src/xkeyboard.c:169 | below the end, switching k times moves k places on |
| XKeyboard.SwitchCycles | src/xkeyboard.c:169 | switching as many times as there are groups comes back to the start |
| Ramble.New | src/ramble.c:279-288 | a new ramble has an empty path, a zero count and is not started |
| Ramble.Region | src/ramble.c:33-63 | the invalidated rectangle is the segment's bounding box grown by 10 on every side, so it holds both points |
| Ramble.ChooseAlgo | src/ramble.c:165-173 | "time" selects time detection; any other name selects distance detection, with a warning unless it is "distance" |
| Ramble.Add | src/ramble.c:140-179 | the point is appended with its key; the first point of a path is an event; past 200 points the oldest is dropped, so the count stays within the bound |
| Ramble.Extend | src/ramble.c:148-161 | appending keeps the old points in order and drops the oldest only when the path was full |
| Ramble.Invalidated | src/ramble.c:155-157 | the new segment is invalidated when there is a previous point, and the dropped first segment when the path was full |
| Ramble.MarkLast | src/ramble.c:96 | setting the event flag touches only the last point |
| Ramble.AddInvalidates | src/ramble.c:155-157 | adding invalidates a rectangle holding the new and previous points, then one holding the two oldest when the path was full |
| Ramble.AddDetects | src/ramble.c:162-178 | without a key nothing runs and nothing is detected; with one, the chosen algorithm runs, the ramble is started and the result is the new point's event flag |
| Ramble.FirstPointIsEvent | src/ramble.c:149-152 | the first point of a path with a key is reported as an event |
| Ramble.UnknownAlgoIsDistance | src/ramble.c:170-173 | an unknown algorithm name behaves as "distance" apart from the warning |
| Ramble.Start | src/ramble.c:183-189 | starting marks the ramble started and then adds the point |
| Ramble.Started | src/ramble.c:192-197 | rambling counts as started when no ramble button is configured, else only once started |
| Ramble.Bounds | src/ramble.c:208-221 | a rectangle is accumulated exactly for non-empty paths |
| Ramble.BoundsEnclose | src/ramble.c:208-221 | the accumulated rectangle holds every point of the path, and its left and top edges are reached by a point |
| Ramble.BoundsNotTight | src/ramble.c:217-218 | the accumulated width grows with each point to the right of the left edge, so three points spanning 10 give width 20 |
| Ramble.LastEvent | src/ramble.c:222 | the remembered key is that of the last event point, and there is none exactly when no point is an event |
| Ramble.Reset | src/ramble.c:201-239 | the ramble is emptied and stopped; a rectangle is invalidated only for a non-empty path; an event is reported when the last event point's key differs from the given key |
| Ramble.ResetCovers | src/ramble.c:227-230 | the reset's padded rectangle holds every point of the path |
| Ramble.ResetLoop | src/ramble.c:205-225 | the loop over the path computes the accumulated rectangle and the last event point's key |
| Ramble.InputMethodChanged | src/ramble.c:267-276 | switching to any input method other than "ramble" resets the path; "ramble" keeps it |
| QtKeymap.ToCode | qt/src/keymap.cpp:62 | an integer stored into a byte code keeps its value modulo 256 |
| QtKeymap.KeyFromElement | qt/src/keymap.cpp:98-113 | the modifier is the `mod` attribute as a byte, 0 when absent; any `locker` attribute makes a locker; the symbols are kept in order |
| QtKeymap.Choose | qt/src/keymap.cpp:122-135 | no symbol is chosen only for a key without symbols; otherwise the choice is the first symbol with the highest score |
| QtKeymap.GetSymbol | qt/src/keymap.cpp:122-135 | the strict-improvement scan returns the first best-scoring symbol, and nothing for no symbols |
| QtKeymap.New | qt/src/keymap.cpp:23-29 | a new keymap has no key for any code and no modifier |
| QtKeymap.Entries | qt/src/keymap.cpp:60-65 | a code has a key exactly when some element's code truncates to it |
| QtKeymap.EntriesLastWins | qt/src/keymap.cpp:60-65 | the key stored for a code is that of the last element with that code |
| QtKeymap.Load | qt/src/keymap.cpp:38-69 | an unreadable file changes nothing; any parsed file drops every key; without a root it fails leaving no keys; otherwise the keys are the entries and the modifier is reset |
| QtKeymap.SymbolOf | qt/src/keymap.cpp:71-76 | a code without a key has no symbol; otherwise the first best match for the global modifier, the first symbol when no modifier is active |
| QtKeymap.AddModifier | qt/src/keymap.cpp:88-91 | the mask's bits become set, the others and the keys are kept |
| QtKeymap.RemoveModifier | qt/src/keymap.cpp:93-96 | byte subtraction: adding the mask back gives the old modifier, and it clears exactly the mask when all its bits were set |
| QtKeymap.OrSubRestores | qt/src/keymap.cpp:88-96 | OR then subtract restores a byte exactly when the mask's bits were clear |
| QtKeymap.AddRemoveRestores | qt/src/keymap.cpp:88-96 | adding then removing a modifier restores the keymap exactly when its bits were clear |
| QtKeymap.OverlapNotRestored | qt/src/keymap.cpp:88-96 | a bit already set is cleared by an add and remove of the same mask |
| QtKey.New | qt/src/key.cpp:27-44 | the code is the text truncated to a byte; width and height default to 2 and the shape to "default"; a new key is released and not hovered |
| QtKey.Press | qt/src/key.cpp:225-237 | a modifier key ignores a press; any other key emits its symbol's role and name then unlatch-all, and becomes pressed, hovered and timed |
| QtKey.MouseRelease | qt/src/key.cpp:169-212 | a click keeps the key's code and the keymap's keys; a modifier key ends unhovered and not pressed; any other key is pressed as by QtKey.Press |
| QtKey.ModifierClick | qt/src/key.cpp:169-212 | a released modifier key sets its modifier and locks (locker) or latches; a latched one locks; a locked or pressed one clears its modifier and is released; it is left unhovered |
| QtKey.ModifierPressable | qt/src/key.cpp:171-173 | a known modifier key can be clicked in any status under any global modifier |
| QtKey.ModifierCycle | qt/src/key.cpp:176-196 | three clicks take a non-locker modifier key through latched and locked back to released, restoring the global modifier when its bits were clear |
| QtKey.LockerCycle | qt/src/key.cpp:176-196 | two clicks lock and release a locker key, restoring the global modifier when its bits were clear |
| QtKey.PlainClickPresses | qt/src/key.cpp:209-211 | a click on a key without modifier is a press and leaves it pressed |
| QtKey.Unlatch | qt/src/key.cpp:214-223 | only a latched key is released, with its modifier removed, and reports it; any other key and the keymap are untouched |
| QtKey.Release | qt/src/key.cpp:239-246 | the release timer's end leaves the key released, unhovered and untimed, its geometry kept |
| QtKey.Hover | qt/src/key.cpp:150-167 | entering or leaving sets the hover flag and keeps the status |
| QtSymbol.ToByte | qt/src/symbol.cpp:92 | a value that fits a byte is stored as it is |
| QtSymbol.ToByteWraps | qt/src/symbol.cpp:92 | values 256 apart are stored as the same byte |
| QtSymbol.RoleOf | qt/src/symbol.cpp:30-40 | BackSpace, Return, Tab and ISO_Left_Tab, and only they, get their editing roles; a name is never plain text |
| QtSymbol.FromElement | qt/src/symbol.cpp:22-41 | without a name child the element's text is input as text; a named symbol outside the four editing keys is dead |
| QtSymbol.ModifiedFromElement | qt/src/symbol.cpp:89-93 | the symbol as read, its modifier the `mod` attribute truncated to a byte, 0 when absent |
| QtFlorence.New | qt/src/florence.cpp:24-98 | a fresh widget has no latched keys, no focus, no timer, no output, and the bookkeeping holds |
| QtFlorence.Dispatch | qt/src/florence.cpp:210-231 | text is input as itself; dead symbols produce nothing; the editing roles produce their actions |
| QtFlorence.Emit | qt/src/florence.cpp:210-231 | the pressed symbol's action is appended to the output and nothing else changes |
| QtFlorence.UnlatchEach | qt/src/florence.cpp:198-200 | each listed key that is latched is released; unlisted keys are untouched |
| QtFlorence.UnlatchEachReports | qt/src/florence.cpp:197-200 | the loop reports exactly whether some listed key was latched |
| QtFlorence.ListLatched | qt/src/florence.cpp:185-188 | a latching key is appended to the list |
| QtFlorence.UnlistLatched | qt/src/florence.cpp:190-193 | one occurrence of the key leaves the list and nothing else changes |
| QtFlorence.UnlatchAllKeys | qt/src/florence.cpp:195-208 | listed latched keys are released, all keys redraw once when one was, and the list is emptied |
| QtFlorence.UnlatchAllKeysClears | qt/src/florence.cpp:195-208 | after unlatching everything no key is latched, the bookkeeping holds, and a redraw happens exactly when the list was not empty |
| QtFlorence.MouseMove | qt/src/florence.cpp:144-159 | with a button held over another key, the old focus is left, the new key is entered and the repeat timer restarts at 1000 ms; otherwise nothing changes |
| QtFlorence.MousePress | qt/src/florence.cpp:134-142 | a press or double click is handled as a move |
| QtFlorence.Repeat | qt/src/florence.cpp:161-166 | the timer presses the focus key and restarts at 100 ms, keeping the bookkeeping |
| QtFlorence.Leave | qt/src/florence.cpp:168-174 | leaving stops the timer, unhovers the focus key and drops the focus; other keys are untouched |
| QtFlorence.MouseRelease | qt/src/florence.cpp:176-183 | the focus key takes the click, then the timer stops and the focus is dropped, keeping the bookkeeping |
| QtFlorence.ReleaseTimer | qt/src/key.cpp:239-246 | a key's release timer releases that key alone |
| QtFlorence.ClickPreserves | qt/src/florence.cpp:185-208 | whatever key is clicked, the latched list still holds exactly the latched keys once each |
| QtFlorence.ReleasedModifierClickPreserves | qt/src/florence.cpp:185-188 | a click that latches a modifier key lists it and keeps the bookkeeping |
| QtFlorence.HeldModifierClickPreserves | qt/src/florence.cpp:190-193 | a click that locks a latched key unlists it and keeps the bookkeeping |
| QtFlorence.PressUnfold | qt/src/key.cpp:225-237 | pressing a key without modifier marks it pressed, outputs its symbol, then unlatches everything |
| QtFlorence.HandleEmitUnlatch | qt/src/florence.cpp:195-231 | handling a symbol then unlatch-all outputs the symbol then unlatches every key |
| QtFlorence.PressPreserves | qt/src/florence.cpp:161-166 | a repeat press keeps the bookkeeping and, for a key without modifier, leaves nothing latched |
| QtFlorence.PlainPressPreserves | qt/src/key.cpp:225-237 | a press of a key without modifier keeps the bookkeeping and leaves nothing latched |
| QtFlorence.PressedEmitPreserves | qt/src/key.cpp:227-234 | marking a key pressed and emitting touches only that key and the output |
| QtFlorence.PlainClickOutputs | qt/src/key.cpp:209-211 | a click on a key without modifier outputs its symbol's action, leaves it pressed and unlatches every key |
| QtStyleItem.ReplaceAll | qt/src/styleitem.cpp:62-65 | a string without the pattern, or shorter than it, is returned unchanged |
| QtStyleItem.PrefixKept | qt/src/styleitem.cpp:62-65 | the result copies the input up to the first inserted replacement |
| QtStyleItem.AbsentKept | qt/src/styleitem.cpp:62-65 | replacing creates no occurrence of a text that the input lacks, when the replacement cannot start or end one |
| QtStyleItem.NoPlaceholderLeft | qt/src/styleitem.cpp:62-65 | replacing a placeholder by a colour sharing no first character with it leaves none |
| QtStyleItem.MakeSvgComplete | qt/src/styleitem.cpp:59-67 | with plain colours, the loaded drawing holds none of the four placeholders |
| QtStyleItem.MakeSvgNoPlaceholders | qt/src/styleitem.cpp:59-67 | a drawing without placeholders is loaded as stored |
| QtStyleItem.MakeSvgSlots | qt/src/styleitem.cpp:59-67 | only the chosen background slot and the three fixed slots affect the drawing |
| QtStyleItem.KeyPlaceholderTakesSlot | qt/src/styleitem.cpp:62 | the key placeholder becomes the chosen background colour |
| QtStyleItem.New | qt/src/styleitem.cpp:36-52 | without an svg element there is no renderer; otherwise the CSS and then the defs become the first children and the renderer loads the normal key colour |
| QtStyleItem.SetColours | qt/src/styleitem.cpp:69-72 | an item with a renderer reloads it from the stored drawing with the new colours; one without is untouched |
| QtStyleItem.SetColoursLastWins | qt/src/styleitem.cpp:69-72 | the stored drawing keeps its placeholders, so the last colours set win |
| WebText.Clamp | web/demo/florence.js:12 | a substring bound is clamped into the string |
| WebText.Substring | web/demo/florence.js:12 | bounds inside the string cut that slice, in either order; a bound before the start or past the end is clamped |
| WebText.CharAt | web/demo/florence.js:57 | a one-character substring equals a character exactly when that character is at the index |
| WebText.IndexOf | web/demo/florence.js:129 | the first occurrence of the character, or -1 when there is none |
| WebText.SearchSubstring | web/demo/florence.js:83-86 | searching a cut-out substring is searching the string between the bounds |
| WebText.IndexFromShorter | web/demo/florence.js:86 | a search over a shorter window finds what the longer one finds when that lies inside it |
| WebText.IndexFrom | web/demo/florence.js:83-86 | the first occurrence of the character between two bounds, or -1 when none lies there |
| WebText.LastBefore | web/demo/florence.js:54-55 | the last occurrence of the character before the cut, or -1 when none lies before it |
| WebText.LastIndexOf | web/demo/florence.js:55 | the last occurrence of the character, or -1 when there is none |
| WebText.LastBeforeSubstring | web/demo/florence.js:54-55 | the last occurrence in a prefix is the last one before the cut |
| WebText.SearchFindsLast | web/demo/florence.js:129-130 | a forward search finds a newline exactly when a backward one does |
| WebText.LastPairIndex | web/demo/florence.js:156 | the last newline-tab pair's index, or -1 when there is none |
| WebText.Count | web/demo/florence.js:123-125 | the number of matches is at most the length and zero exactly when the character is absent |
| WebText.Indent | web/demo/florence.js:136 | every newline gains a tab, so the length grows by the number of newlines |
| WebText.IndentHead | web/demo/florence.js:136 | the indented text starts as the text does, with a tab after a leading newline |
| WebText.Unindent | web/demo/florence.js:191 | every newline-tab pair loses its tab, so the length shrinks by the number of pairs |
| WebText.UnindentIndent | web/demo/florence.js:136 | removing the tabs after newlines undoes adding them |
| WebField.ToULong | web/demo/florence.js:30 | a negative offset wraps modulo 2^32, a non-negative one is kept |
| WebField.SetRange | web/demo/florence.js:14-15 | the end is clamped into the value and the start never passes the end |
| WebField.SetStart | web/demo/florence.js:14 | a start up to the end keeps the end; past it the end follows; past the value both go to its end; -1 wraps to the end |
| WebField.SetEnd | web/demo/florence.js:15 | an end from the start on keeps the start; before it the start follows; past the value it is clamped; -1 wraps to the end |
| WebField.SetValue | web/demo/florence.js:12 | a different value puts the caret at its end; the same value changes nothing |
| WebField.MoveCaret | web/demo/florence.js:30-31 | both offsets set to a position give a caret there, clamped into the value |
| WebField.LineStart | web/demo/florence.js:54-55 | the start of a line follows the last newline before the position |
| WebField.LineEnd | web/demo/florence.js:83-84 | the end of a line is the first newline from the position, or the end of the value |
| WebField.LineStartAt | web/demo/florence.js:54-55 | the line start is the unique point after a newline with no newline up to the position |
| WebField.LineEndAt | web/demo/florence.js:83-84 | the line end is the unique newline or end with no newline from the position |
| WebField.InsertAtCaret | web/demo/florence.js:10-21 | the text replaces the selection, the caret lands after it, and the column memory is dropped |
| WebField.Left | web/demo/florence.js:25-35 | the caret moves one left of the selection's start, wrapping to the end from the very start |
| WebField.Right | web/demo/florence.js:37-47 | the caret moves one right of the selection's end, stopping at the end of the value |
| WebField.RightAfterLeft | web/demo/florence.js:25-47 | left then right gives back a caret not at the start |
| WebField.LeftAfterRight | web/demo/florence.js:25-47 | right then left leaves the caret at the old end of the selection |
| WebField.BackSpace | web/demo/florence.js:96-114 | the character before a caret goes and the caret follows; at the start nothing goes and the caret wraps to the end; a selection is deleted |
| WebField.BackSpaceAfterInsert | web/demo/florence.js:96-114 | typing a character then backspace gives back the field |
| WebField.PlaceCaretAssigns | web/demo/florence.js:62-64 | assigning the start and then the end to it places a caret |
| WebField.Up | web/demo/florence.js:49-68 | on the first line nothing changes; otherwise the caret goes to the remembered column of the previous line, or its end when shorter |
| WebField.Down | web/demo/florence.js:70-94 | the column is remembered; on the last line the field is kept; otherwise the caret goes to that column of the next line, or its end when shorter |
| WebField.DownColumn | web/demo/florence.js:77-82 | the column memory is one past the end's column, kept only when the end is on a newline and a column was remembered |
| WebField.DownField | web/demo/florence.js:83-92 | the caret lands at the column of the next line or at its end |
| WebField.SearchLineEnd | web/demo/florence.js:83-85 | the forward search finds the end of the line exactly when it is not the end of the value |
| WebField.DownLands | web/demo/florence.js:86-89 | the windowed search lands at the column, or at the newline ending a shorter line |
| WebField.TailSubstring | web/demo/florence.js:86 | a window cut from the tail is the value between the shifted bounds |
| WebField.DownAfterUp | web/demo/florence.js:49-94 | up then down gives back the caret when the previous line is long enough |
| WebField.DownToColumn | web/demo/florence.js:70-94 | with the column remembered, down from the previous line lands back on it |
| WebField.TabLead | web/demo/florence.js:126-134 | a tab is put at the start of the selection's line, unless the selection starts on a newline |
| WebField.TabShape | web/demo/florence.js:123-137 | a tab over a selection grows the value by the newlines it holds plus one unless it starts on a newline |
| WebField.SelectRange | web/demo/florence.js:135-141 | setting the value then both offsets in order selects the range |
| WebField.Tab | web/demo/florence.js:116-146 | with a caret a tab is inserted; the column memory is dropped |
| WebField.TabField | web/demo/florence.js:135-141 | the new value is selected from the old start, moved past a non-tab, to the end advanced by the inserted tabs |
| WebField.TabSelection | web/demo/florence.js:123-141 | the value is indented and the end advances by exactly the number of inserted tabs |
| WebField.TabSelectionStart | web/demo/florence.js:139 | the start moves one right unless a tab lands there |
| WebField.CaretTab | web/demo/florence.js:153-160 | the removed tab follows the last newline-tab pair before the caret, or starts the value when no newline precedes it |
| WebField.LeftTabCaret | web/demo/florence.js:152-168 | that tab goes and the caret moves back one; otherwise nothing changes; the column memory is kept |
| WebField.LeftTabLead | web/demo/florence.js:173-189 | a tab at the selection's start is skipped; another tab opening the line is cut from the text before it |
| WebField.CountPairsSkipTab | web/demo/florence.js:170-179 | skipping a leading tab keeps the count of newline-tab pairs |
| WebField.LeftTabSelection | web/demo/florence.js:169-198 | a left tab over a selection keeps the value valid and the column memory as it was |
| WebField.LeftTabSelectionValue | web/demo/florence.js:190-192 | the value is the lead, the unindented selection and the rest |
| WebField.LeftTabSelectionRange | web/demo/florence.js:194-195 | counting removed tabs from zero, the selection covers exactly the unindented text |
| WebField.LeftTabSelectionShifts | web/demo/florence.js:174 | as written, "ab" selected whole ends selected from 1; counting from zero keeps 0 to 2 |
| WebField.LeftTab | web/demo/florence.js:148-200 | the corrected left tab of "## Findings" (count of removed tabs from 0): with a caret, the caret case; with a selection, the selection covers exactly the unindented text |
| WebField.LeftTabSelectionShiftedRange | web/demo/florence.js:174-195 | for every selection, the count starting at -1 leaves the same value and moves both offsets one right of the corrected ones, clamped into the value |
| WebField.LeftTabAsWritten | web/demo/florence.js:148-200 | left tab as the page runs it: with a caret it is the corrected left tab; with a selection it leaves the corrected value and a selection one right of the corrected one, clamped into the value |
| WebField.CaretTabAtLineStart | web/demo/florence.js:153-160 | right after a tab typed at a line start, that tab is the one found |
| WebField.LeftTabAtTypedTab | web/demo/florence.js:152-168 | a left tab then removes that tab |
| WebField.LeftTabAfterTab | web/demo/florence.js:116-168 | a tab typed at a line start is taken back by a left tab |
| WebField.LeftTabIsSelection | web/demo/florence.js:169-198 | with a selection, left tab counts removed tabs from zero |
| WebField.LeftTabAfterTabSelection | web/demo/florence.js:116-200 | with the corrected left tab, unindenting a selection just indented restores value and selection when it starts a line without a leading tab or newline |
| WebField.TabAtLineStart | web/demo/florence.js:123-141 | such a tab puts one tab before the selection and grows it over the new tabs |
| WebField.LeftTabAtIndented | web/demo/florence.js:169-198 | the corrected left tab removes the tab opening the selection's line and unindents the selection |
| WebField.LeftTabAtLineStart | web/demo/florence.js:176-192 | counting removed tabs from 0 (the corrected count), the tab goes, the pairs lose their tabs and the selection covers the result |
| WebKeys.FindFromFirst | web/demo/florence.js:256 | the search returns the first index where the pattern occurs, or -1 when it occurs nowhere |
| WebKeys.HasOccurs | web/demo/florence.js:256 | a search succeeds exactly when the pattern occurs somewhere |
| WebKeys.FirstPass | web/demo/florence.js:256-271 | the index of the first class-name test that passes; none before it passes |
| WebKeys.Dispatch | web/demo/florence.js:256-280 | only a one-character label is ever typed, and it is typed as it is |
| WebKeys.DispatchFirstPass | web/demo/florence.js:256-280 | the chain selects the command of the first test the class passes; with none, a one-character label is typed and anything else ignored |
| WebKeys.LeftTabCheckedFirst | web/demo/florence.js:260-263 | "ISO_Left_Tab" contains "Tab" and "Left" yet selects left tab, because it is checked before them |
| WebKeys.MissingHead | web/demo/florence.js:256 | a pattern whose first character is absent is not found |
| WebKeys.Apply | web/demo/florence.js:256-280 | each command applies its editing operation and keeps the editor well formed; doing nothing changes nothing |
| WebKeys.PlainKeyTypes | web/demo/florence.js:272-280 | a key whose class passes no test types its one-character label at the caret |
| WebKeys.LongLabelIgnored | web/demo/florence.js:279 | such a key with a label of another length leaves the field alone |
| WebKeys.Latch | web/demo/florence.js:228 | the mask's bits become set and the others are kept |
| WebKeys.Unlatch | web/demo/florence.js:235 | exactly the mask's bits are cleared |
| WebKeys.UnlatchAfterLatch | web/demo/florence.js:224-236 | unlatching undoes latching a mask the global mask did not hold |
| WebKeys.LatchAfterUnlatch | web/demo/florence.js:224-236 | latching undoes unlatching a mask the global mask held |
| WebKeys.LatchOrLock | web/demo/florence.js:224-229 | the group is marked latched or locked and its mask is added; other groups are untouched |
| WebKeys.UnlatchOrUnlock | web/demo/florence.js:231-236 | the group's latched or locked mark is removed and its mask cleared; other groups are untouched |
| WebKeys.ModifierRelease | web/demo/florence.js:284-299 | a locker toggles its lock; another modifier goes released to latched, latched to locked, locked to released; other groups are untouched |
| WebKeys.PlainRelease | web/demo/florence.js:300-305 | any other key leaves no group latched and keeps locks |
| WebKeys.UnlatchFrom | web/demo/florence.js:301-304 | groups from the index on lose their latched mark, earlier ones are untouched |
| WebKeys.LatchBits | web/demo/florence.js:228 | the bits of a latched mask are the union of the old bits and the mask's |
| WebKeys.UnlatchBits | web/demo/florence.js:235 | the bits of an unlatched mask are the old bits minus the mask's |
| WebKeys.MarkKeeps | web/demo/florence.js:224-229 | marking an unmarked group keeps the global mask equal to the bits of the marked groups |
| WebKeys.UnmarkKeeps | web/demo/florence.js:231-236 | unmarking a group keeps that agreement |
| WebKeys.ModifierReleaseKeeps | web/demo/florence.js:284-299 | a modifier release keeps the global mask equal to the bits of the marked groups |
| WebKeys.UnlatchFromKeeps | web/demo/florence.js:301-304 | unlatching the groups one by one keeps that agreement |
| WebKeys.PlainReleaseKeeps | web/demo/florence.js:300-305 | a plain key release keeps that agreement |
| WebKeys.UnlatchLatch | web/demo/florence.js:224-236 | latching then unlatching a mask clears it whatever was held |
| WebKeys.ClearAbsent | web/demo/florence.js:235 | clearing bits that are not held changes nothing |
| WebKeys.UnmarkedAbsent | web/demo/florence.js:224-236 | an unmarked group's bits are not in the global mask |
| WebKeys.LatchLockCycle | web/demo/florence.js:292-299 | three releases of a non-locker modifier key go latched, locked, then back to the start |
| WebKeys.LockerCycle | web/demo/florence.js:286-291 | two releases of a locker key lock and then restore the start |
| WebKeys.UnlatchFromNone | web/demo/florence.js:301-304 | with no group latched, unlatching changes nothing |
| WebKeys.UnlatchFromOne | web/demo/florence.js:301-304 | with one group latched, unlatching is unlatching that group |
| WebKeys.LatchOnce | web/demo/florence.js:282-305 | a latched modifier applies to one key: a modifier release then a plain release gives back the start |
| WebKeys.KeyRelease | web/demo/florence.js:247-309 | the selected command is applied to the field; a plain key leaves no group latched |
| WebKeys.KeyReleaseKeeps | web/demo/florence.js:247-309 | every key release keeps the global mask equal to the bits of the marked groups |
| KeyStatus.ClearedBitsRestore | src/status.c:97-106 | ORing in bits that were clear and then clearing them gives back the mask |
| QtFlorence.Click | qt/src/key.cpp:169-212 | a click keeps every key and keymap entry and leaves focus and timer alone |
| QtFlorence.PressKey | qt/src/florence.cpp:163 | a repeat press keeps every key and keymap entry and leaves focus and timer alone |
| QtFlorence.Handle | qt/src/florence.cpp:185-231 | handling a key's signals keeps every key and keymap entry and leaves focus and timer alone |
| QtFlorence.Take | qt/src/florence.cpp:185-231 | storing a key's new state and handling its signals keeps every key and keymap entry |

Some definitions carry no contract of their own. Each of them is stated
through the rows named with it:

- `XKeyboard.SymParse`, `Step`, `Run` and `Finish` (src/xkeyboard.c:51-85): by `XKeyboard.SymParseIsReference`, `SymParseShape`, `RunSegments` and the segment lemmas.
- `KeyFsm.MouseTable` and `TouchTable` (src/fsm.c:52-172): by `KeyFsm.Table`, `MouseErrors`, `TouchErrors` and the click lemmas.
- `SettingsWindow.Rewrite` (src/settings-window.c:361-372): by `SettingsWindow.Toggle`, `RewriteIdempotent` and `ToggledOnReadsActive`.
- `WebText.Search` by `WebText.SearchSubstring`; `WebText.CountPairs` by `WebText.Unindent` and `WebField.CountPairsSkipTab`.
- `WebField.SelectionTab` by `WebField.LeftTabLead`; `WebField.DownCaret` by `WebField.DownLands`; `WebField.PlaceCaret` by `WebField.PlaceCaretAssigns`.
- `WebKeys.FindFrom` and `Has` by `WebKeys.FindFromFirst` and `HasOccurs`.
- `Snapping.Near` by `Snapping.GridOffset`; `Snapping.Pull` by `Snapping.PullSound` and `Snapping.Scan`.

The remaining members without a row are proof steps for the rows above: facts about sequences, bit masks, remainders, the reference descriptions of the tokenizer and the colon lists, and small worked scenes.

## Left out

- Drawing and toolkit wiring are not modelled: `object.draw`, `scene.expose`, `connect`, `disconnect` and redraw requests in `editor/toolkit.py`. A redraw request is modelled as a flag.
- `editor/editor.py` is not part of this model. It holds the layout persistence and unit conversion. Geometry is taken as integers.
- `KeyFsm`: the actions of the transition tables are abstract labels. Focusing the window and drawing are recorded as effects, not performed.
- Status timer (src/status.c:69-94): not modelled; the timer is only a flag that reset clears.
- Keyboard drawing, hitmap and key rectangles (src/keyboard.c:127-208): not modelled, because they are cairo geometry on doubles.
- Keyboard sizes are reals. No arithmetic is done on them.
- Reading the XKB description from the X server (src/xkeyboard.c:88-144): not modelled. The symbols string is a parameter.
- XKeyboard.SymChar: `ISALPHA` (src/xkeyboard.c:68) is read as the ASCII letters a-z and A-Z, as in the C locale. Its definition is not part of this model, and a locale with more letters would accept more name characters.
- Group switching: the group index comes from the X server, and locking a group can fail there. The model takes the current group as a parameter.
- SettingsWindow.ConvertColor: `sscanf` into a static colour leaves the previous call's channels in place when the string is not well formed. The model returns no colour instead.
- SettingsWindow.ConvertColor: each `%02x` also skips leading white space, takes a sign and reads a single digit when the next character is not a hex digit. So "#1 2 3" gives the channels 0x100, 0x200 and 0x300 in the source, and "#1" followed by a non-hex character is a partial read that keeps stale channels. The model reads only the strict form "#RRGGBB" and gives no colour for every other string.
- SettingsWindow.ConvertColor: each channel is read through an `unsigned int *` into a 16-bit field. That overwrites the next field. The sequential stores still end with the modelled values on a little-endian machine, and the model does not represent memory layout.
- The settings dialog's GTK widgets, gconf change set and style previews are not modelled. The change set and the stored setting are parameters.
- Ramble detection: `ramble_distance` (`sqrt` over doubles) and `ramble_time` (a GTimer) are not modelled. They become an oracle `fires` that says whether the chosen algorithm marks the new point.
- Ramble drawing is not modelled. `src/ramble.h` declares struct fields that differ from the ones `ramble.c` uses; the model follows `ramble.c`.
- Qt painting, hover magnification, style loading and settings signals are not modelled. The release and auto-repeat timers are represented only by their state: running or not, and the interval.
- Selection.GetExtents: on a selection with no stored member the source computes `None - None` and raises a TypeError. The model returns no extents. Scene.Motion treats that as the motion handler aborting after the drag it has already applied: the moved members keep their reset hug and no redraw is requested.
- QtStyleItem.New: `svg.save(stream, 0)` re-serialises the XML, with its own attribute quoting and line breaks. The model joins the parts as plain strings. The `toAscii()` conversion before loading the renderer (qt/src/styleitem.cpp:50,71) is not modelled, because strings are sequences of characters with no encoding.
- QtKey.Press: requires a keymap entry for the key's code, and a symbol when the key has no modifier. The source dereferences both unchecked, and would crash otherwise.
- QtKey.MouseRelease: requires the same as QtKey.Press, for the same reason.
- QtFlorence.New: the widget is modelled only over layouts whose every key has a keymap entry, and a symbol when it has no modifier. `Consistent`, which every handler requires, carries that condition. `setLayout` (qt/src/florence.cpp:85-96) builds a key for every `<key>` element whatever the keymap holds, and only a click or a repeat on such a key dereferences the missing entry (qt/src/key.cpp:171, 228). A layout with one such key is therefore outside the model as a whole, including moves, leaves and clicks on its other keys.
- QtFlorence.UnlistLatched: requires the key to be listed. Removing index -1 from a `QVector` is undefined.
- QtKeymap.Entries: reads the `code` attribute as an already-parsed integer. `QString::toInt` parsing is not modelled; it gives 0 for text that is not a number.
- QtSymbol.ModifiedFromElement: reads the `mod` attribute as an already-parsed integer, for the same reason.
- `insertAtCaret`: the Internet Explorer branch and the fallback branch are not modelled. Only the standard selection branch is.
- Web demo focus, `scrollTop` restoring, `onKeyPress` styling, `updateGlobalMod` symbol visibility, hovering and document loading are not modelled.
- WebField.ToULong: selection offsets of 2^32 or more are not wrapped, because a field value that long is not modelled. Caret moves that wrap -1 are stated for values shorter than 2^32 - 1.
- WebKeys.KeyRelease: the page's DOM class strings are modelled as data.
  - A modifier key's group index and locker flag are given directly.
  - Each group has a latched flag and a locked flag, and a byte mask.
  - The `parseInt` of `modN` class names is not modelled.
- WebKeys.PlainRelease: the page unlatches once per latched shape. The model unlatches once per latched group. Unlatching twice is the same as once.
- WebKeys.ModifierReleaseKeeps: requires a locker key's group not to be latched. Locker keys only ever lock, so this holds on any page where a group's keys agree on being lockers.
- WebKeys.Apply: `DoLeftTab` applies the corrected `WebField.LeftTab` of "## Findings". The page as written runs `WebField.LeftTabAsWritten`, whose selection is one character further right (`WebField.LeftTabSelectionShiftedRange`).
- WebKeys.KeyRelease: an ISO_Left_Tab release over a selection therefore ends with the corrected selection, not the page's shifted one. For "ab" selected from 0 to 2 the page selects 1 to 2.
- WebKeys.Dispatch: a label is a sequence of Unicode characters. JavaScript counts UTF-16 code units, so a label outside the Basic Multilingual Plane has length 2 and the page types nothing for it (web/demo/florence.js:279). The model types it.
- WebField.BackSpace: removes one character. The page removes one UTF-16 code unit (web/demo/florence.js:96-114), so it splits a character outside the Basic Multilingual Plane.
- WebField.Left: steps over one character. The page steps over one UTF-16 code unit (web/demo/florence.js:25-36).
- WebField.Right: steps over one character. The page steps over one UTF-16 code unit (web/demo/florence.js:37-47).
- WebText: every offset counts characters, not UTF-16 code units. The two agree only on text inside the Basic Multilingual Plane.
- Keymap generators and web pages other than the demo script are not modelled.
- `status_focus_set`, `status_focus_get`, `status_keycode_get`, `status_view_set` and `status_free` are not modelled. They only assign or read a field, or call the view. `focus` is a field of the status.

## Findings

| source | as written | input that shows it | evidently intended | confidence | as-written member | corrected member |
|---|---|---|---|---|---|---|
| web/demo/florence.js:174 | left tab over a selection starts its count of removed tabs at -1, so the new selection starts one character right of the unindented text and an unchanged selection loses its first character | value "ab" selected from 0 to 2: nothing is removed, and the selection becomes 1 to 2 | the count starts at 0, so the selection covers exactly the unindented text, 0 to 2 here | not executed; follows from the code as written | WebField.LeftTabAsWritten (WebField.LeftTabSelection with shift -1), shown by WebField.LeftTabSelectionShifts and WebField.LeftTabSelectionShiftedRange | WebField.LeftTab, with WebField.LeftTabSelectionRange |

=== FILE: colon_list.dfy ===
/**
 * Colon-separated string lists, as glib splits and joins them: the
 * keyboard's "extensions" setting is such a list of extension names.
 */
module ColonList {
  import Seqs

  /** The separator. */
  const Colon: char := ':'

  /** Index of the first colon of `s`, or `|s|` when there is none. */
  function ColonAt(s: string): (i: nat)
    ensures i <= |s|
    ensures forall j :: 0 <= j < i ==> s[j] != Colon
    ensures i < |s| ==> s[i] == Colon
  {
    if s == [] then 0
    else if s[0] == Colon then 0
    else 1 + ColonAt(s[1..])
  }

  /** The fields of `s` between colons; there is always at least one. */
  function Fields(s: string): (ts: seq<string>)
    ensures |ts| >= 1
    ensures forall i :: 0 <= i < |ts| ==> Colon !in ts[i]
    decreases |s|
  {
    var i := ColonAt(s);
    if i == |s| then [s] else [s[..i]] + Fields(s[i + 1..])
  }

  /**
   * Splitting with `g_strsplit(s, ":", -1)`: fields between colons, except
   * that the empty string splits into no fields at all.
   */
  function Split(s: string): (ts: seq<string>)
    ensures s == [] <==> ts == []
    ensures forall i :: 0 <= i < |ts| ==> Colon !in ts[i]
  {
    if s == [] then [] else Fields(s)
  }

  /** Joining with `g_strjoinv(":", ts)`: the tokens with a colon between each two. */
  function Join(ts: seq<string>): (s: string)
    ensures ts == [] ==> s == []
    ensures |ts| == 1 ==> s == ts[0]
  {
    if ts == [] then []
    else if |ts| == 1 then ts[0]
    else ts[0] + [Colon] + Join(ts[1..])
  }

  /** Tokens that can survive a join and split: none holds a colon. */
  ghost predicate Plain(ts: seq<string>)
  {
    forall i :: 0 <= i < |ts| ==> Colon !in ts[i]
  }

  /** Joining the fields of a string gives the string back. */
  lemma {:induction false} JoinFields(s: string)
    ensures Join(Fields(s)) == s
    decreases |s|
  {
    var i := ColonAt(s);
    if i < |s| {
      JoinFields(s[i + 1..]);
      assert s == s[..i] + [Colon] + s[i + 1..];
    }
  }

  /** Splitting then joining is the identity on strings. */
  lemma JoinSplit(s: string)
    ensures Join(Split(s)) == s
  {
    if s != [] {
      JoinFields(s);
    }
  }

  /** The first colon of `t + ":" + rest`, when `t` has none, is right after `t`. */
  lemma ColonAfter(t: string, rest: string)
    requires Colon !in t
    ensures ColonAt(t + [Colon] + rest) == |t|
  {
    var s := t + [Colon] + rest;
    assert s[|t|] == Colon;
    assert forall j :: 0 <= j < |t| ==> s[j] == t[j];
  }

  /** A string without colons is its own first colon-free prefix. */
  lemma NoColon(t: string)
    requires Colon !in t
    ensures ColonAt(t) == |t|
  {
    assert forall j :: 0 <= j < |t| ==> t[j] != Colon;
  }

  /** Splitting the fields of a join of plain tokens recovers them. */
  lemma {:induction false} FieldsJoin(ts: seq<string>)
    requires |ts| >= 1 && Plain(ts)
    ensures Fields(Join(ts)) == ts
    decreases |ts|
  {
    if |ts| == 1 {
      NoColon(ts[0]);
    } else {
      var rest := Join(ts[1..]);
      var s := ts[0] + [Colon] + rest;
      assert Colon !in ts[0];
      ColonAfter(ts[0], rest);
      assert s[..|ts[0]|] == ts[0];
      assert s[|ts[0]| + 1..] == rest;
      FieldsJoin(ts[1..]);
      assert ts == [ts[0]] + ts[1..];
    }
  }

  /**
   * Split undoes Join on plain tokens, except for the single empty token,
   * which joins to the empty string and splits to nothing.
   */
  lemma SplitJoin(ts: seq<string>)
    requires Plain(ts) && ts != [[]]
    ensures Split(Join(ts)) == ts
  {
    if ts != [] {
      FieldsJoin(ts);
      if |ts| > 1 {
        assert Join(ts) != [] by {
          assert Join(ts)[|ts[0]|] == Colon;
        }
      }
    }
  }

  /** Whether `name` is, exactly, one of the tokens of `list`. */
  predicate Member(name: string, list: string)
  {
    name in Split(list)
  }

  /**
   * The token-by-token search the sources run: walk the tokens until one
   * compares equal to `name`.
   */
  method Find(name: string, list: string) returns (found: bool)
    ensures found <==> Member(name, list)
    ensures found ==> exists i :: 0 <= i < |Split(list)| && Split(list)[i] == name
  {
    var ts := Split(list);
    var i := 0;
    found := false;
    while i < |ts| && !found
      invariant 0 <= i <= |ts|
      invariant found ==> 0 < i && ts[i - 1] == name
      invariant !found ==> forall j :: 0 <= j < i ==> ts[j] != name
    {
      found := ts[i] == name;
      i := i + 1;
    }
  }

  /** The tokens other than `name`, in their order. */
  function Without(ts: seq<string>, name: string): (r: seq<string>)
    ensures |r| <= |ts|
    ensures forall t :: t in r <==> t in ts && t != name
  {
    Seqs.Filter(ts, t => t != name)
  }

  /** Dropping a name from plain tokens leaves them plain. */
  lemma WithoutPlain(ts: seq<string>, name: string)
    requires Plain(ts)
    ensures Plain(Without(ts, name))
  {
    var r := Without(ts, name);
    forall i | 0 <= i < |r| ensures Colon !in r[i] {
      assert r[i] in r;
    }
  }

  /** Dropping a name that is absent changes nothing. */
  lemma {:induction false} WithoutAbsent(ts: seq<string>, name: string)
    requires name !in ts
    ensures Without(ts, name) == ts
  {
    if ts != [] {
      WithoutAbsent(ts[1..], name);
      assert ts == [ts[0]] + ts[1..];
    }
  }

  /** Dropping a name from a list that ends with it drops the end too. */
  lemma {:induction false} WithoutAppend(ts: seq<string>, name: string)
    ensures Without(ts + [name], name) == Without(ts, name)
  {
    if ts == [] {
      assert Seqs.Filter([name], t => t != name) == [];
    } else {
      WithoutAppend(ts[1..], name);
      assert (ts + [name])[1..] == ts[1..] + [name];
    }
  }
}

=== FILE: common.dfy ===
/** Small shared vocabulary: an optional value (the sources' NULL / None)
    and the sequence operations the list-handling code of the sources uses. */
module Optional {

  /** A value that may be absent: NULL, Python's None. */
  datatype Option<+T> = None | Some(value: T)
}

module Seqs {

  /** No element occurs twice. */
  ghost predicate NoDup<T>(s: seq<T>) {
    forall i, j :: 0 <= i < j < |s| ==> s[i] != s[j]
  }

  /** Removes the first occurrence of `x`, as Python's `list.remove` and
      glib's `g_list_delete_link(g_list_find(..))` do. */
  function RemoveFirst<T(==,!new)>(s: seq<T>, x: T): (r: seq<T>)
    ensures x !in s ==> r == s
    ensures x in s ==> |r| == |s| - 1
    ensures multiset(r) == multiset(s) - multiset{x}
    ensures forall y :: y in r ==> y in s
  {
    if |s| == 0 then s
    else if s[0] == x then
      assert s == [s[0]] + s[1..];
      s[1..]
    else
      assert s == [s[0]] + s[1..];
      [s[0]] + RemoveFirst(s[1..], x)
  }

  /** On a list without duplicates, removing `x` leaves exactly the other elements. */
  lemma {:induction false} RemoveFirstNoDup<T(!new)>(s: seq<T>, x: T)
    requires NoDup(s)
    ensures NoDup(RemoveFirst(s, x))
    ensures forall y :: y in RemoveFirst(s, x) <==> y in s && y != x
  {
    if |s| == 0 {
    } else if s[0] == x {
    } else {
      RemoveFirstNoDup(s[1..], x);
      var r := RemoveFirst(s[1..], x);
      assert RemoveFirst(s, x) == [s[0]] + r;
      assert s[0] !in r;
    }
  }

  /** The elements of `s` that satisfy `p`, in their original order. */
  function Filter<T(!new)>(s: seq<T>, p: T -> bool): (r: seq<T>)
    ensures |r| <= |s|
    ensures forall y :: y in r <==> y in s && p(y)
  {
    if |s| == 0 then []
    else
      assert s == [s[0]] + s[1..];
      (if p(s[0]) then [s[0]] else []) + Filter(s[1..], p)
  }

  lemma {:induction false} FilterNoDup<T(!new)>(s: seq<T>, p: T -> bool)
    requires NoDup(s)
    ensures NoDup(Filter(s, p))
  {
    if |s| > 0 {
      FilterNoDup(s[1..], p);
      assert s[0] !in Filter(s[1..], p);
    }
  }

  /** Filtering depends only on the predicate's values on the list. */
  lemma {:induction false} FilterCongruent<T(!new)>(s: seq<T>, p: T -> bool, q: T -> bool)
    requires forall x :: x in s ==> p(x) == q(x)
    ensures Filter(s, p) == Filter(s, q)
  {
    if |s| > 0 {
      FilterCongruent(s[1..], p, q);
    }
  }

  /** Two duplicate-free lists with no common element concatenate to a
      duplicate-free list. */
  lemma NoDupConcat<T>(a: seq<T>, b: seq<T>)
    requires NoDup(a) && NoDup(b) && forall x :: x in a ==> x !in b
    ensures NoDup(a + b)
  {
    var c := a + b;
    forall i, j | 0 <= i < j < |c| ensures c[i] != c[j] {
      if i < |a| && j >= |a| {
        assert c[i] in a && c[j] == b[j - |a|];
      } else if i >= |a| {
        assert c[i] == b[i - |a|] && c[j] == b[j - |a|];
      }
    }
  }

  /** The list back to front, as Python's `__reversed__` walks it. */
  function Reverse<T>(s: seq<T>): (r: seq<T>)
    ensures |r| == |s|
    ensures forall i :: 0 <= i < |s| ==> r[i] == s[|s| - 1 - i]
    decreases |s|
  {
    if |s| == 0 then [] else [s[|s| - 1]] + Reverse(s[..|s| - 1])
  }

  /** Reversal keeps the elements and their distinctness. */
  lemma ReverseFacts<T>(s: seq<T>)
    ensures forall x :: x in Reverse(s) <==> x in s
    ensures NoDup(s) ==> NoDup(Reverse(s))
  {
    var r := Reverse(s);
    forall x | x in s ensures x in r {
      var i :| 0 <= i < |s| && s[i] == x;
      assert r[|s| - 1 - i] == x;
    }
    if NoDup(s) {
      forall i, j | 0 <= i < j < |r| ensures r[i] != r[j] {
        assert r[i] == s[|s| - 1 - i] && r[j] == s[|s| - 1 - j];
      }
    }
  }
}

=== FILE: fsm.dfy ===
/**
 * The keyboard's key finite-state machine: two transition tables, one for
 * mouse input (which simulates sticky keys) and one for touch screens, each
 * indexed by event, key type and current key state. Processing an event
 * writes the new state into the key, focuses the window, then runs the
 * entry's actions in order. The actions themselves live in the status
 * module; here they are labels.
 */
module KeyFsm {
  import opened Optional

  /** The four events fed to the machine. */
  datatype Event = Press | Release | Pressed | Released

  /** The key type computed from its modifier and locker flags. */
  datatype KeyType = Normal | Modifier | Locker

  /**
   * The key states, in the order the tables list them. A table row given
   * fewer initialisers than there are states has its trailing entries
   * zero-filled by C, i.e. the first state with no actions.
   */
  datatype KeyState = KPressed | KReleased | KLocked | KLatched

  /** Labels of the status actions the tables name. */
  datatype Action =
    | StatusPress | StatusRelease | UpdateKey | UpdateView
    | Latch | Unlatch | Lock | Unlock
    | PressLatched | ReleaseLatched | UnlatchAll | Error

  /** A table entry: the state switched to and the actions run afterwards. */
  datatype Change = Change(next: KeyState, actions: seq<Action>)

  /** The input method of the status; only touch selects the touch table. */
  datatype InputMethod = Mouse | Touch

  /** A key as the machine sees it. */
  datatype Key = Key(state: KeyState, modifier: nat, locker: bool)

  /** Effects of one processed event, in the order they happen. */
  datatype Effect = FocusWindow | Run(action: Action)

  // The action groups of the tables.
  const P: seq<Action> := [StatusPress]
  const R: seq<Action> := [StatusRelease]
  const PU: seq<Action> := [StatusPress, UpdateKey]
  const RU: seq<Action> := [StatusRelease, UpdateKey]
  const LA: seq<Action> := [Latch, UpdateView]
  const ULALO: seq<Action> := [Unlatch, Lock, UpdateView]
  const LO: seq<Action> := [Lock, UpdateView]
  const UL: seq<Action> := [Unlock, UpdateView]
  const PLAP: seq<Action> := [PressLatched, StatusPress]
  const RRLAULAA: seq<Action> := [StatusRelease, ReleaseLatched, UnlatchAll, UpdateView]
  const UV: seq<Action> := [UpdateView]
  const U: seq<Action> := [UpdateKey]
  const ERR: seq<Action> := [Error]

  /** The zero-filled entry C supplies for a missing initialiser. */
  const Zero: Change := Change(KPressed, [])

  /** The mouse table. */
  function MouseTable(e: Event, t: KeyType, s: KeyState): Change
  {
    match (e, t, s)
    case (Press, Normal, KPressed) => Change(KPressed, [])
    case (Press, Normal, KReleased) => Change(KReleased, PLAP)
    case (Press, Modifier, KPressed) => Change(KReleased, ERR)
    case (Press, Modifier, KReleased) => Change(KLatched, LA)
    case (Press, Modifier, KLocked) => Change(KReleased, UL)
    case (Press, Modifier, KLatched) => Change(KLocked, ULALO)
    case (Press, Locker, KPressed) => Change(KReleased, ERR)
    case (Press, Locker, KReleased) => Change(KReleased, P)
    case (Press, Locker, KLocked) => Change(KLocked, P)

    case (Release, Normal, KPressed) => Change(KPressed, RRLAULAA)
    case (Release, Normal, KReleased) => Change(KReleased, [])
    case (Release, Modifier, KPressed) => Change(KReleased, ERR)
    case (Release, Modifier, KReleased) => Change(KReleased, U)
    case (Release, Modifier, KLocked) => Change(KLocked, U)
    case (Release, Modifier, KLatched) => Change(KLatched, U)
    case (Release, Locker, KPressed) => Change(KReleased, ERR)
    case (Release, Locker, KReleased) => Change(KReleased, RU)
    case (Release, Locker, KLocked) => Change(KLocked, RU)

    case (Pressed, Normal, KPressed) => Change(KPressed, [])
    case (Pressed, Normal, KReleased) => Change(KPressed, UV)
    case (Pressed, Modifier, KPressed) => Change(KPressed, ERR)
    case (Pressed, Modifier, KReleased) => Change(KReleased, [])
    case (Pressed, Modifier, KLocked) => Change(KLocked, [])
    case (Pressed, Modifier, KLatched) => Change(KLatched, [])
    case (Pressed, Locker, KPressed) => Change(KReleased, ERR)
    case (Pressed, Locker, KReleased) => Change(KLocked, LO)
    case (Pressed, Locker, KLocked) => Change(KReleased, UL)

    case (Released, Normal, KPressed) => Change(KReleased, UV)
    case (Released, Normal, KReleased) => Change(KReleased, [])
    case (Released, Modifier, KPressed) => Change(KReleased, ERR)
    case (Released, Modifier, KReleased) => Change(KReleased, [])
    case (Released, Modifier, KLocked) => Change(KLocked, [])
    case (Released, Modifier, KLatched) => Change(KLatched, [])
    case (Released, Locker, KPressed) => Change(KReleased, ERR)
    case (Released, Locker, KReleased) => Change(KReleased, [])
    case (Released, Locker, KLocked) => Change(KLocked, [])

    case _ => Zero
  }

  /** The touch table. */
  function TouchTable(e: Event, t: KeyType, s: KeyState): Change
  {
    match (e, t, s)
    case (Press, Normal, KPressed) => Change(KPressed, [])
    case (Press, Normal, KReleased) => Change(KReleased, PU)
    case (Press, Modifier, KPressed) => Change(KReleased, [])
    case (Press, Modifier, KReleased) => Change(KLatched, [])
    case (Press, Modifier, KLocked) => Change(KReleased, [])
    case (Press, Modifier, KLatched) => Change(KLocked, [])
    case (Press, Locker, KPressed) => Change(KReleased, [])
    case (Press, Locker, KReleased) => Change(KReleased, [])
    case (Press, Locker, KLocked) => Change(KLocked, [])

    case (Release, Normal, KPressed) => Change(KPressed, RRLAULAA)
    case (Release, Normal, KReleased) => Change(KPressed, PLAP)
    case (Release, Modifier, KPressed) => Change(KReleased, ERR)
    case (Release, Modifier, KReleased) => Change(KLatched, LA)
    case (Release, Modifier, KLocked) => Change(KReleased, UL)
    case (Release, Modifier, KLatched) => Change(KLocked, ULALO)
    case (Release, Locker, KPressed) => Change(KReleased, ERR)
    case (Release, Locker, KReleased) => Change(KReleased, P)
    case (Release, Locker, KLocked) => Change(KLocked, P)

    case (Pressed, Normal, KPressed) => Change(KPressed, RRLAULAA)
    case (Pressed, Normal, KReleased) => Change(KPressed, [])
    case (Pressed, Modifier, KPressed) => Change(KPressed, ERR)
    case (Pressed, Modifier, KReleased) => Change(KReleased, [])
    case (Pressed, Modifier, KLocked) => Change(KLocked, [])
    case (Pressed, Modifier, KLatched) => Change(KLatched, [])
    case (Pressed, Locker, KPressed) => Change(KReleased, ERR)
    case (Pressed, Locker, KReleased) => Change(KReleased, R)
    case (Pressed, Locker, KLocked) => Change(KLocked, R)

    case (Released, Normal, KPressed) => Change(KReleased, UV)
    case (Released, Normal, KReleased) => Change(KReleased, ERR)
    case (Released, Modifier, KPressed) => Change(KReleased, ERR)
    case (Released, Modifier, KReleased) => Change(KReleased, [])
    case (Released, Modifier, KLocked) => Change(KLocked, [])
    case (Released, Modifier, KLatched) => Change(KLatched, [])
    case (Released, Locker, KPressed) => Change(KReleased, ERR)
    case (Released, Locker, KReleased) => Change(KLocked, LO)
    case (Released, Locker, KLocked) => Change(KReleased, UL)

    case _ => Zero
  }

  /** The table selected by the input method. */
  function Table(im: InputMethod, e: Event, t: KeyType, s: KeyState): (c: Change)
    ensures im == Touch ==> c == TouchTable(e, t, s)
    ensures im != Touch ==> c == MouseTable(e, t, s)
  {
    if im == Touch then TouchTable(e, t, s) else MouseTable(e, t, s)
  }

  /** The type of a key: normal without a modifier, else locker or modifier. */
  function TypeOf(k: Key): (t: KeyType)
    ensures t == Normal <==> k.modifier == 0
    ensures t == Locker <==> k.modifier != 0 && k.locker
    ensures t == Modifier <==> k.modifier != 0 && !k.locker
  {
    if k.modifier != 0 then (if k.locker then Locker else Modifier) else Normal
  }

  /**
   * One event: a missing key does nothing; otherwise the key takes the
   * entry's state, the window is focused, and the entry's actions follow.
   */
  function Process(im: InputMethod, key: Option<Key>, e: Event): (r: (Option<Key>, seq<Effect>))
    ensures key.None? ==> r == (None, [])
    ensures key.Some? ==> (r.0.Some?
      && r.0.value == key.value.(state := Table(im, e, TypeOf(key.value), key.value.state).next))
    ensures key.Some? ==> (|r.1| == 1 + |Table(im, e, TypeOf(key.value), key.value.state).actions|
      && r.1[0] == FocusWindow
      && forall i :: 0 <= i < |r.1| - 1 ==>
           r.1[i + 1] == Run(Table(im, e, TypeOf(key.value), key.value.state).actions[i]))
  {
    match key
    case None => (None, [])
    case Some(k) =>
      var c := Table(im, e, TypeOf(k), k.state);
      (Some(k.(state := c.next)), [FocusWindow] + Effects(c.actions))
  }

  /** The action list as effects, in order. */
  function Effects(acts: seq<Action>): (r: seq<Effect>)
    ensures |r| == |acts|
    ensures forall i :: 0 <= i < |acts| ==> r[i] == Run(acts[i])
  {
    if acts == [] then [] else [Run(acts[0])] + Effects(acts[1..])
  }

  /** The state a key reaches after a sequence of events. */
  function Drive(im: InputMethod, k: Key, es: seq<Event>): (r: Key)
    ensures r.modifier == k.modifier && r.locker == k.locker
    decreases |es|
  {
    if es == [] then k
    else Drive(im, Process(im, Some(k), es[0]).0.value, es[1..])
  }

  /** Whether an entry reports a state error. */
  predicate Flags(c: Change)
  {
    Error in c.actions
  }

  /**
   * The mouse table flags an error exactly for a modifier or locker key
   * that is in the pressed state, whatever the event.
   */
  lemma MouseErrors(e: Event, t: KeyType, s: KeyState)
    ensures Flags(MouseTable(e, t, s)) <==> t != Normal && s == KPressed
  {
  }

  /**
   * The touch table flags an error for a modifier or locker key that is
   * pressed, except on a press event, and for a normal key that receives
   * a released event while released.
   */
  lemma TouchErrors(e: Event, t: KeyType, s: KeyState)
    ensures Flags(TouchTable(e, t, s)) <==>
      (t != Normal && s == KPressed && e != Press)
      || (t == Normal && s == KReleased && e == Released)
  {
  }

  /**
   * The states a key of a given type can legitimately be in: a normal key
   * is pressed or released, a modifier key is never pressed, a locker key
   * is released or locked.
   */
  predicate Legal(t: KeyType, s: KeyState)
  {
    match t
    case Normal => s == KPressed || s == KReleased
    case Modifier => s != KPressed
    case Locker => s == KReleased || s == KLocked
  }

  /** Both tables keep a key in a legal state, and never flag an error there. */
  lemma StepKeepsLegal(im: InputMethod, e: Event, t: KeyType, s: KeyState)
    requires Legal(t, s)
    requires !(im == Touch && t == Normal && s == KReleased && e == Released)
    ensures Legal(t, Table(im, e, t, s).next)
    ensures !Flags(Table(im, e, t, s))
  {
  }

  /** A key started in a legal state stays legal along any safe run. */
  lemma {:induction false} DriveKeepsLegal(im: InputMethod, k: Key, es: seq<Event>)
    requires Legal(TypeOf(k), k.state)
    requires im == Mouse || forall i :: 0 <= i < |es| ==> es[i] != Released
    ensures Legal(TypeOf(Drive(im, k, es)), Drive(im, k, es).state)
    decreases |es|
  {
    if es != [] {
      var k1 := Process(im, Some(k), es[0]).0.value;
      StepKeepsLegal(im, es[0], TypeOf(k), k.state);
      assert TypeOf(k1) == TypeOf(k);
      assert im == Mouse || forall i :: 0 <= i < |es[1..]| ==> es[1..][i] != Released by {
        if im != Mouse {
          forall i | 0 <= i < |es[1..]| ensures es[1..][i] != Released {
            assert es[1..][i] == es[i + 1];
          }
        }
      }
      DriveKeepsLegal(im, k1, es[1..]);
    }
  }

  /**
   * The sticky-key cycle: a modifier key that is not a locker goes
   * released, latched, locked, released under three successive presses
   * with the mouse, or three successive releases on a touch screen.
   */
  lemma ModifierCycle(im: InputMethod, k: Key)
    requires k.modifier != 0 && !k.locker && k.state == KReleased
    ensures var e := if im == Touch then Release else Press;
      Drive(im, k, [e]).state == KLatched
      && Drive(im, k, [e, e]).state == KLocked
      && Drive(im, k, [e, e, e]) == k
  {
    var e := if im == Touch then Release else Press;
    var k1 := k.(state := KLatched);
    var k2 := k.(state := KLocked);
    assert Process(im, Some(k), e).0.value == k1;
    assert Process(im, Some(k1), e).0.value == k2;
    assert Process(im, Some(k2), e).0.value == k;
    assert [e, e, e][1..] == [e, e];
    assert [e, e][1..] == [e];
    assert [e][1..] == [];
    assert Drive(im, k2, [e]) == k;
    assert Drive(im, k1, [e]) == k2;
    assert Drive(im, k1, [e, e]) == k;
  }

  /**
   * A normal key with the mouse, driven through press, pressed, release
   * and released, stays released, becomes pressed, stays pressed and is
   * released again.
   */
  lemma MouseNormalClick(k: Key, click: seq<Event>)
    requires k.modifier == 0 && k.state == KReleased
    requires click == [Press, Pressed, Release, Released]
    ensures Drive(Mouse, k, click[..1]).state == KReleased
    ensures Drive(Mouse, k, click[..2]).state == KPressed
    ensures Drive(Mouse, k, click[..3]).state == KPressed
    ensures Drive(Mouse, k, click) == k
  {
    var kp := k.(state := KPressed);
    MouseClickSteps(k);
    DriveFour(Mouse, [k, k, kp, kp, k], click);
    assert click[..4] == click;
  }

  /** The single steps of a mouse click on a plain key. */
  lemma MouseClickSteps(k: Key)
    requires k.modifier == 0 && k.state == KReleased
    ensures var kp := k.(state := KPressed);
      && Process(Mouse, Some(k), Press).0.value == k
      && Process(Mouse, Some(k), Pressed).0.value == kp
      && Process(Mouse, Some(kp), Release).0.value == kp
      && Process(Mouse, Some(kp), Released).0.value == k
  {
  }

  /** Driving through events one at a time visits the states each step reaches. */
  lemma {:induction false} DriveFour(im: InputMethod, ks: seq<Key>, es: seq<Event>)
    requires |ks| == |es| + 1
    requires forall i :: 0 <= i < |es| ==> Process(im, Some(ks[i]), es[i]).0.value == ks[i + 1]
    ensures forall n :: 0 <= n <= |es| ==> Drive(im, ks[0], es[..n]) == ks[n]
    decreases |es|
  {
    if es != [] {
      DriveFour(im, ks[1..], es[1..]);
      forall n | 0 <= n <= |es| ensures Drive(im, ks[0], es[..n]) == ks[n] {
        if n > 0 {
          assert es[..n] == [es[0]] + es[1..][..n - 1];
          DriveCons(im, ks[0], es[0], es[1..][..n - 1]);
        }
      }
    }
  }

  /** Driving through a first event and then the rest. */
  lemma DriveCons(im: InputMethod, k: Key, e: Event, rest: seq<Event>)
    ensures Drive(im, k, [e] + rest) == Drive(im, Process(im, Some(k), e).0.value, rest)
  {
    assert ([e] + rest)[1..] == rest;
  }

  /**
   * With the mouse, the pressed and released events never move a modifier
   * key that is released, locked or latched: only the press event cycles it.
   */
  lemma MouseModifierIgnoresFeedback(k: Key, e: Event)
    requires TypeOf(k) == Modifier && k.state != KPressed
    requires e == Pressed || e == Released
    ensures Process(Mouse, Some(k), e).0 == Some(k)
    ensures Process(Mouse, Some(k), e).1 == [FocusWindow]
  {
  }
}

=== FILE: keyboard.dfy ===
/**
 * A keyboard of the layout: the main keyboard (no name) or a named
 * extension such as the numeric pad, with its logical size and keys. An
 * extension is shown only when its name is listed in the colon-separated
 * "extensions" setting.
 */
module Keyboard {
  import opened Optional
  import ColonList
  import KeyStatus
  import Seqs

  /** Where an extension sits relative to the main keyboard. */
  datatype Placement = Void | Left | Right | Top | Bottom

  datatype Keyboard = Keyboard(
    name: Option<string>,
    width: real,
    height: real,
    placement: Placement,
    keys: seq<KeyStatus.KeyRef>)

  /** A keyboard as allocated before its layout is read: zeroed, named, placed. */
  function New(name: Option<string>, placement: Placement): (kb: Keyboard)
    ensures kb.name == name && kb.placement == placement
    ensures kb.keys == [] && kb.width == 0.0 && kb.height == 0.0
  {
    Keyboard(name, 0.0, 0.0, placement, [])
  }

  /**
   * Whether the keyboard is shown: always for the main keyboard; for an
   * extension, only when the setting exists and lists its name as a token.
   */
  function Activated(kb: Keyboard, extensions: Option<string>): (on: bool)
    ensures kb.name.None? ==> on
    ensures kb.name.Some? && extensions.None? ==> !on
    ensures kb.name.Some? && extensions.Some? ==>
      (on <==> exists i :: 0 <= i < |ColonList.Split(extensions.value)|
                 && ColonList.Split(extensions.value)[i] == kb.name.value)
  {
    match kb.name
    case None => true
    case Some(n) => extensions.Some? && ColonList.Member(n, extensions.value)
  }

  /** The layout reader reports the logical size. */
  function SetSize(kb: Keyboard, width: real, height: real): (r: Keyboard)
    ensures r.width == width && r.height == height
    ensures r.name == kb.name && r.placement == kb.placement && r.keys == kb.keys
  {
    kb.(width := width, height := height)
  }

  /** Setting the size twice keeps only the second. */
  lemma SetSizeOverrides(kb: Keyboard, w1: real, h1: real, w2: real, h2: real)
    ensures SetSize(SetSize(kb, w1, h1), w2, h2) == SetSize(kb, w2, h2)
  {
  }

  /**
   * The table from hardware key codes to keys, when the caller keeps one,
   * and the key status.
   */
  datatype Inserted = Inserted(kb: Keyboard, status: KeyStatus.Status,
                               table: Option<map<nat, KeyStatus.KeyRef>>, pressed: bool)

  /** Records a key under its code in the key table, when there is one. */
  function Record(table: Option<map<nat, KeyStatus.KeyRef>>, code: nat, k: KeyStatus.KeyRef): (r: Option<map<nat, KeyStatus.KeyRef>>)
    ensures table.None? <==> r.None?
    ensures table.Some? ==>
      r.value.Keys == table.value.Keys + {code} && r.value[code] == k
      && forall c :: c in table.value && c != code ==> r.value[c] == table.value[c]
  {
    match table case None => None case Some(t) => Some(t[code := k])
  }

  /**
   * The layout reader reports a key: it is appended to the keyboard and,
   * when there is a key table, recorded under its code. A modifier key
   * whose modifier intersects the hardware's locked modifiers is created
   * pressed and recorded in the status as `KeyStatus.Press` records it.
   * `mod` is the key's modifier from the modifier map, `locked` the locked
   * modifiers.
   */
  function InsertKey(kb: Keyboard, st: KeyStatus.Status, table: Option<map<nat, KeyStatus.KeyRef>>,
                     code: nat, k: KeyStatus.KeyRef,
                     mod: KeyStatus.Mask, locked: KeyStatus.Mask): (r: Inserted)
    ensures r.kb.keys == kb.keys + [k]
    ensures r.kb == kb.(keys := r.kb.keys)
    ensures r.table == Record(table, code, k)
    ensures r.pressed <==> mod != 0 && mod & locked != 0
    ensures r.pressed ==> r.status == KeyStatus.Press(st, k, mod, true)
    ensures r.pressed ==> k in r.status.pressedKeys && r.status.globalmod & mod == mod
    ensures !r.pressed ==> r.status == st
  {
    var kb1 := kb.(keys := kb.keys + [k]);
    var t1 := Record(table, code, k);
    if mod != 0 && mod & locked != 0 then
      Inserted(kb1, KeyStatus.Press(st, k, mod, true), t1, true)
    else Inserted(kb1, st, t1, false)
  }

  /**
   * A key created pressed is one release away from the status before it,
   * when it was not yet pressed and its modifier bits were clear.
   */
  lemma InsertKeyThenRelease(kb: Keyboard, st: KeyStatus.Status, table: Option<map<nat, KeyStatus.KeyRef>>,
                             code: nat, k: KeyStatus.KeyRef, mod: KeyStatus.Mask, locked: KeyStatus.Mask)
    requires Seqs.NoDup(st.pressedKeys) && k !in st.pressedKeys && st.globalmod & mod == 0
    ensures var r := InsertKey(kb, st, table, code, k, mod, locked);
      r.pressed ==> KeyStatus.Release(r.status, k, mod, false) == st
  {
    if mod != 0 && mod & locked != 0 {
      KeyStatus.PressReleaseRestores(st, k, mod);
    }
  }
}

=== FILE: qt_florence.dfy ===
/**
 * The Qt keyboard widget: its keys, the shared keymap, the list of latched
 * keys, the focus key under the mouse while a button is held and the auto-repeat timer.
 * Keys are identified by their index in the scene. A key's signals are
 * connected directly to the widget, so each is handled as the key emits
 * it; the widget's own signals to the text input are collected in an
 * output log.
 */
module QtFlorence {
  import opened Optional
  import Seqs
  import QtSymbol
  import opened QtKeymap
  import opened QtKey

  /** What the widget asks of the text input. */
  datatype Output = InputText(text: string) | Backspace | Enter | Tab | LeftTab

  datatype Board = Board(
    keys: seq<Key>,
    keymap: Keymap,
    latched: seq<nat>,
    focus: Option<nat>,
    repeat: Option<nat>,   // the auto-repeat timer's interval while it runs, in ms
    redraws: nat,          // how many times every key was asked to redraw
    output: seq<Output>)

  /** The first interval of the auto-repeat timer and the one that follows each repeat. */
  const RepeatDelay := 1000
  const RepeatInterval := 100

  /** A fresh widget over the keys of a layout. */
  function New(keys: seq<Key>, keymap: Keymap): (b: Board)
    requires forall j :: 0 <= j < |keys| ==> keys[j].status == Released && !keys[j].releaseTimer
    requires forall j :: 0 <= j < |keys| ==> Pressable(keys[j], keymap)
    ensures Consistent(b)
    ensures b.latched == [] && b.focus.None? && b.repeat.None? && b.output == []
  {
    assert forall j :: 0 <= j < |keys| ==> Known(keys[j], keymap) by {
      forall j | 0 <= j < |keys| ensures Known(keys[j], keymap) {
        assert Pressable(keys[j], keymap);
      }
    }
    Board(keys, keymap, [], None, None, 0, [])
  }

  /** What every handler needs: listed keys exist and every key has a keymap entry. */
  ghost predicate WellFormed(b: Board)
  {
    (forall j :: 0 <= j < |b.latched| ==> b.latched[j] < |b.keys|)
    && (forall j :: 0 <= j < |b.keys| ==> Known(b.keys[j], b.keymap))
  }

  /**
   * The bookkeeping the widget relies on: the latched list holds, once
   * each, exactly the keys whose status is latched; every key can be
   * pressed; a key waits on its release timer only while it is pressed
   * and has no modifier; the focus key exists.
   */
  ghost predicate Consistent(b: Board)
  {
    WellFormed(b)
    && Seqs.NoDup(b.latched)
    && (forall j :: 0 <= j < |b.keys| ==> (b.keys[j].status == Latched <==> j in b.latched))
    && (forall j :: 0 <= j < |b.keys| ==> Pressable(b.keys[j], b.keymap))
    && (forall j :: 0 <= j < |b.keys| && b.keys[j].releaseTimer ==>
          b.keys[j].status == Pressed && KeyModifier(b.keymap, b.keys[j].code) == 0)
    && (b.focus.Some? ==> b.focus.value < |b.keys|)
  }

  /** A pressed symbol's role, as the widget passes it on; dead symbols produce nothing. */
  function Dispatch(role: QtSymbol.Role, text: string): (o: Option<Output>)
    ensures o.None? <==> role == QtSymbol.Dead
    ensures o == Some(InputText(text)) <==> role == QtSymbol.Text
    ensures o.Some? && o.value.InputText? ==> o.value.text == text
  {
    match role
    case Text => Some(InputText(text))
    case Backspace => Some(Backspace)
    case Return => Some(Enter)
    case Tab => Some(Tab)
    case LeftTab => Some(LeftTab)
    case Dead => None
  }

  /** The widget passes a pressed symbol on to the text input; nothing else changes. */
  function Emit(b: Board, role: QtSymbol.Role, text: string): (r: Board)
    ensures r == b.(output := r.output)
    ensures role == QtSymbol.Dead ==> r == b
    ensures role != QtSymbol.Dead ==> r.output == b.output + [Dispatch(role, text).value]
  {
    match Dispatch(role, text) case None => b case Some(o) => b.(output := b.output + [o])
  }

  /** Unlatches each listed key in turn; reports whether any of them was latched (`UnlatchEachReports`). */
  function UnlatchEach(keys: seq<Key>, km: Keymap, list: seq<nat>): (r: (seq<Key>, Keymap, bool))
    requires forall j :: 0 <= j < |list| ==> list[j] < |keys|
    requires forall j :: 0 <= j < |keys| ==> Known(keys[j], km)
    ensures |r.0| == |keys| && r.1.keys == km.keys
    ensures forall j :: 0 <= j < |keys| && j !in list ==> r.0[j] == keys[j]
    ensures forall j :: 0 <= j < |keys| && j in list ==>
      r.0[j] == (if keys[j].status == Latched then keys[j].(status := Released) else keys[j])
    decreases |list|
  {
    if list == [] then (keys, km, false)
    else
      var i := list[0];
      var (k1, km1, u) := Unlatch(keys[i], km);
      var keys1 := keys[i := k1];
      assert forall j :: 0 <= j < |keys1| ==> Known(keys1[j], km1) by {
        forall j | 0 <= j < |keys1| ensures Known(keys1[j], km1) {
          assert Known(keys[j], km);
        }
      }
      var (keys2, km2, u2) := UnlatchEach(keys1, km1, list[1..]);
      assert forall j :: j in list <==> j == i || j in list[1..];
      (keys2, km2, u || u2)
  }

  /** Unlatching the listed keys reports exactly whether one of them was latched. */
  lemma {:induction false} UnlatchEachReports(keys: seq<Key>, km: Keymap, list: seq<nat>)
    requires forall j :: 0 <= j < |list| ==> list[j] < |keys|
    requires forall j :: 0 <= j < |keys| ==> Known(keys[j], km)
    ensures UnlatchEach(keys, km, list).2 <==> exists j :: j in list && keys[j].status == Latched
    decreases |list|
  {
    if list != [] {
      var i := list[0];
      var (k1, km1, u) := Unlatch(keys[i], km);
      var keys1 := keys[i := k1];
      assert forall j :: 0 <= j < |keys1| ==> Known(keys1[j], km1) by {
        forall j | 0 <= j < |keys1| ensures Known(keys1[j], km1) {
          assert Known(keys[j], km);
        }
      }
      UnlatchEachReports(keys1, km1, list[1..]);
      assert forall j :: j in list <==> j == i || j in list[1..];
      assert keys1[i].status != Latched;
      assert forall j :: j in list[1..] && j != i ==> keys1[j] == keys[j];
    }
  }

  /** A key reports it latched: it is appended to the list. */
  function ListLatched(b: Board, i: nat): (r: Board)
    ensures r.latched == b.latched + [i]
    ensures r == b.(latched := r.latched)
  {
    b.(latched := b.latched + [i])
  }

  /**
   * A key reports it is no longer latched: its first occurrence leaves the
   * list. Removing at the index of a key that is not listed is undefined
   * for the vector, so the key must be listed.
   */
  function UnlistLatched(b: Board, i: nat): (r: Board)
    requires i in b.latched
    ensures |r.latched| == |b.latched| - 1
    ensures multiset(r.latched) == multiset(b.latched) - multiset{i}
    ensures r == b.(latched := r.latched)
  {
    b.(latched := Seqs.RemoveFirst(b.latched, i))
  }

  /**
   * Releases every listed key that is still latched, redraws all keys when
   * one of them was, and empties the list.
   */
  function UnlatchAllKeys(b: Board): (r: Board)
    requires WellFormed(b)
    ensures WellFormed(r)
    ensures r.latched == [] && |r.keys| == |b.keys| && r.keymap.keys == b.keymap.keys
    ensures forall j :: 0 <= j < |b.keys| ==>
      r.keys[j] == (if j in b.latched && b.keys[j].status == Latched then b.keys[j].(status := Released) else b.keys[j])
    ensures r.redraws == b.redraws + (if exists j :: j in b.latched && b.keys[j].status == Latched then 1 else 0)
    ensures r.focus == b.focus && r.repeat == b.repeat && r.output == b.output
  {
    UnlatchEachReports(b.keys, b.keymap, b.latched);
    var (keys, km, any) := UnlatchEach(b.keys, b.keymap, b.latched);
    b.(keys := keys, keymap := km, latched := [], redraws := b.redraws + if any then 1 else 0)
  }

  /** Handles the signals key `i` emitted, in order. */
  function Handle(b: Board, i: nat, sigs: seq<Signal>): (r: Board)
    requires WellFormed(b) && i < |b.keys|
    requires forall j :: 0 <= j < |sigs| && sigs[j] == UnlatchKey ==> j == 0 && i in b.latched
    ensures WellFormed(r) && |r.keys| == |b.keys| && r.keymap.keys == b.keymap.keys
    ensures r.focus == b.focus && r.repeat == b.repeat
    decreases |sigs|
  {
    if sigs == [] then b
    else
      var b1 := match sigs[0]
        case KeyPressed(role, text) => Emit(b, role, text)
        case LatchKey => ListLatched(b, i)
        case UnlatchKey => UnlistLatched(b, i)
        case UnlatchAll => UnlatchAllKeys(b)
        case UpdateAll => b.(redraws := b.redraws + 1);
      assert forall j :: 0 <= j < |b1.latched| ==> b1.latched[j] in b.latched || b1.latched[j] == i;
      Handle(b1, i, sigs[1..])
  }

  /** Key `i` takes an outcome: its new state and the keymap are stored, then its signals handled. */
  function Take(b: Board, i: nat, o: Outcome): (r: Board)
    requires WellFormed(b) && i < |b.keys| && o.keymap.keys == b.keymap.keys && o.key.code == b.keys[i].code
    requires forall j :: 0 <= j < |o.signals| && o.signals[j] == UnlatchKey ==> j == 0 && i in b.latched
    ensures WellFormed(r) && |r.keys| == |b.keys| && r.keymap.keys == b.keymap.keys
    ensures r.focus == b.focus && r.repeat == b.repeat
  {
    Handle(b.(keys := b.keys[i := o.key], keymap := o.keymap), i, o.signals)
  }

  /** The release of a click on key `i`. */
  function Click(b: Board, i: nat): (r: Board)
    requires Consistent(b) && i < |b.keys|
    ensures WellFormed(r) && |r.keys| == |b.keys| && r.keymap.keys == b.keymap.keys
    ensures r.focus == b.focus && r.repeat == b.repeat
  {
    Take(b, i, QtKey.MouseRelease(b.keys[i], b.keymap))
  }

  /** A press of key `i`, from the auto-repeat timer. */
  function PressKey(b: Board, i: nat): (r: Board)
    requires Consistent(b) && i < |b.keys|
    ensures WellFormed(r) && |r.keys| == |b.keys| && r.keymap.keys == b.keymap.keys
    ensures r.focus == b.focus && r.repeat == b.repeat
  {
    Take(b, i, QtKey.Press(b.keys[i], b.keymap))
  }

  /**
   * The mouse moves, with `hit` the key under it. With a button held and
   * a different key than the focus, the repeat timer stops, the old focus
   * is left, and the new key, if any, is entered and starts the timer.
   */
  function MouseMove(b: Board, hit: Option<nat>, buttons: bool): (r: Board)
    requires Consistent(b) && (hit.Some? ==> hit.value < |b.keys|)
    ensures Consistent(r)
    ensures !buttons || hit == b.focus ==> r == b
    ensures |r.keys| == |b.keys|
    ensures buttons && hit != b.focus ==>
      r.focus == hit
      && r.repeat == (if hit.Some? then Some(RepeatDelay) else None)
      && (hit.Some? ==> r.keys[hit.value].hovered)
      && (b.focus.Some? && hit != b.focus ==> !r.keys[b.focus.value].hovered)
    ensures r.latched == b.latched && r.keymap == b.keymap && r.output == b.output
  {
    if buttons && hit != b.focus then
      var keys1 := if b.focus.Some? then b.keys[b.focus.value := Hover(b.keys[b.focus.value], false)] else b.keys;
      var keys2 := if hit.Some? then keys1[hit.value := Hover(keys1[hit.value], true)] else keys1;
      b.(keys := keys2, focus := hit, repeat := if hit.Some? then Some(RepeatDelay) else None)
    else b
  }

  /** A press (or double click) is handled as a move. */
  function MousePress(b: Board, hit: Option<nat>, buttons: bool): (r: Board)
    requires Consistent(b) && (hit.Some? ==> hit.value < |b.keys|)
    ensures r == MouseMove(b, hit, buttons)
  {
    MouseMove(b, hit, buttons)
  }

  /** The auto-repeat timer fires: the focus key is pressed and the timer restarts at the shorter interval. */
  function Repeat(b: Board): (r: Board)
    requires Consistent(b)
    ensures Consistent(r)
    ensures r.repeat == Some(RepeatInterval) && r.focus == b.focus
    ensures b.focus.None? ==> r == b.(repeat := Some(RepeatInterval))
  {
    if b.focus.Some? then
      PressPreserves(b, b.focus.value);
      PressKey(b, b.focus.value).(repeat := Some(RepeatInterval))
    else b.(repeat := Some(RepeatInterval))
  }

  /** The mouse leaves the widget: the timer stops and the focus key is left. */
  function Leave(b: Board): (r: Board)
    requires Consistent(b)
    ensures Consistent(r)
    ensures r.focus.None? && r.repeat.None? && |r.keys| == |b.keys|
    ensures b.focus.Some? ==> !r.keys[b.focus.value].hovered
    ensures forall j :: 0 <= j < |b.keys| && Some(j) != b.focus ==> r.keys[j] == b.keys[j]
  {
    var keys := if b.focus.Some? then b.keys[b.focus.value := Hover(b.keys[b.focus.value], false)] else b.keys;
    b.(keys := keys, focus := None, repeat := None)
  }

  /** The button is released: the focus key takes the click, the timer stops and the focus is dropped. */
  function MouseRelease(b: Board): (r: Board)
    requires Consistent(b)
    ensures Consistent(r)
    ensures r.focus.None? && r.repeat.None?
    ensures b.focus.None? ==> r == b.(repeat := None)
  {
    if b.focus.Some? then
      ClickPreserves(b, b.focus.value);
      Click(b, b.focus.value).(focus := None, repeat := None)
    else b.(repeat := None)
  }

  /** A key's release timer fires. */
  function ReleaseTimer(b: Board, i: nat): (r: Board)
    requires Consistent(b) && i < |b.keys| && b.keys[i].releaseTimer
    ensures Consistent(r) && |r.keys| == |b.keys|
    ensures r.keys[i] == Release(b.keys[i]) && r == b.(keys := r.keys)
    ensures forall j :: 0 <= j < |b.keys| && j != i ==> r.keys[j] == b.keys[j]
  {
    b.(keys := b.keys[i := Release(b.keys[i])])
  }

  /**
   * Unlatching everything keeps the bookkeeping and leaves no key
   * latched; the keys redraw exactly when something was latched.
   */
  lemma UnlatchAllKeysClears(b: Board)
    requires Consistent(b)
    ensures Consistent(UnlatchAllKeys(b))
    ensures forall j :: 0 <= j < |b.keys| ==> UnlatchAllKeys(b).keys[j].status != Latched
    ensures UnlatchAllKeys(b).redraws == b.redraws + (if b.latched != [] then 1 else 0)
  {
    var r := UnlatchAllKeys(b);
    if b.latched != [] {
      assert b.latched[0] in b.latched && b.keys[b.latched[0]].status == Latched;
    }
    forall j | 0 <= j < |b.keys| ensures Pressable(r.keys[j], r.keymap) {
      assert Pressable(b.keys[j], b.keymap);
    }
  }

  /** Handling a key's signals after its own update keeps the bookkeeping, in every case of a click. */
  lemma ClickPreserves(b: Board, i: nat)
    requires Consistent(b) && i < |b.keys|
    ensures Consistent(Click(b, i))
  {
    var k := b.keys[i];
    if KeyModifier(b.keymap, k.code) != 0 {
      if k.status == Released {
        ReleasedModifierClickPreserves(b, i);
      } else {
        HeldModifierClickPreserves(b, i);
      }
    } else {
      PlainClickPresses(k, b.keymap);
      assert Click(b, i) == PressKey(b, i);
      PressPreserves(b, i);
    }
  }

  /** A click on a released modifier key locks it or latches and lists it, keeping the bookkeeping. */
  lemma ReleasedModifierClickPreserves(b: Board, i: nat)
    requires Consistent(b) && i < |b.keys|
    requires KeyModifier(b.keymap, b.keys[i].code) != 0 && b.keys[i].status == Released
    ensures Consistent(Click(b, i))
  {
    var k := b.keys[i];
    var o := QtKey.MouseRelease(k, b.keymap);
    var b1 := b.(keys := b.keys[i := o.key], keymap := o.keymap);
    ModifierClick(k, b.keymap);
    assert !o.key.releaseTimer;
    assert i !in b.latched;
    if IsLocker(b.keymap, k.code) {
      var b2 := b1.(redraws := b1.redraws + 1);
      assert Click(b, i) == b2;
      KeysPreserved(b, b2);
    } else {
      var b2 := ListLatched(b1, i);
      var b3 := b2.(redraws := b2.redraws + 1);
      assert Handle(b2, i, [UpdateAll]) == b3;
      assert Click(b, i) == b3;
      Seqs.NoDupConcat(b.latched, [i]);
      KeysPreserved(b, b3);
    }
  }

  /** A click on a latched modifier key locks it and unlists it; on a locked one releases it; the bookkeeping is kept. */
  lemma HeldModifierClickPreserves(b: Board, i: nat)
    requires Consistent(b) && i < |b.keys|
    requires KeyModifier(b.keymap, b.keys[i].code) != 0 && b.keys[i].status != Released
    ensures Consistent(Click(b, i))
  {
    var k := b.keys[i];
    var o := QtKey.MouseRelease(k, b.keymap);
    var b1 := b.(keys := b.keys[i := o.key], keymap := o.keymap);
    ModifierClick(k, b.keymap);
    assert !o.key.releaseTimer;
    if k.status == Latched {
      var b2 := UnlistLatched(b1, i);
      assert Click(b, i) == b2;
      Seqs.RemoveFirstNoDup(b.latched, i);
      KeysPreserved(b, b2);
    } else {
      assert i !in b.latched;
      var b2 := b1.(redraws := b1.redraws + 1);
      assert Click(b, i) == b2;
      KeysPreserved(b, b2);
    }
  }

  /** The key as a press leaves it. */
  function PressedKey(k: Key): Key
  {
    k.(status := Pressed, hovered := true, releaseTimer := true)
  }

  /** A press of a key without modifier: the key is pressed, its symbol emitted, then every key unlatched. */
  lemma PressUnfold(b: Board, i: nat)
    requires Consistent(b) && i < |b.keys| && KeyModifier(b.keymap, b.keys[i].code) == 0
    ensures var s := SymbolOf(b.keymap, b.keys[i].code).value.symbol;
      PressKey(b, i) == UnlatchAllKeys(Emit(b.(keys := b.keys[i := PressedKey(b.keys[i])]), s.role, s.name))
  {
    var k := b.keys[i];
    var s := SymbolOf(b.keymap, k.code).value.symbol;
    var o := QtKey.Press(k, b.keymap);
    assert o == Outcome(PressedKey(k), b.keymap, [KeyPressed(s.role, s.name), UnlatchAll]);
    var b1 := b.(keys := b.keys[i := PressedKey(k)]);
    assert b.(keys := b.keys[i := o.key], keymap := o.keymap) == b1;
    HandleEmitUnlatch(b1, i, s.role, s.name);
  }

  /** Handling an emitted symbol then `UnlatchAll`: the symbol is output, then every key unlatched. */
  lemma HandleEmitUnlatch(b: Board, i: nat, role: QtSymbol.Role, text: string)
    requires WellFormed(b) && i < |b.keys|
    ensures Handle(b, i, [KeyPressed(role, text), UnlatchAll]) == UnlatchAllKeys(Emit(b, role, text))
  {
    var sigs := [KeyPressed(role, text), UnlatchAll];
    var b2 := Emit(b, role, text);
    assert sigs[1..] == [UnlatchAll];
    assert Handle(b, i, sigs) == Handle(b2, i, [UnlatchAll]);
    assert Handle(b2, i, [UnlatchAll]) == Handle(UnlatchAllKeys(b2), i, []);
  }

  /** A press of a key without modifier ends with nothing latched and keeps the bookkeeping. */
  lemma PressPreserves(b: Board, i: nat)
    requires Consistent(b) && i < |b.keys|
    ensures Consistent(PressKey(b, i))
    ensures KeyModifier(b.keymap, b.keys[i].code) == 0 ==>
      PressKey(b, i).latched == [] && forall j :: 0 <= j < |b.keys| ==> PressKey(b, i).keys[j].status != Latched
  {
    var k := b.keys[i];
    if KeyModifier(b.keymap, k.code) == 0 {
      PlainPressPreserves(b, i);
    } else {
      var o := QtKey.Press(k, b.keymap);
      assert o == Outcome(k, b.keymap, []);
      assert b.(keys := b.keys[i := k], keymap := b.keymap) == b;
    }
  }

  /** The plain case of `PressPreserves`. */
  lemma PlainPressPreserves(b: Board, i: nat)
    requires Consistent(b) && i < |b.keys| && KeyModifier(b.keymap, b.keys[i].code) == 0
    ensures Consistent(PressKey(b, i))
    ensures PressKey(b, i).latched == [] && forall j :: 0 <= j < |b.keys| ==> PressKey(b, i).keys[j].status != Latched
  {
    var k := b.keys[i];
    PressUnfold(b, i);
    var s := SymbolOf(b.keymap, k.code).value.symbol;
    var b2 := Emit(b.(keys := b.keys[i := PressedKey(k)]), s.role, s.name);
    PressedEmitPreserves(b, i, s.role, s.name);
    var b3 := UnlatchAllKeys(b2);
    forall j | 0 <= j < |b.keys| ensures b3.keys[j].status != Latched {
      if j != i && b.keys[j].status == Latched {
        assert j in b2.latched;
      }
    }
    forall j | 0 <= j < |b.keys| ensures Pressable(b3.keys[j], b3.keymap) {
      assert Pressable(b.keys[j], b.keymap);
    }
    forall j | 0 <= j < |b.keys| && b3.keys[j].releaseTimer
      ensures b3.keys[j].status == Pressed && KeyModifier(b3.keymap, b3.keys[j].code) == 0
    {
      if j != i {
        assert b.keys[j].releaseTimer;
      }
    }
  }

  /** Pressing key `i` and emitting keeps the bookkeeping, but for the key itself, which is pressed and no longer latched. */
  lemma PressedEmitPreserves(b: Board, i: nat, role: QtSymbol.Role, text: string)
    requires Consistent(b) && i < |b.keys| && KeyModifier(b.keymap, b.keys[i].code) == 0
    ensures var b2 := Emit(b.(keys := b.keys[i := PressedKey(b.keys[i])]), role, text);
      WellFormed(b2) && |b2.keys| == |b.keys| && b2.keymap == b.keymap && b2.latched == b.latched
      && forall j :: 0 <= j < |b.keys| && j != i ==> b2.keys[j] == b.keys[j]
  {
  }

  /** Every key stays pressable when only statuses, flags and the global modifier change. */
  lemma KeysPreserved(b: Board, r: Board)
    requires Consistent(b) && |r.keys| == |b.keys| && r.keymap.keys == b.keymap.keys
    requires forall j :: 0 <= j < |b.keys| ==> r.keys[j].code == b.keys[j].code
    ensures forall j :: 0 <= j < |r.keys| ==> Pressable(r.keys[j], r.keymap)
  {
    forall j | 0 <= j < |r.keys| ensures Pressable(r.keys[j], r.keymap) {
      assert Pressable(b.keys[j], b.keymap);
    }
  }

  /**
   * A click on a key without modifier sends its symbol's action to the
   * text input (nothing for a dead symbol), leaves the key pressed and
   * releases every latched key.
   */
  lemma PlainClickOutputs(b: Board, i: nat)
    requires Consistent(b) && i < |b.keys| && KeyModifier(b.keymap, b.keys[i].code) == 0
    ensures var s := SymbolOf(b.keymap, b.keys[i].code).value.symbol;
      var r := Click(b, i);
      r.output == b.output + (if s.role == QtSymbol.Dead then [] else [Dispatch(s.role, s.name).value])
      && r.latched == [] && r.keys[i].status == Pressed
      && forall j :: 0 <= j < |b.keys| ==> r.keys[j].status != Latched
  {
    PlainClickPresses(b.keys[i], b.keymap);
    assert Click(b, i) == PressKey(b, i);
    PressUnfold(b, i);
    PressPreserves(b, i);
  }
}

=== FILE: qt_key.dfy ===
/**
 * A key of the Qt widget and its status machine. A modifier key cycles
 * through latched and locked on successive clicks and keeps the keymap's
 * global modifier in step; any other key is pressed, emits its symbol and
 * releases the latched modifiers. The key asks the keymap about its code
 * without checking that the code has a key there, so every operation here
 * requires it.
 */
module QtKey {
  import opened Optional
  import QtSymbol
  import opened QtKeymap

  datatype Status = Released | Pressed | Latched | Locked

  datatype Key = Key(
    code: Code,
    status: Status,
    hovered: bool,
    releaseTimer: bool,
    width: real,
    height: real,
    shape: string)

  /** The signals a key emits, in the order it emits them. */
  datatype Signal =
    | KeyPressed(role: QtSymbol.Role, text: string)
    | LatchKey
    | UnlatchKey
    | UnlatchAll
    | UpdateAll

  /**
   * A key read from the layout: the code is the `<code>` text as an
   * integer, truncated to a byte; width and height default to 2 and the
   * shape to "default" when their elements are missing. A new key is
   * released and not hovered.
   */
  function New(code: int, width: Option<real>, height: Option<real>, shape: Option<string>): (k: Key)
    ensures k.code == ToCode(code)
    ensures k.width == (if width.Some? then width.value else 2.0)
    ensures k.height == (if height.Some? then height.value else 2.0)
    ensures k.shape == (if shape.Some? then shape.value else "default")
    ensures k.status == Released && !k.hovered && !k.releaseTimer
  {
    Key(ToCode(code),
        Released, false, false,
        match width case None => 2.0 case Some(w) => w,
        match height case None => 2.0 case Some(h) => h,
        match shape case None => "default" case Some(s) => s)
  }

  /** The keymap has a key for this key's code. */
  predicate Known(k: Key, km: Keymap)
  {
    k.code in km.keys
  }

  /** A key that can be pressed: known, and with a symbol when it is not a modifier. */
  predicate Pressable(k: Key, km: Keymap)
  {
    Known(k, km) && (KeyModifier(km, k.code) == 0 ==> km.keys[k.code].symbols != [])
  }

  /** The new key, keymap and the emitted signals. */
  datatype Outcome = Outcome(key: Key, keymap: Keymap, signals: seq<Signal>)

  /**
   * Pressing: only a key without modifier reacts. It emits its symbol's
   * role and name, becomes pressed and hovered, starts its release timer
   * and asks for every latched key to be released.
   */
  function Press(k: Key, km: Keymap): (o: Outcome)
    requires Pressable(k, km)
    ensures o.keymap == km && o.key.code == k.code
    ensures KeyModifier(km, k.code) != 0 ==> o == Outcome(k, km, [])
    ensures KeyModifier(km, k.code) == 0 ==>
      var s := SymbolOf(km, k.code).value.symbol;
      o.signals == [KeyPressed(s.role, s.name), UnlatchAll]
      && o.key == k.(status := Pressed, hovered := true, releaseTimer := true)
  {
    if KeyModifier(km, k.code) == 0 then
      var s := SymbolOf(km, k.code).value.symbol;
      Outcome(k.(status := Pressed, hovered := true, releaseTimer := true), km, [KeyPressed(s.role, s.name), UnlatchAll])
    else Outcome(k, km, [])
  }

  /**
   * A click released on the key. A modifier key: released, it sets its
   * modifier and becomes locked (a locker) or latched; latched, it becomes
   * locked; locked (or pressed, which the source does not expect), it
   * clears its modifier and is released. In every case it is no longer
   * hovered. Any other key is pressed.
   */
  function MouseRelease(k: Key, km: Keymap): (o: Outcome)
    requires Pressable(k, km)
    ensures o.key.code == k.code && o.keymap.keys == km.keys
    ensures KeyModifier(km, k.code) != 0 ==> !o.key.hovered && o.key.status != Pressed
    ensures KeyModifier(km, k.code) == 0 ==> o == Press(k, km)
  {
    var mod := KeyModifier(km, k.code);
    if mod != 0 then
      match k.status
      case Released =>
        var km1 := AddModifier(km, mod);
        if IsLocker(km, k.code) then Outcome(k.(status := Locked, hovered := false), km1, [UpdateAll])
        else Outcome(k.(status := Latched, hovered := false), km1, [LatchKey, UpdateAll])
      case Latched => Outcome(k.(status := Locked, hovered := false), km, [UnlatchKey])
      case _ => Outcome(k.(status := Released, hovered := false), RemoveModifier(km, mod), [UpdateAll])
    else Press(k, km)
  }

  /** A modifier key's click: how the status, the global modifier and the signals change. */
  lemma ModifierClick(k: Key, km: Keymap)
    requires Pressable(k, km) && KeyModifier(km, k.code) != 0
    ensures var o := MouseRelease(k, km);
      var m := KeyModifier(km, k.code);
      !o.key.hovered && o.key.code == k.code && o.keymap.keys == km.keys
      && (k.status == Released ==>
            o.keymap == AddModifier(km, m)
            && (IsLocker(km, k.code) ==> o.key.status == Locked && o.signals == [UpdateAll])
            && (!IsLocker(km, k.code) ==> o.key.status == Latched && o.signals == [LatchKey, UpdateAll]))
      && (k.status == Latched ==> o.key.status == Locked && o.keymap == km && o.signals == [UnlatchKey])
      && (k.status in {Locked, Pressed} ==>
            o.key.status == Released && o.keymap == RemoveModifier(km, m) && o.signals == [UpdateAll])
  {
  }

  /** A known modifier key stays pressable whatever its status and the global modifier. */
  lemma ModifierPressable(k: Key, km: Keymap, status: Status, g: bv8)
    requires Known(k, km) && KeyModifier(km, k.code) != 0
    ensures Pressable(k.(status := status, hovered := false), km.(modifier := g))
  {
  }

  /**
   * Three clicks take a non-locker modifier key from released through
   * latched and locked back to released, and give back the global modifier
   * when its bits were clear at the start.
   */
  lemma ModifierCycle(k: Key, km: Keymap)
    requires Pressable(k, km) && KeyModifier(km, k.code) != 0 && !IsLocker(km, k.code)
    requires k.status == Released
    requires km.modifier & KeyModifier(km, k.code) == 0
    ensures var km1 := AddModifier(km, KeyModifier(km, k.code));
      var k1 := k.(status := Latched, hovered := false);
      var k2 := k.(status := Locked, hovered := false);
      MouseRelease(k, km) == Outcome(k1, km1, [LatchKey, UpdateAll])
      && MouseRelease(k1, km1) == Outcome(k2, km1, [UnlatchKey])
      && MouseRelease(k2, km1) == Outcome(k.(status := Released, hovered := false), km, [UpdateAll])
  {
    var m := KeyModifier(km, k.code);
    var km1 := AddModifier(km, m);
    ModifierPressable(k, km, Latched, km1.modifier);
    ModifierPressable(k, km, Locked, km1.modifier);
    assert km1 == km.(modifier := km1.modifier);
    AddRemoveRestores(km, m);
  }

  /** Two clicks lock and release a locker key, giving back the global modifier when its bits were clear. */
  lemma LockerCycle(k: Key, km: Keymap)
    requires Pressable(k, km) && KeyModifier(km, k.code) != 0 && IsLocker(km, k.code)
    requires k.status == Released
    requires km.modifier & KeyModifier(km, k.code) == 0
    ensures var km1 := AddModifier(km, KeyModifier(km, k.code));
      var k1 := k.(status := Locked, hovered := false);
      MouseRelease(k, km) == Outcome(k1, km1, [UpdateAll])
      && MouseRelease(k1, km1) == Outcome(k.(status := Released, hovered := false), km, [UpdateAll])
  {
    var m := KeyModifier(km, k.code);
    var km1 := AddModifier(km, m);
    ModifierPressable(k, km, Locked, km1.modifier);
    assert km1 == km.(modifier := km1.modifier);
    AddRemoveRestores(km, m);
  }

  /** A click on a key without modifier is a press. */
  lemma PlainClickPresses(k: Key, km: Keymap)
    requires Pressable(k, km) && KeyModifier(km, k.code) == 0
    ensures MouseRelease(k, km) == Press(k, km)
    ensures MouseRelease(k, km).key.status == Pressed
  {
  }

  /**
   * Releases a latched key: clears its modifier from the global modifier
   * and reports it. Any other key is left as it is.
   */
  function Unlatch(k: Key, km: Keymap): (r: (Key, Keymap, bool))
    requires k.status == Latched ==> Known(k, km)
    ensures r.2 <==> k.status == Latched
    ensures r.2 ==> r.0 == k.(status := Released) && r.1 == RemoveModifier(km, KeyModifier(km, k.code))
    ensures !r.2 ==> r.0 == k && r.1 == km
  {
    if k.status == Latched then (k.(status := Released), RemoveModifier(km, KeyModifier(km, k.code)), true)
    else (k, km, false)
  }

  /** The release timer's end: the key is released and no longer hovered. */
  function Release(k: Key): (r: Key)
    ensures r.status == Released && !r.hovered && !r.releaseTimer
    ensures r.code == k.code && r.width == k.width && r.height == k.height && r.shape == k.shape
  {
    k.(status := Released, hovered := false, releaseTimer := false)
  }

  /** The mouse enters or leaves the key. */
  function Hover(k: Key, on: bool): (r: Key)
    ensures r.hovered == on && r.status == k.status && r.code == k.code
  {
    k.(hovered := on)
  }
}

=== FILE: qt_keymap.dfy ===
/**
 * The Qt keymap: for each of the 256 key codes, an optional key with its
 * modifier mask, locker flag and symbols; and the global modifier, the
 * mask of the modifier keys currently latched or locked. A key's symbol is
 * the one whose modifier best matches the global modifier.
 */
module QtKeymap {
  import opened Optional
  import opened QtSymbol

  /** A key code, a `quint8`. */
  type Code = c: int | 0 <= c < 256

  /** An integer stored into a `quint8` code: its value modulo 256. */
  function ToCode(v: int): (c: Code)
    ensures c as int == v % 256
  {
    v % 256
  }

  datatype KeymapKey = KeymapKey(modifier: bv8, locker: bool, symbols: seq<ModifiedSymbol>)

  /**
   * A `<key>` element: the modifier is its `mod` attribute (0 when
   * absent), it is a locker when a `locker` attribute is present, whatever
   * its value, and its symbols are its `<symbol>` children in order.
   */
  function KeyFromElement(mod: Attr, locker: Attr, symbols: seq<ModifiedSymbol>): (k: KeymapKey)
    ensures mod.Absent? ==> k.modifier == 0
    ensures mod.Present? ==> k.modifier == ToByte(mod.toInt)
    ensures k.locker <==> locker.Present?
    ensures k.symbols == symbols
  {
    KeymapKey(if mod.Absent? then 0 else ToByte(mod.toInt), locker.Present?, symbols)
  }

  /** How well a symbol matches a modifier: the bits they share, as a number. */
  function Score(mod: bv8, s: ModifiedSymbol): int
  {
    (mod & s.modifier) as int
  }

  /** `i` is the first symbol with the highest score. */
  ghost predicate FirstBest(syms: seq<ModifiedSymbol>, mod: bv8, i: nat)
  {
    i < |syms|
    && (forall j :: 0 <= j < |syms| ==> Score(mod, syms[j]) <= Score(mod, syms[i]))
    && (forall j :: 0 <= j < i ==> Score(mod, syms[j]) < Score(mod, syms[i]))
  }

  /**
   * The symbol the key's scan selects: a later symbol replaces the current
   * choice only when it scores strictly higher, and the scan starts below
   * every score, so the first symbol is always taken.
   */
  function Choose(syms: seq<ModifiedSymbol>, mod: bv8): (r: Option<nat>)
    ensures r.None? <==> syms == []
    ensures r.Some? ==> FirstBest(syms, mod, r.value)
    decreases |syms|
  {
    if syms == [] then None
    else
      var init := syms[..|syms| - 1];
      var last := |syms| - 1;
      match Choose(init, mod)
      case None => Some(0)
      case Some(b) =>
        assert forall j :: 0 <= j < |init| ==> init[j] == syms[j];
        if Score(mod, syms[last]) > Score(mod, syms[b]) then Some(last) else Some(b)
  }

  /** The scan as the key runs it over its symbols. */
  method GetSymbol(k: KeymapKey, mod: bv8) returns (ret: Option<ModifiedSymbol>)
    ensures ret.None? <==> k.symbols == []
    ensures ret.Some? ==> exists i: nat :: FirstBest(k.symbols, mod, i) && k.symbols[i] == ret.value
  {
    var score := -1;
    ret := None;
    ghost var at: nat := 0;
    var n := 0;
    while n < |k.symbols|
      invariant 0 <= n <= |k.symbols|
      invariant n == 0 <==> ret.None?
      invariant n == 0 ==> score == -1
      invariant ret.Some? ==>
        (FirstBest(k.symbols[..n], mod, at) && k.symbols[at] == ret.value && score == Score(mod, ret.value))
    {
      var s := k.symbols[n];
      assert forall j :: 0 <= j < n ==> k.symbols[..n + 1][j] == k.symbols[..n][j];
      if Score(mod, s) > score {
        ret := Some(s);
        score := Score(mod, s);
        at := n;
      }
      n := n + 1;
    }
    assert k.symbols[..n] == k.symbols;
  }

  /** The keymap's keys by code, and the global modifier. */
  datatype Keymap = Keymap(keys: map<Code, KeymapKey>, modifier: bv8)

  /** A fresh keymap: no key for any code, no modifier. */
  function New(): (km: Keymap)
    ensures forall c: Code :: c !in km.keys
    ensures km.modifier == 0
  {
    Keymap(map[], 0)
  }

  /** A `<key>` element of a keymap file: its `code` attribute as read, and the key. */
  datatype KeyElement = KeyElement(code: int, key: KeymapKey)

  /** A keymap file: unreadable or not XML, or parsed with or without a root element. */
  datatype Document = Unreadable | Parsed(root: Option<seq<KeyElement>>)

  /** The keys of a keymap file, each stored at its code truncated to a byte; a later key replaces an earlier one. */
  function Entries(els: seq<KeyElement>): (m: map<Code, KeymapKey>)
    ensures forall c :: c in m <==> exists i :: 0 <= i < |els| && ToCode(els[i].code) == c
    decreases |els|
  {
    if els == [] then map[]
    else
      var init := els[..|els| - 1];
      var e := els[|els| - 1];
      assert forall i :: 0 <= i < |init| ==> init[i] == els[i];
      Entries(init)[ToCode(e.code) := e.key]
  }

  /** The key stored for a code is the last element with that code. */
  lemma {:induction false} EntriesLastWins(els: seq<KeyElement>, i: nat)
    requires i < |els|
    requires forall j :: i < j < |els| ==> ToCode(els[j].code) != ToCode(els[i].code)
    ensures Entries(els)[ToCode(els[i].code)] == els[i].key
    decreases |els|
  {
    if i < |els| - 1 {
      var init := els[..|els| - 1];
      assert init[i] == els[i];
      assert forall j :: i < j < |init| ==> init[j] == els[j];
      EntriesLastWins(init, i);
      var c := ToCode(els[i].code);
      assert c in Entries(init) && Entries(init)[c] == els[i].key;
      var e := els[|els| - 1];
      assert Entries(els) == Entries(init)[ToCode(e.code) := e.key];
      assert ToCode(e.code) != c;
      assert Entries(els)[c] == Entries(init)[c];
    } else {
      assert Entries(els) == Entries(els[..i])[ToCode(els[i].code) := els[i].key];
    }
  }

  /**
   * Loading a keymap file. An unreadable file changes nothing; otherwise
   * every key is dropped first, so a file without a root element leaves
   * an empty keymap (and the modifier as it was). A full load also resets
   * the modifier.
   */
  function Load(km: Keymap, doc: Document): (r: (Keymap, bool))
    ensures doc.Unreadable? ==> r == (km, false)
    ensures doc.Parsed? && doc.root.None? ==> r == (Keymap(map[], km.modifier), false)
    ensures doc.Parsed? && doc.root.Some? ==>
      r.1 && r.0.modifier == 0 && r.0.keys == Entries(doc.root.value)
  {
    match doc
    case Unreadable => (km, false)
    case Parsed(None) => (km.(keys := map[]), false)
    case Parsed(Some(els)) => (Keymap(Entries(els), 0), true)
  }

  /** The symbol of a code under the global modifier: none for a code without a key. */
  function SymbolOf(km: Keymap, code: Code): (s: Option<ModifiedSymbol>)
    ensures code !in km.keys ==> s.None?
    ensures code in km.keys ==> (s.None? <==> km.keys[code].symbols == [])
    ensures s.Some? ==>
      exists i: nat :: (FirstBest(km.keys[code].symbols, km.modifier, i) && km.keys[code].symbols[i] == s.value)
    // with no modifier active every score is 0, and the first symbol is chosen
    ensures code in km.keys && km.modifier == 0 && km.keys[code].symbols != [] ==>
      s == Some(km.keys[code].symbols[0])
  {
    if code in km.keys then
      match Choose(km.keys[code].symbols, km.modifier)
      case None => None
      case Some(i) => Some(km.keys[code].symbols[i])
    else None
  }

  /** The modifier of the key at a code; the source dereferences the key unchecked. */
  function KeyModifier(km: Keymap, code: Code): bv8
    requires code in km.keys
  {
    km.keys[code].modifier
  }

  /** Whether the key at a code is a locker; the source dereferences the key unchecked. */
  function IsLocker(km: Keymap, code: Code): bool
    requires code in km.keys
  {
    km.keys[code].locker
  }

  /** ORs a modifier into the global modifier. */
  function AddModifier(km: Keymap, m: bv8): (r: Keymap)
    ensures r.modifier & m == m
    ensures r.modifier & !m == km.modifier & !m
    ensures r.keys == km.keys
  {
    km.(modifier := km.modifier | m)
  }

  /** Subtracts a modifier from the global modifier, wrapping around as a byte does. */
  function RemoveModifier(km: Keymap, m: bv8): (r: Keymap)
    ensures r.modifier + m == km.modifier
    ensures km.modifier & m == m ==> r.modifier == km.modifier & !m
    ensures r.keys == km.keys
  {
    km.(modifier := km.modifier - m)
  }

  lemma OrSubRestores(g: bv8, m: bv8)
    ensures (g | m) - m == g <==> g & m == 0
  {
  }

  /**
   * Adding then removing a modifier restores the global modifier exactly
   * when none of its bits were set before.
   */
  lemma AddRemoveRestores(km: Keymap, m: bv8)
    ensures RemoveModifier(AddModifier(km, m), m) == km <==> km.modifier & m == 0
  {
    OrSubRestores(km.modifier, m);
  }

  /** Two keys sharing a bit: adding one and removing it clears the bit the other set. */
  lemma OverlapNotRestored()
    ensures RemoveModifier(AddModifier(Keymap(map[], 1), 1), 1).modifier == 0
  {
  }
}

=== FILE: qt_styleitem.dfy ===
/**
 * A style item of the Qt widget: a named SVG drawing whose CSS carries
 * colour placeholders. The stored SVG keeps the placeholders; every
 * renderer loads a copy in which each placeholder is replaced by the
 * colour of its slot, the key background taking whichever slot the caller
 * names (normal, activated, latched or mouse-over).
 */
module QtStyleItem {
  import opened Optional

  datatype StyleColour = KeyColour | OutlineColour | ActivatedColour | LatchedColour
                       | TextColour | TextOutlineColour | MouseOverColour

  /** The colour of each slot, as the settings hold them. */
  type Palette = StyleColour -> string

  const KeyPlaceholder := "@KEY_COLOR@"
  const OutlinePlaceholder := "@OUTLINE_COLOR@"
  const TextPlaceholder := "@TEXT_COLOR@"
  const TextOutlinePlaceholder := "@TEXT_OUTLINE_COLOR@"

  /** `p` occurs in `s` starting at `i`. */
  predicate OccursAt(s: string, p: string, i: int)
  {
    0 <= i && i + |p| <= |s| && s[i..i + |p|] == p
  }

  /** `p` occurs nowhere in `s`. */
  ghost predicate Absent(s: string, p: string)
  {
    forall i :: !OccursAt(s, p, i)
  }

  /**
   * Replaces every occurrence of `pat`, scanning left to right: an
   * occurrence is replaced and the scan resumes after it, so occurrences
   * never overlap and the inserted text is not scanned again.
   */
  function ReplaceAll(s: string, pat: string, rep: string): (r: string)
    requires |pat| > 0
    ensures Absent(s, pat) ==> r == s
    ensures |s| < |pat| ==> r == s
    decreases |s|
  {
    if |s| < |pat| then s
    else if s[..|pat|] == pat then
      assert OccursAt(s, pat, 0);
      rep + ReplaceAll(s[|pat|..], pat, rep)
    else
      ghost var t := s[1..];
      assert forall i :: OccursAt(t, pat, i) ==> OccursAt(s, pat, i + 1) by {
        forall i | OccursAt(t, pat, i) ensures OccursAt(s, pat, i + 1) {
          assert s[i + 1..i + 1 + |pat|] == t[i..i + |pat|];
        }
      }
      assert s == [s[0]] + s[1..];
      [s[0]] + ReplaceAll(s[1..], pat, rep)
  }

  /**
   * While the result holds no first character of the replacement, no
   * replacement has happened yet, so that prefix is copied from the input.
   */
  lemma {:induction false} PrefixKept(t: string, pat: string, rep: string, n: nat)
    requires |pat| > 0 && |rep| > 0
    requires n <= |ReplaceAll(t, pat, rep)|
    requires forall k :: 0 <= k < n ==> ReplaceAll(t, pat, rep)[k] != rep[0]
    ensures n <= |t| && ReplaceAll(t, pat, rep)[..n] == t[..n]
    decreases |t|
  {
    if |t| < |pat| {
    } else if t[..|pat|] == pat {
      assert ReplaceAll(t, pat, rep)[0] == rep[0];
    } else if n > 0 {
      var r := ReplaceAll(t[1..], pat, rep);
      assert ReplaceAll(t, pat, rep) == [t[0]] + r;
      forall k | 0 <= k < n - 1 ensures r[k] != rep[0] {
        assert r[k] == ReplaceAll(t, pat, rep)[k + 1];
      }
      PrefixKept(t[1..], pat, rep, n - 1);
      assert ReplaceAll(t, pat, rep)[..n] == [t[0]] + r[..n - 1];
    }
  }

  /** A text absent from `s` is absent from every suffix of `s`. */
  lemma AbsentSuffix(s: string, q: string, d: nat)
    requires Absent(s, q) && d <= |s|
    ensures Absent(s[d..], q)
  {
    var t := s[d..];
    forall i | OccursAt(t, q, i) ensures OccursAt(s, q, i + d) {
      assert s[i + d..i + d + |q|] == t[i..i + |q|];
    }
  }

  /** Prefixing a text that holds no first character of `q` creates no occurrence of `q`. */
  lemma AbsentPrefixed(rep: string, rt: string, q: string)
    requires |q| > 0 && q[0] !in rep && Absent(rt, q)
    ensures Absent(rep + rt, q)
  {
    var r := rep + rt;
    forall i | OccursAt(r, q, i) && i >= |rep| ensures OccursAt(rt, q, i - |rep|) {
      assert r[i..i + |q|] == rt[i - |rep|..i - |rep| + |q|];
    }

  }

  /**
   * After a copied character, an occurrence of `q` at the start of the
   * result lies in the copied prefix, hence occurs in the input.
   */
  lemma OccursAtCopied(s: string, pat: string, rep: string, q: string)
    requires |pat| > 0 && |rep| > 0 && |q| > 0 && rep[0] !in q
    requires |s| >= |pat| && s[..|pat|] != pat
    requires OccursAt([s[0]] + ReplaceAll(s[1..], pat, rep), q, 0)
    ensures OccursAt(s, q, 0)
  {
    var t := s[1..];
    var rt := ReplaceAll(t, pat, rep);
    var r := [s[0]] + rt;
    var n := |q| - 1;
    assert rt[..n] == r[1..|q|] == q[1..];
    forall k | 0 <= k < n ensures rt[k] != rep[0] {
      assert rt[k] == q[k + 1];
    }
    PrefixKept(t, pat, rep, n);
    assert s[..|q|] == [s[0]] + t[..n];
  }

  /** The step of a copied character: an occurrence in the result is one in the rest, or one in the input. */
  lemma AbsentCopied(s: string, pat: string, rep: string, q: string)
    requires |pat| > 0 && |rep| > 0 && |q| > 0 && rep[0] !in q
    requires |s| >= |pat| && s[..|pat|] != pat
    requires Absent(s, q) || q == pat
    requires Absent(ReplaceAll(s[1..], pat, rep), q)
    ensures Absent([s[0]] + ReplaceAll(s[1..], pat, rep), q)
  {
    var rt := ReplaceAll(s[1..], pat, rep);
    var r := [s[0]] + rt;
    forall i | OccursAt(r, q, i) && i > 0 ensures OccursAt(rt, q, i - 1) {
      assert r[i..i + |q|] == rt[i - 1..i - 1 + |q|];
    }
    if OccursAt(r, q, 0) {
      OccursAtCopied(s, pat, rep, q);
    }
  }

  /**
   * Some text `q` that the input does not contain cannot appear in the
   * result either, when no occurrence of it can start inside the
   * replacement (its first character is not there) and none can run
   * into a replacement (the replacement's first character is not in it).
   * The pattern itself qualifies, whether or not the input contains it,
   * when it shares no first character with the replacement either way.
   */
  lemma {:induction false} AbsentKept(s: string, pat: string, rep: string, q: string)
    requires |pat| > 0 && |rep| > 0 && |q| > 0
    requires Absent(s, q) || q == pat
    requires q[0] !in rep && rep[0] !in q
    ensures Absent(ReplaceAll(s, pat, rep), q)
    decreases |s|
  {
    if |s| < |pat| {
    } else if s[..|pat|] == pat {
      var t := s[|pat|..];
      if Absent(s, q) {
        AbsentSuffix(s, q, |pat|);
      }
      AbsentKept(t, pat, rep, q);
      AbsentPrefixed(rep, ReplaceAll(t, pat, rep), q);
    } else {
      var t := s[1..];
      if Absent(s, q) {
        AbsentSuffix(s, q, 1);
      }
      AbsentKept(t, pat, rep, q);
      AbsentCopied(s, pat, rep, q);
    }
  }

  /** After replacing a placeholder by a colour that shares no character with it, none is left. */
  lemma NoPlaceholderLeft(s: string, pat: string, rep: string)
    requires |pat| > 0 && |rep| > 0 && pat[0] !in rep && rep[0] !in pat
    ensures Absent(ReplaceAll(s, pat, rep), pat)
  {
    AbsentKept(s, pat, rep, pat);
  }

  /**
   * The drawing for one background slot: the key placeholder takes the
   * named slot's colour; outline, text and text outline always take their
   * own slots.
   */
  function MakeSvg(svg: string, colours: Palette, keyColour: StyleColour): (r: string)
  {
    var t1 := ReplaceAll(svg, KeyPlaceholder, colours(keyColour));
    var t2 := ReplaceAll(t1, OutlinePlaceholder, colours(OutlineColour));
    var t3 := ReplaceAll(t2, TextPlaceholder, colours(TextColour));
    ReplaceAll(t3, TextOutlinePlaceholder, colours(TextOutlineColour))
  }

  /** A colour fit for substitution: non-empty, no `@`, and not starting with a placeholder's character. */
  predicate PlainColour(c: string)
  {
    |c| > 0 && '@' !in c
    && c[0] !in KeyPlaceholder && c[0] !in OutlinePlaceholder
    && c[0] !in TextPlaceholder && c[0] !in TextOutlinePlaceholder
  }

  /** With plain colours in the slots used, the drawing holds no placeholder. */
  lemma MakeSvgComplete(svg: string, colours: Palette, keyColour: StyleColour)
    requires PlainColour(colours(keyColour)) && PlainColour(colours(OutlineColour))
    requires PlainColour(colours(TextColour)) && PlainColour(colours(TextOutlineColour))
    ensures var r := MakeSvg(svg, colours, keyColour);
      Absent(r, KeyPlaceholder) && Absent(r, OutlinePlaceholder)
      && Absent(r, TextPlaceholder) && Absent(r, TextOutlinePlaceholder)
  {
    var ck, co, ct, cto := colours(keyColour), colours(OutlineColour), colours(TextColour), colours(TextOutlineColour);
    var t1 := ReplaceAll(svg, KeyPlaceholder, ck);
    var t2 := ReplaceAll(t1, OutlinePlaceholder, co);
    var t3 := ReplaceAll(t2, TextPlaceholder, ct);
    var t4 := ReplaceAll(t3, TextOutlinePlaceholder, cto);
    assert KeyPlaceholder[0] == '@' && OutlinePlaceholder[0] == '@';
    assert TextPlaceholder[0] == '@' && TextOutlinePlaceholder[0] == '@';
    NoPlaceholderLeft(svg, KeyPlaceholder, ck);
    AbsentKept(t1, OutlinePlaceholder, co, KeyPlaceholder);
    AbsentKept(t2, TextPlaceholder, ct, KeyPlaceholder);
    AbsentKept(t3, TextOutlinePlaceholder, cto, KeyPlaceholder);
    NoPlaceholderLeft(t1, OutlinePlaceholder, co);
    AbsentKept(t2, TextPlaceholder, ct, OutlinePlaceholder);
    AbsentKept(t3, TextOutlinePlaceholder, cto, OutlinePlaceholder);
    NoPlaceholderLeft(t2, TextPlaceholder, ct);
    AbsentKept(t3, TextOutlinePlaceholder, cto, TextPlaceholder);
    NoPlaceholderLeft(t3, TextOutlinePlaceholder, cto);
  }

  /** A drawing without placeholders is loaded as it is stored. */
  lemma MakeSvgNoPlaceholders(svg: string, colours: Palette, keyColour: StyleColour)
    requires Absent(svg, KeyPlaceholder) && Absent(svg, OutlinePlaceholder)
    requires Absent(svg, TextPlaceholder) && Absent(svg, TextOutlinePlaceholder)
    ensures MakeSvg(svg, colours, keyColour) == svg
  {
  }

  /**
   * Only the key placeholder depends on the background slot chosen: two
   * palettes that agree on the chosen backgrounds and on the three fixed
   * slots give the same drawing.
   */
  lemma MakeSvgSlots(svg: string, c1: Palette, k1: StyleColour, c2: Palette, k2: StyleColour)
    requires c1(k1) == c2(k2)
    requires c1(OutlineColour) == c2(OutlineColour) && c1(TextColour) == c2(TextColour)
    requires c1(TextOutlineColour) == c2(TextOutlineColour)
    ensures MakeSvg(svg, c1, k1) == MakeSvg(svg, c2, k2)
  {
  }

  /** A text without `@` holds no placeholder. */
  lemma NoAtNoPlaceholder(s: string, p: string)
    requires |p| > 0 && p[0] == '@' && '@' !in s
    ensures Absent(s, p)
  {
  }

  /** The key placeholder alone becomes the chosen background colour. */
  lemma KeyPlaceholderTakesSlot(colours: Palette, keyColour: StyleColour)
    requires '@' !in colours(keyColour)
    ensures MakeSvg(KeyPlaceholder, colours, keyColour) == colours(keyColour)
  {
    var c := colours(keyColour);
    assert KeyPlaceholder[..|KeyPlaceholder|] == KeyPlaceholder;
    assert KeyPlaceholder[|KeyPlaceholder|..] == "";
    assert ReplaceAll(KeyPlaceholder, KeyPlaceholder, c) == c + ReplaceAll("", KeyPlaceholder, c);
    NoAtNoPlaceholder(c, OutlinePlaceholder);
    NoAtNoPlaceholder(c, TextPlaceholder);
    NoAtNoPlaceholder(c, TextOutlinePlaceholder);
  }

  /** The `<svg>` element of an item: its start tag, its content and its end tag, as saved. */
  datatype SvgElement = SvgElement(start: string, content: string, end: string)

  /** The CSS block inserted in every drawing, whose colours are placeholders. */
  const Css := "<style type=\"text/css\">\n.shape {\n    fill: @KEY_COLOR@;\n    stroke: @OUTLINE_COLOR@;\n    stroke-opacity: 0.35;\n    stroke-width: 4px;\n}\n\n.symbol {\n    fill: @TEXT_COLOR@;\n    stroke: @TEXT_OUTLINE_COLOR@;\n    stroke-width: 2px;\n}\n</style>"

  /** A style item: its name, the stored drawing, and what its renderer has loaded, if it has one. */
  datatype StyleItem = StyleItem(name: string, svg: string, renderer: Option<string>)

  /**
   * Reads an item. Without an `<svg>` element there is no renderer and the
   * stored drawing is empty. Otherwise the global defs, when present, and
   * then the CSS are each inserted as the element's first child, and the
   * renderer loads the drawing with the normal key colour.
   */
  function New(name: string, svg: Option<SvgElement>, defs: Option<string>, colours: Palette): (item: StyleItem)
    ensures item.name == name
    ensures item.renderer.None? <==> svg.None?
    ensures svg.None? ==> item.svg == ""
    ensures svg.Some? ==>
      item.svg == svg.value.start + Css + (if defs.Some? then defs.value else "") + svg.value.content + svg.value.end
      && item.renderer == Some(MakeSvg(item.svg, colours, KeyColour))
  {
    match svg
    case None => StyleItem(name, "", None)
    case Some(el) =>
      var saved := el.start + Css + (match defs case None => "" case Some(d) => d) + el.content + el.end;
      StyleItem(name, saved, Some(MakeSvg(saved, colours, KeyColour)))
  }

  /** Reloads the renderer with new colours; an item without a renderer is left as it is. */
  function SetColours(item: StyleItem, colours: Palette, keyColour: StyleColour): (r: StyleItem)
    ensures item.renderer.None? ==> r == item
    ensures item.renderer.Some? ==> r.renderer == Some(MakeSvg(item.svg, colours, keyColour))
    ensures r.name == item.name && r.svg == item.svg
  {
    if item.renderer.Some? then item.(renderer := Some(MakeSvg(item.svg, colours, keyColour))) else item
  }

  /** The stored drawing keeps its placeholders, so colours can be changed again and again: the last one wins. */
  lemma SetColoursLastWins(item: StyleItem, c1: Palette, k1: StyleColour, c2: Palette, k2: StyleColour)
    ensures SetColours(SetColours(item, c1, k1), c2, k2) == SetColours(item, c2, k2)
  {
  }
}

=== FILE: qt_symbol.dfy ===
/**
 * Symbols of the Qt keymap: what a key produces. A symbol given as plain
 * text inputs that text; a named symbol is one of the editing keys the
 * widget understands, or has no effect.
 */
module QtSymbol {
  import opened Optional

  datatype Role = Dead | Text | Backspace | Return | Tab | LeftTab

  datatype Symbol = Symbol(name: string, role: Role)

  /** An XML attribute as Qt reads it: absent, or present with its `toInt()` value (0 when unparsable). */
  datatype Attr = Absent | Present(toInt: int)

  /** The value `toInt()` gives for an attribute; an absent one reads as the empty string, hence 0. */
  function AttrInt(a: Attr): int
  {
    match a
    case Absent => 0
    case Present(v) => v
  }

  /** An integer stored into a `quint8`: its value modulo 256. */
  function ToByte(v: int): (b: bv8)
    ensures 0 <= v < 256 ==> b == v as bv8
  {
    (v % 256) as bv8
  }

  /** Storing wraps around: values 256 apart give the same byte. */
  lemma ToByteWraps(v: int)
    ensures ToByte(v + 256) == ToByte(v)
  {
    assert (v + 256) % 256 == v % 256;
  }

  /** The role of a named symbol. */
  function RoleOf(name: string): (r: Role)
    ensures r == Backspace <==> name == "BackSpace"
    ensures r == Return <==> name == "Return"
    ensures r == Tab <==> name == "Tab"
    ensures r == LeftTab <==> name == "ISO_Left_Tab"
    ensures r != Text
  {
    if name == "BackSpace" then Backspace
    else if name == "Return" then Return
    else if name == "Tab" then Tab
    else if name == "ISO_Left_Tab" then LeftTab
    else Dead
  }

  /**
   * A symbol element: without a `<name>` child it inputs the element's
   * text; with one, it takes that name and the name's role.
   */
  function FromElement(nameChild: Option<string>, text: string): (s: Symbol)
    ensures s.role == Text <==> nameChild.None?
    ensures nameChild.None? ==> s.name == text
    ensures nameChild.Some? ==> s.name == nameChild.value && s.role == RoleOf(s.name)
    ensures s.role == Dead <==>
      nameChild.Some? && s.name !in {"BackSpace", "Return", "Tab", "ISO_Left_Tab"}
  {
    match nameChild
    case None => Symbol(text, Text)
    case Some(n) => Symbol(n, RoleOf(n))
  }

  /** A symbol together with the modifier mask it is selected for. */
  datatype ModifiedSymbol = ModifiedSymbol(symbol: Symbol, modifier: bv8)

  /**
   * A `<symbol>` element of the keymap: its `mod` attribute, read as an
   * integer and truncated to a byte (0 when absent).
   */
  function ModifiedFromElement(nameChild: Option<string>, text: string, mod: Attr): (m: ModifiedSymbol)
    ensures m.symbol == FromElement(nameChild, text)
    ensures mod.Absent? ==> m.modifier == 0
    ensures mod.Present? && 0 <= mod.toInt < 256 ==> m.modifier == mod.toInt as bv8
    ensures mod.Present? ==> m.modifier == ToByte(mod.toInt)
  {
    ModifiedSymbol(FromElement(nameChild, text), ToByte(AttrInt(mod)))
  }
}

=== FILE: ramble.dfy ===
/**
 * The "ramble" input method: the mouse's path over the keyboard, kept as
 * a bounded list of points, each tagged with the key under it and whether
 * a key event was detected there. The detection algorithms themselves
 * (distance travelled on a key, time spent on it) work on floating point,
 * settings and a timer; they are an oracle here.
 */
module Ramble {
  import opened Optional
  import KeyStatus

  /** The longest path kept. */
  const MaxPoints: nat := 200

  /** The margin the invalidated rectangles keep around the path. */
  const Pad: int := 10

  datatype Point = Point(x: int, y: int, key: Option<KeyStatus.KeyRef>, ev: bool)

  /** The path, oldest point first; `n` is its recorded length. */
  datatype Ramble = Ramble(path: seq<Point>, n: nat, started: bool)

  /** A GDK rectangle. */
  datatype Rect = Rect(x: int, y: int, width: int, height: int)

  /** The detection algorithms the "ramble algorithm" setting can name. */
  datatype Algo = Distance | Time

  /** The count matches the path, which never exceeds the bound. */
  predicate Valid(r: Ramble)
  {
    r.n == |r.path| && |r.path| <= MaxPoints
  }

  /** A zeroed ramble structure. */
  function New(): (r: Ramble)
    ensures Valid(r) && r.path == [] && !r.started
  {
    Ramble([], 0, false)
  }

  /** `rect` holds the point with the padding on every side. */
  predicate Covers(rect: Rect, x: int, y: int)
  {
    rect.x + Pad <= x <= rect.x + rect.width - Pad
    && rect.y + Pad <= y <= rect.y + rect.height - Pad
  }

  /**
   * The rectangle invalidated for the segment from `p2` to `p1`: the
   * segment's bounding box grown by the padding on each side.
   */
  function Region(p1: Point, p2: Point): (rect: Rect)
    ensures Covers(rect, p1.x, p1.y) && Covers(rect, p2.x, p2.y)
    ensures rect.x + Pad == (if p1.x < p2.x then p1.x else p2.x)
    ensures rect.y + Pad == (if p1.y < p2.y then p1.y else p2.y)
    ensures rect.x + rect.width - Pad == (if p1.x < p2.x then p2.x else p1.x)
    ensures rect.y + rect.height - Pad == (if p1.y < p2.y then p2.y else p1.y)
  {
    var (x, w) := if p1.x > p2.x then (p2.x, p1.x - p2.x) else (p1.x, p2.x - p1.x);
    var (y, h) := if p1.y > p2.y then (p2.y, p1.y - p2.y) else (p1.y, p2.y - p1.y);
    Rect(x - Pad, y - Pad, w + 2 * Pad, h + 2 * Pad)
  }

  /**
   * The algorithm the setting selects, and whether a warning is issued:
   * an unknown name falls back to distance detection.
   */
  function ChooseAlgo(name: string): (r: (Algo, bool))
    ensures r.1 <==> name != "distance" && name != "time"
    ensures r.0 == Time <==> name == "time"
  {
    if name == "distance" then (Distance, false)
    else if name == "time" then (Time, false)
    else (Distance, true)
  }

  /**
   * What adding a point yields: the new path, whether an event is
   * reported, the rectangles invalidated in order, and the algorithm that
   * ran with whether its name was rejected.
   */
  datatype AddResult = AddResult(
    ramble: Ramble,
    detected: bool,
    regions: seq<Rect>,
    ran: Option<Algo>,
    warned: bool)

  /**
   * Appends the point under the mouse. The first point of a path is an
   * event. The new segment is invalidated; past the bound the oldest point
   * is dropped and the first segment invalidated. Without a key nothing is
   * detected; otherwise the selected algorithm runs (`fires` says whether
   * it marks the new point), the ramble counts as started, and the new
   * point's event flag is returned.
   */
  function Add(r: Ramble, x: int, y: int, k: Option<KeyStatus.KeyRef>,
               algo: string, fires: Algo -> bool): (a: AddResult)
    requires Valid(r)
    ensures Valid(a.ramble)
    // the point is appended; past the bound the oldest point is dropped
    ensures |r.path| < MaxPoints ==>
      |a.ramble.path| == |r.path| + 1 && a.ramble.path[..|r.path|] == r.path
    ensures |r.path| == MaxPoints ==>
      |a.ramble.path| == MaxPoints && a.ramble.path[..MaxPoints - 1] == r.path[1..]
    ensures var last := a.ramble.path[|a.ramble.path| - 1];
      last.x == x && last.y == y && last.key == k && (r.path == [] ==> last.ev)
  {
    var p2 := Extend(r, Point(x, y, k, r.path == []));
    var regs := Invalidated(r, Point(x, y, k, r.path == []));
    match k
    case None => AddResult(Ramble(p2, |p2|, r.started), false, regs, None, false)
    case Some(_) =>
      var (alg, warned) := ChooseAlgo(algo);
      var ev := p2[|p2| - 1].ev || fires(alg);
      AddResult(Ramble(MarkLast(p2, ev), |p2|, true), ev, regs, Some(alg), warned)
  }

  /** The path with a point appended; past the bound the oldest point is dropped. */
  function Extend(r: Ramble, pt: Point): (p: seq<Point>)
    requires Valid(r)
    ensures |r.path| < MaxPoints ==> p == r.path + [pt]
    ensures |r.path| == MaxPoints ==> p == r.path[1..] + [pt]
  {
    var p1 := r.path + [pt];
    if r.n + 1 > MaxPoints then
      assert p1[1..] == r.path[1..] + [pt];
      p1[1..]
    else p1
  }

  /** The rectangles invalidated by appending `pt`: the new segment, then past the bound the dropped one. */
  function Invalidated(r: Ramble, pt: Point): (regs: seq<Rect>)
    requires Valid(r)
    ensures r.path == [] <==> regs == []
    ensures r.path != [] ==>
      Covers(regs[0], pt.x, pt.y) && Covers(regs[0], r.path[|r.path| - 1].x, r.path[|r.path| - 1].y)
    ensures |r.path| == MaxPoints ==>
      |regs| == 2 && Covers(regs[1], r.path[0].x, r.path[0].y) && Covers(regs[1], r.path[1].x, r.path[1].y)
  {
    var p1 := r.path + [pt];
    var reg1 := if |p1| >= 2 then [Region(p1[|p1| - 1], p1[|p1| - 2])] else [];
    if r.n + 1 > MaxPoints then reg1 + [Region(p1[1], p1[0])] else reg1
  }

  /** The path with the event flag of its last point set to `ev`. */
  function MarkLast(p: seq<Point>, ev: bool): (q: seq<Point>)
    requires p != []
    ensures |q| == |p| && q[..|p| - 1] == p[..|p| - 1]
    ensures q[|p| - 1] == p[|p| - 1].(ev := ev)
  {
    p[..|p| - 1] + [p[|p| - 1].(ev := ev)]
  }

  /** The new segment is invalidated, and past the bound the dropped one too. */
  lemma AddInvalidates(r: Ramble, x: int, y: int, k: Option<KeyStatus.KeyRef>, algo: string, fires: Algo -> bool)
    requires Valid(r)
    ensures var a := Add(r, x, y, k, algo, fires);
      && (r.path == [] <==> a.regions == [])
      && (r.path != [] ==>
            Covers(a.regions[0], x, y) && Covers(a.regions[0], r.path[|r.path| - 1].x, r.path[|r.path| - 1].y))
      && (|r.path| == MaxPoints ==>
            |a.regions| == 2 && Covers(a.regions[1], r.path[0].x, r.path[0].y)
            && Covers(a.regions[1], r.path[1].x, r.path[1].y))
  {
  }

  /**
   * Without a key nothing is detected and no algorithm runs; with one, the
   * selected algorithm runs, the ramble counts as started, and the new
   * point is an event exactly when it is the first or the algorithm fires.
   */
  lemma AddDetects(r: Ramble, x: int, y: int, k: Option<KeyStatus.KeyRef>, algo: string, fires: Algo -> bool)
    requires Valid(r)
    ensures var a := Add(r, x, y, k, algo, fires);
      && (k.None? ==> !a.detected && a.ran.None? && !a.warned && a.ramble.started == r.started)
      && (k.Some? ==>
            a.ramble.started && a.ran == Some(ChooseAlgo(algo).0) && a.warned == ChooseAlgo(algo).1
            && (a.detected <==> r.path == [] || fires(ChooseAlgo(algo).0))
            && a.ramble.path[|a.ramble.path| - 1].ev == a.detected)
  {
  }

  /** The first point of a path is an event, so it is reported whenever it has a key. */
  lemma FirstPointIsEvent(r: Ramble, x: int, y: int, k: KeyStatus.KeyRef, algo: string, fires: Algo -> bool)
    requires Valid(r) && r.path == []
    ensures Add(r, x, y, Some(k), algo, fires).ramble.path == [Point(x, y, Some(k), true)]
    ensures Add(r, x, y, Some(k), algo, fires).detected
  {
  }

  /** An unknown algorithm name behaves as "distance", apart from the warning. */
  lemma UnknownAlgoIsDistance(r: Ramble, x: int, y: int, k: Option<KeyStatus.KeyRef>, algo: string, fires: Algo -> bool)
    requires Valid(r) && algo != "distance" && algo != "time"
    ensures Add(r, x, y, k, algo, fires) == Add(r, x, y, k, "distance", fires).(warned := k.Some?)
  {
  }

  /** Starting marks the ramble started before adding the point. */
  function Start(r: Ramble, x: int, y: int, k: Option<KeyStatus.KeyRef>,
                 algo: string, fires: Algo -> bool): (a: AddResult)
    requires Valid(r)
    ensures a.ramble.started
    ensures a.detected == Add(r.(started := true), x, y, k, algo, fires).detected
  {
    Add(r.(started := true), x, y, k, algo, fires)
  }

  /** Rambling counts as started when the ramble button is not in use, or once started. */
  function Started(r: Ramble, rambleButton: bool): (on: bool)
    ensures !rambleButton ==> on
    ensures rambleButton ==> on == r.started
  {
    !rambleButton || r.started
  }

  /**
   * One step of the bounding-rectangle loop of the reset: a point left of
   * the rectangle moves its left edge there and widens it by the move; any
   * other point widens it by its distance from the left edge. The width
   * therefore grows with every point to the right, and the result is not
   * the tight bounding box.
   */
  function Grow(rect: Rect, p: Point): Rect
  {
    var (x, w) := if p.x < rect.x then (p.x, rect.width + (rect.x - p.x)) else (rect.x, rect.width + (p.x - rect.x));
    var (y, h) := if p.y < rect.y then (p.y, rect.height + (rect.y - p.y)) else (rect.y, rect.height + (p.y - rect.y));
    Rect(x, y, w, h)
  }

  /** The rectangle the reset accumulates over `path`, before padding. */
  function Bounds(path: seq<Point>): (rect: Option<Rect>)
    ensures rect.None? <==> path == []
  {
    if path == [] then None
    else if |path| == 1 then Some(Rect(path[0].x, path[0].y, 0, 0))
    else Some(Grow(Bounds(path[..|path| - 1]).value, path[|path| - 1]))
  }

  /** `rect` holds every point of `path`, and its left and top edges are attained. */
  ghost predicate Encloses(rect: Rect, path: seq<Point>)
  {
    rect.width >= 0 && rect.height >= 0
    && (forall i :: 0 <= i < |path| ==>
          rect.x <= path[i].x <= rect.x + rect.width && rect.y <= path[i].y <= rect.y + rect.height)
    && (exists i :: 0 <= i < |path| && path[i].x == rect.x)
    && (exists j :: 0 <= j < |path| && path[j].y == rect.y)
  }

  /** The accumulated rectangle encloses the whole path, its left and top edges tight. */
  lemma {:induction false} BoundsEnclose(path: seq<Point>)
    requires path != []
    ensures Encloses(Bounds(path).value, path)
    decreases |path|
  {
    if |path| == 1 {
      assert path[0].x == Bounds(path).value.x;
    } else {
      var init := path[..|path| - 1];
      var p := path[|path| - 1];
      BoundsEnclose(init);
      var prev := Bounds(init).value;
      var rect := Bounds(path).value;
      assert rect == Grow(prev, p);
      forall i | 0 <= i < |path|
        ensures rect.x <= path[i].x <= rect.x + rect.width && rect.y <= path[i].y <= rect.y + rect.height
      {
        if i < |path| - 1 {
          assert path[i] == init[i];
        }
      }
      if p.x < prev.x {
        assert path[|path| - 1].x == rect.x;
      } else {
        var i :| 0 <= i < |init| && init[i].x == prev.x;
        assert path[i].x == rect.x;
      }
      if p.y < prev.y {
        assert path[|path| - 1].y == rect.y;
      } else {
        var j :| 0 <= j < |init| && init[j].y == prev.y;
        assert path[j].y == rect.y;
      }
    }
  }

  /** Three points on a row from 0 to 10 give a width of 20, not 10: the box is not tight. */
  lemma BoundsNotTight()
    ensures Bounds([Point(0, 0, None, true), Point(10, 0, None, false), Point(10, 0, None, false)]).value.width == 20
  {
    var path := [Point(0, 0, None, true), Point(10, 0, None, false), Point(10, 0, None, false)];
    assert path[..2][..1] == [path[0]];
    assert Bounds(path[..2][..1]).value == Rect(0, 0, 0, 0);
    assert Bounds(path[..2]).value == Rect(0, 0, 10, 0);
  }

  /** The key of the last event point of the path, if there is one. */
  function LastEvent(path: seq<Point>): (r: Option<Option<KeyStatus.KeyRef>>)
    ensures r.None? <==> forall i :: 0 <= i < |path| ==> !path[i].ev
    ensures r.Some? ==> exists i :: (0 <= i < |path| && path[i].ev && path[i].key == r.value
                                     && forall j :: i < j < |path| ==> !path[j].ev)
    decreases |path|
  {
    if path == [] then None
    else if path[|path| - 1].ev then Some(path[|path| - 1].key)
    else
      var r := LastEvent(path[..|path| - 1]);
      assert forall j :: 0 <= j < |path| - 1 ==> path[..|path| - 1][j] == path[j];
      r
  }

  /**
   * What the reset yields: the emptied ramble, the padded rectangle
   * invalidated (none for an empty path), and whether an event is reported.
   */
  datatype ResetResult = ResetResult(ramble: Ramble, region: Option<Rect>, detected: bool)

  /**
   * Empties the path and stops the ramble. It reports an event when the key
   * of the last event point differs from `k`; no event point counts as no
   * key.
   */
  function Reset(r: Ramble, k: Option<KeyStatus.KeyRef>): (res: ResetResult)
    ensures res.ramble == New()
    ensures res.region.None? <==> r.path == []
    ensures res.region.Some? ==> Covers(res.region.value, r.path[0].x, r.path[0].y)
    ensures res.detected <==> (match LastEvent(r.path) case None => k.Some? case Some(last) => last != k)
  {
    var region := match Bounds(r.path)
      case None => None
      case Some(b) => Some(Rect(b.x - Pad, b.y - Pad, b.width + 2 * Pad, b.height + 2 * Pad));
    assert region.Some? ==> Covers(region.value, r.path[0].x, r.path[0].y) by {
      if r.path != [] { BoundsEnclose(r.path); }
    }
    var last := match LastEvent(r.path) case None => None case Some(key) => key;
    ResetResult(New(), region, last != k)
  }

  /** The reset's invalidated rectangle covers every point of the path. */
  lemma ResetCovers(r: Ramble, k: Option<KeyStatus.KeyRef>, i: nat)
    requires i < |r.path|
    ensures Covers(Reset(r, k).region.value, r.path[i].x, r.path[i].y)
  {
    BoundsEnclose(r.path);
  }

  /**
   * The reset's loop as the source runs it, over the path from the oldest
   * point: the rectangle starts at the first point and grows, and the last
   * event point's key is remembered.
   */
  method ResetLoop(path: seq<Point>) returns (rect: Option<Rect>, last: Option<KeyStatus.KeyRef>)
    ensures rect == Bounds(path)
    ensures last == match LastEvent(path) case None => None case Some(key) => key
  {
    rect := None;
    last := None;
    var i := 0;
    while i < |path|
      invariant 0 <= i <= |path|
      invariant rect == Bounds(path[..i])
      invariant last == match LastEvent(path[..i]) case None => None case Some(key) => key
    {
      var pt := path[i];
      assert path[..i + 1][..i] == path[..i];
      if rect.None? {
        rect := Some(Rect(pt.x, pt.y, 0, 0));
      } else {
        rect := Some(Grow(rect.value, pt));
      }
      if pt.ev {
        last := pt.key;
      }
      i := i + 1;
    }
    assert path[..i] == path;
  }

  /** A change of input method away from rambling resets the path. */
  function InputMethodChanged(r: Ramble, im: string): (s: Ramble)
    ensures im != "ramble" ==> s == New()
    ensures im == "ramble" ==> s == r
  {
    if im != "ramble" then Reset(r, None).ramble else r
  }
}

=== FILE: settings_window.dfy ===
/**
 * The settings dialog's pure parts: colours stored as "#RRGGBB" strings and
 * converted to and from 16-bit GDK channels, and the extension check boxes,
 * which read and rewrite the colon-separated "extensions" setting.
 */
module SettingsWindow {
  import opened Optional
  import ColonList

  /** A GDK colour's three 16-bit channels. */
  datatype Color = Color(red: nat, green: nat, blue: nat)

  ghost predicate Channels16(c: Color)
  {
    c.red < 0x1_0000 && c.green < 0x1_0000 && c.blue < 0x1_0000
  }

  /** The value of a hexadecimal digit in either case. */
  function HexValue(ch: char): (v: Option<nat>)
    ensures v.Some? ==> v.value < 16
    ensures v.Some? <==> ('0' <= ch <= '9' || 'a' <= ch <= 'f' || 'A' <= ch <= 'F')
  {
    if '0' <= ch <= '9' then Some(ch as nat - '0' as nat)
    else if 'a' <= ch <= 'f' then Some(ch as nat - 'a' as nat + 10)
    else if 'A' <= ch <= 'F' then Some(ch as nat - 'A' as nat + 10)
    else None
  }

  /** The upper-case digit `printf("%X")` writes for a value below 16. */
  function HexDigit(v: nat): (ch: char)
    requires v < 16
    ensures HexValue(ch) == Some(v)
    ensures !('a' <= ch <= 'f')
  {
    if v < 10 then ('0' as nat + v) as char else ('A' as nat + v - 10) as char
  }

  /** The byte two hex digits spell. */
  function Byte(hi: char, lo: char): (b: Option<nat>)
    ensures b.Some? ==> b.value < 256
    ensures b.Some? <==> HexValue(hi).Some? && HexValue(lo).Some?
    ensures b.Some? ==> b.value == HexValue(hi).value * 16 + HexValue(lo).value
  {
    match (HexValue(hi), HexValue(lo))
    case (Some(h), Some(l)) => Some(h * 16 + l)
    case _ => None
  }

  /** A string the conversion reads completely: '#' and six hex digits first. */
  predicate WellFormed(s: string)
  {
    |s| >= 7 && s[0] == '#'
    && Byte(s[1], s[2]).Some? && Byte(s[3], s[4]).Some? && Byte(s[5], s[6]).Some?
  }

  /**
   * Reads "#RRGGBB" with `sscanf("#%02x%02x%02x")` and shifts each byte into
   * the high byte of its 16-bit channel. Characters after the seventh are
   * ignored, as sscanf ignores them.
   */
  function ConvertColor(s: string): (c: Option<Color>)
    ensures c.Some? <==> WellFormed(s)
    ensures c.Some? ==> (Channels16(c.value)
      && c.value.red == Byte(s[1], s[2]).value * 256
      && c.value.green == Byte(s[3], s[4]).value * 256
      && c.value.blue == Byte(s[5], s[6]).value * 256)
  {
    if WellFormed(s) then
      Some(Color(Byte(s[1], s[2]).value * 256,
                 Byte(s[3], s[4]).value * 256,
                 Byte(s[5], s[6]).value * 256))
    else None
  }

  /** A byte as two upper-case hex digits, as `%02X` writes it. */
  function Hex2(b: nat): (s: string)
    requires b < 256
    ensures |s| == 2 && Byte(s[0], s[1]) == Some(b)
  {
    [HexDigit(b / 16), HexDigit(b % 16)]
  }

  /**
   * Formats a colour as `#%02X%02X%02X` of each channel's high byte, the
   * string the settings store.
   */
  function FormatColor(c: Color): (s: string)
    requires Channels16(c)
    ensures |s| == 7 && s[0] == '#'
    ensures WellFormed(s)
    ensures forall i :: 1 <= i < 7 ==> !('a' <= s[i] <= 'f')
  {
    "#" + Hex2(c.red / 256) + Hex2(c.green / 256) + Hex2(c.blue / 256)
  }

  /**
   * Formatting then converting keeps each channel's high byte and clears
   * its low byte.
   */
  lemma ConvertFormat(c: Color)
    requires Channels16(c)
    ensures ConvertColor(FormatColor(c)) ==
      Some(Color(c.red / 256 * 256, c.green / 256 * 256, c.blue / 256 * 256))
  {
    var s := FormatColor(c);
    assert s[1..3] == Hex2(c.red / 256);
    assert s[3..5] == Hex2(c.green / 256);
    assert s[5..7] == Hex2(c.blue / 256);
  }

  /** The upper-case form of a hex digit. */
  function Upper(ch: char): char
  {
    if 'a' <= ch <= 'f' then (ch as nat - 'a' as nat + 'A' as nat) as char else ch
  }

  /**
   * Converting then formatting gives back the first seven characters of the
   * string, with its hex digits in upper case.
   */
  lemma FormatConvert(s: string)
    requires WellFormed(s)
    ensures FormatColor(ConvertColor(s).value) ==
      ['#', Upper(s[1]), Upper(s[2]), Upper(s[3]), Upper(s[4]), Upper(s[5]), Upper(s[6])]
  {
    var c := ConvertColor(s).value;
    forall i | 1 <= i < 7 ensures HexDigit(HexValue(s[i]).value) == Upper(s[i]) {
      DigitOfValue(s[i]);
    }
    var r := Byte(s[1], s[2]).value;
    var g := Byte(s[3], s[4]).value;
    var b := Byte(s[5], s[6]).value;
    assert c.red / 256 == r && c.green / 256 == g && c.blue / 256 == b;
    assert r / 16 == HexValue(s[1]).value && r % 16 == HexValue(s[2]).value;
    assert g / 16 == HexValue(s[3]).value && g % 16 == HexValue(s[4]).value;
    assert b / 16 == HexValue(s[5]).value && b % 16 == HexValue(s[6]).value;
  }

  /** Writing the value of a hex digit gives the digit, upper-cased. */
  lemma DigitOfValue(ch: char)
    requires HexValue(ch).Some?
    ensures HexDigit(HexValue(ch).value) == Upper(ch)
  {
  }

  /** Outcome of rewriting the setting: the new list, or a fatal error. */
  datatype Outcome = Store(extensions: string) | Fatal

  /**
   * The list a check box reads: the uncommitted value of the dialog's change
   * set when there is one, else the stored setting.
   */
  function CurrentExtensions(pending: Option<string>, stored: Option<string>): (e: Option<string>)
    ensures pending.Some? ==> e == pending
    ensures pending.None? ==> e == stored
  {
    if pending.Some? then pending else stored
  }

  /**
   * The rewritten list when the check box for `id` is toggled: every token
   * equal to `id` is dropped, and `id` is appended when the box is active.
   */
  function Rewrite(all: string, id: string, active: bool): (s: string)
  {
    var kept := ColonList.Without(ColonList.Split(all), id);
    ColonList.Join(if active then kept + [id] else kept)
  }

  /**
   * The toggle handler: reads the current list, fails fatally when there is
   * none, otherwise stores the rewritten list in the change set.
   */
  function Toggle(pending: Option<string>, stored: Option<string>, id: string, active: bool): (o: Outcome)
    ensures CurrentExtensions(pending, stored).None? <==> o.Fatal?
    ensures o.Store? ==> o.extensions == Rewrite(CurrentExtensions(pending, stored).value, id, active)
  {
    match CurrentExtensions(pending, stored)
    case None => Fatal
    case Some(all) => Store(Rewrite(all, id, active))
  }

  /** An extension name the list can hold: not empty, no colon. */
  predicate Token(id: string)
  {
    id != [] && ColonList.Colon !in id
  }

  /** After deactivation the list no longer holds the id; the other tokens keep their order. */
  lemma DeactivateRemoves(all: string, id: string)
    ensures !ColonList.Member(id, Rewrite(all, id, false))
    ensures ColonList.Split(Rewrite(all, id, false)) == ColonList.Without(ColonList.Split(all), id)
      || (ColonList.Without(ColonList.Split(all), id) == [[]] && Rewrite(all, id, false) == [])
  {
    var kept := ColonList.Without(ColonList.Split(all), id);
    ColonList.WithoutPlain(ColonList.Split(all), id);
    if kept != [[]] {
      ColonList.SplitJoin(kept);
    }
  }

  /** After activation the list holds the id exactly once, as its last token. */
  lemma ActivateAppends(all: string, id: string)
    requires Token(id)
    ensures ColonList.Split(Rewrite(all, id, true)) == ColonList.Without(ColonList.Split(all), id) + [id]
    ensures ColonList.Member(id, Rewrite(all, id, true))
    ensures forall i :: 0 <= i < |ColonList.Split(Rewrite(all, id, true))| - 1 ==>
      ColonList.Split(Rewrite(all, id, true))[i] != id
  {
    var kept := ColonList.Without(ColonList.Split(all), id);
    ColonList.WithoutPlain(ColonList.Split(all), id);
    assert ColonList.Plain(kept + [id]) by {
      forall i | 0 <= i < |kept + [id]| ensures ColonList.Colon !in (kept + [id])[i] {
        if i < |kept| { assert (kept + [id])[i] == kept[i]; }
      }
    }
    assert kept + [id] != [[]] by {
      assert (kept + [id])[|kept|] == id;
    }
    ColonList.SplitJoin(kept + [id]);
    forall i | 0 <= i < |kept| ensures (kept + [id])[i] != id {
      assert kept[i] in kept;
    }
  }

  /** Applying the same toggle twice leaves the same string as applying it once. */
  lemma RewriteIdempotent(all: string, id: string, active: bool)
    requires active ==> Token(id)
    ensures Rewrite(Rewrite(all, id, active), id, active) == Rewrite(all, id, active)
  {
    var once := Rewrite(all, id, active);
    var kept := ColonList.Without(ColonList.Split(all), id);
    if active {
      ActivateAppends(all, id);
      ColonList.WithoutAppend(kept, id);
      assert id !in kept;
      ColonList.WithoutAbsent(kept, id);
    } else {
      DeactivateRemoves(all, id);
      assert id !in ColonList.Split(once);
      ColonList.WithoutAbsent(ColonList.Split(once), id);
      ColonList.JoinSplit(once);
    }
  }

  /**
   * A check box starts active exactly when its id is a token of the stored
   * list; a missing setting leaves it inactive. This is the same test the
   * keyboard applies to decide whether an extension is shown.
   */
  function CheckboxActive(id: string, stored: Option<string>): (on: bool)
    ensures on <==> stored.Some? && id in ColonList.Split(stored.value)
  {
    stored.Some? && ColonList.Member(id, stored.value)
  }

  /** A box toggled on and re-read from the rewritten list is active. */
  lemma ToggledOnReadsActive(all: string, id: string)
    requires Token(id)
    ensures CheckboxActive(id, Some(Rewrite(all, id, true)))
    ensures !CheckboxActive(id, Some(Rewrite(all, id, false)))
  {
    ActivateAppends(all, id);
    DeactivateRemoves(all, id);
  }
}

=== FILE: status.dfy ===
/**
 * The keyboard's shared status: the focus key, the key being pressed, the
 * list of pressed keys and the global modifier mask. Keys are identified
 * by reference; what a key knows about itself (its modifier, whether it is
 * pressed) comes from the key module and is passed in.
 */
module KeyStatus {
  import opened Optional
  import Seqs

  /** A key, by identity. */
  type KeyRef = nat

  /** A GDK modifier mask. */
  type Mask = bv32

  datatype Status = Status(
    focus: Option<KeyRef>,
    pressed: Option<KeyRef>,
    pressedKeys: seq<KeyRef>,
    globalmod: Mask,
    timer: bool)

  /** Calls into the key and view modules that the status makes, in order. */
  datatype Effect =
    | KeyPress(key: KeyRef)
    | KeyRelease(key: KeyRef)
    | ViewUpdate(key: KeyRef, redrawAll: bool)

  /** A freshly allocated status: everything zeroed. */
  function New(): (s: Status)
    ensures s.focus.None? && s.pressed.None? && s.pressedKeys == []
    ensures s.globalmod == 0 && !s.timer
  {
    Status(None, None, [], 0, false)
  }

  /** `a` and `b` agree on every bit outside `m`. */
  predicate SameOutside(a: Mask, b: Mask, m: Mask)
  {
    a & !m == b & !m
  }

  /** ORs `m` into the global modifier mask. */
  function GlobalmodSet(s: Status, m: Mask): (r: Status)
    ensures r.globalmod & m == m
    ensures SameOutside(r.globalmod, s.globalmod, m)
    ensures r == s.(globalmod := r.globalmod)
  {
    s.(globalmod := s.globalmod | m)
  }

  /** Clears exactly the bits of `m` from the global modifier mask. */
  function GlobalmodUnset(s: Status, m: Mask): (r: Status)
    ensures r.globalmod & m == 0
    ensures SameOutside(r.globalmod, s.globalmod, m)
    ensures r == s.(globalmod := r.globalmod)
  {
    s.(globalmod := s.globalmod & !m)
  }

  lemma ClearedBitsRestore(g: Mask, m: Mask)
    requires g & m == 0
    ensures (g | m) & !m == g
  {
  }

  /** Setting bits that were clear and unsetting them again restores the mask. */
  lemma SetUnsetRestores(s: Status, m: Mask)
    requires s.globalmod & m == 0
    ensures GlobalmodUnset(GlobalmodSet(s, m), m) == s
  {
    ClearedBitsRestore(s.globalmod, m);
  }

  /**
   * Records `k` as pressed (prepended, at most once); a modifier key that is
   * pressed also sets its bits in the global mask. `mod` and `isPressed`
   * are the key's modifier and pressed flag.
   */
  function Press(s: Status, k: KeyRef, mod: Mask, isPressed: bool): (r: Status)
    ensures k in r.pressedKeys
    ensures k in s.pressedKeys ==> r.pressedKeys == s.pressedKeys
    ensures k !in s.pressedKeys ==> r.pressedKeys == [k] + s.pressedKeys
    ensures Seqs.NoDup(s.pressedKeys) ==> Seqs.NoDup(r.pressedKeys)
    ensures mod != 0 && isPressed ==> r.globalmod == GlobalmodSet(s, mod).globalmod
    ensures !(mod != 0 && isPressed) ==> r.globalmod == s.globalmod
    ensures r.focus == s.focus && r.pressed == s.pressed && r.timer == s.timer
  {
    var keys := if k in s.pressedKeys then s.pressedKeys else [k] + s.pressedKeys;
    var gm := if mod != 0 && isPressed then GlobalmodSet(s, mod).globalmod else s.globalmod;
    s.(pressedKeys := keys, globalmod := gm)
  }

  /**
   * Forgets the first occurrence of `k` in the pressed list; a modifier key
   * that is no longer pressed also clears its bits from the global mask.
   */
  function Release(s: Status, k: KeyRef, mod: Mask, isPressed: bool): (r: Status)
    ensures r.pressedKeys == Seqs.RemoveFirst(s.pressedKeys, k)
    ensures Seqs.NoDup(s.pressedKeys) ==>
      Seqs.NoDup(r.pressedKeys)
      && forall j :: j in r.pressedKeys <==> j in s.pressedKeys && j != k
    ensures mod != 0 && !isPressed ==> r.globalmod == GlobalmodUnset(s, mod).globalmod
    ensures !(mod != 0 && !isPressed) ==> r.globalmod == s.globalmod
    ensures r.focus == s.focus && r.pressed == s.pressed && r.timer == s.timer
  {
    assert Seqs.NoDup(s.pressedKeys) ==>
      Seqs.NoDup(Seqs.RemoveFirst(s.pressedKeys, k))
      && forall j :: j in Seqs.RemoveFirst(s.pressedKeys, k) <==> j in s.pressedKeys && j != k
    by {
      if Seqs.NoDup(s.pressedKeys) {
        Seqs.RemoveFirstNoDup(s.pressedKeys, k);
      }
    }
    var gm := if mod != 0 && !isPressed then GlobalmodUnset(s, mod).globalmod else s.globalmod;
    s.(pressedKeys := Seqs.RemoveFirst(s.pressedKeys, k), globalmod := gm)
  }

  /**
   * Pressing a modifier key that was not recorded and whose bits were clear,
   * then releasing it, gives back the status it started from.
   */
  lemma PressReleaseRestores(s: Status, k: KeyRef, mod: Mask)
    requires Seqs.NoDup(s.pressedKeys) && k !in s.pressedKeys
    requires s.globalmod & mod == 0
    ensures Release(Press(s, k, mod, true), k, mod, false) == s
  {
    var p := Press(s, k, mod, true);
    assert p.pressedKeys == [k] + s.pressedKeys;
    assert Seqs.RemoveFirst([k] + s.pressedKeys, k) == s.pressedKeys by {
      assert ([k] + s.pressedKeys)[0] == k;
      assert ([k] + s.pressedKeys)[1..] == s.pressedKeys;
    }
    if mod != 0 {
      SetUnsetRestores(s, mod);
    }
  }

  /**
   * Sets or clears the pressed key. Pressing takes the focus key, presses it
   * and redraws it, the whole view when it is a modifier or a global
   * modifier is active. Releasing releases the pressed key, drops it from
   * the pressed list unless the key reports itself still pressed, redraws
   * it and clears the pressed key. `modOf` and `stillPressed` answer for the
   * key module.
   */
  function PressedSet(s: Status, on: bool, modOf: KeyRef -> Mask, stillPressed: bool): (r: (Status, seq<Effect>))
    ensures on ==> r.0.pressed == s.focus
    ensures !on ==> r.0.pressed.None?
    ensures on && s.focus.Some? ==>
      r.1 == [KeyPress(s.focus.value),
              ViewUpdate(s.focus.value, modOf(s.focus.value) != 0 || s.globalmod != 0)]
      && r.0 == s.(pressed := s.focus)
    ensures !on && s.pressed.Some? ==>
      r.1 == [KeyRelease(s.pressed.value), ViewUpdate(s.pressed.value, false)]
      && (stillPressed ==> r.0.pressedKeys == s.pressedKeys)
      && (!stillPressed ==> r.0.pressedKeys == Seqs.RemoveFirst(s.pressedKeys, s.pressed.value))
      && (!stillPressed && modOf(s.pressed.value) != 0 ==>
            r.0.globalmod == GlobalmodUnset(s, modOf(s.pressed.value)).globalmod)
      && (stillPressed || modOf(s.pressed.value) == 0 ==> r.0.globalmod == s.globalmod)
    ensures (on && s.focus.None?) || (!on && s.pressed.None?) ==> r == (s.(pressed := None), [])
    ensures r.0.focus == s.focus && r.0.timer == s.timer
  {
    if on then
      match s.focus
      case None => (s.(pressed := None), [])
      case Some(k) =>
        (s.(pressed := Some(k)), [KeyPress(k), ViewUpdate(k, modOf(k) != 0 || s.globalmod != 0)])
    else
      match s.pressed
      case None => (s, [])
      case Some(k) =>
        var s1 := if !stillPressed then Release(s, k, modOf(k), false) else s;
        (s1.(pressed := None), [KeyRelease(k), ViewUpdate(k, false)])
  }

  /** Back to the initial state: no focus, nothing pressed, no global modifier. */
  function Reset(s: Status): (r: Status)
    ensures r.focus.None? && r.pressed.None? && r.pressedKeys == []
    ensures r.globalmod == 0 && !r.timer
  {
    Status(None, None, [], 0, false)
  }

  /** A reset status is indistinguishable from a new one, whatever came before. */
  lemma ResetIsNew(s: Status, t: Status)
    ensures Reset(s) == New() == Reset(t)
  {
  }
}

=== FILE: toolkit_object.dfy ===
/** The positioned, resizable rectangle of the layout editor (class `object`
    of editor/toolkit.py): strict hit testing, status transitions, the
    anchor chosen on press, drag with a 10-unit floor, and the pending
    "hug" offset committed on release. Coordinates are integers. */
module SceneObject {

  /** Interaction status, stored by the source as 0, 1 and 2. */
  datatype Status = Normal | Active | Selected

  /** The handle grabbed on press. The source numbers them
      0 body, 1 top-left, 2 bottom-left, 3 top-right, 4 bottom-right,
      5 left, 6 right, 7 top, 8 bottom. */
  datatype Anchor = Body | TopLeft | BottomLeft | TopRight | BottomRight | Left | Right | Top | Bottom

  /** Smallest width and height a drag leaves behind. */
  const MinSize: int := 10

  datatype Obj = Obj(
    name: string,
    x: int, y: int, w: int, h: int,
    dx: int, dy: int,          // pending hug offset, committed on release
    status: Status,
    moving: bool,              // between press and release
    offx: int, offy: int,      // press point relative to the anchor reference
    anchor: Anchor,
    dirty: bool)               // needs redrawing

  /** Right and bottom edges. */
  function RightEdge(o: Obj): int { o.x + o.w }
  function BottomEdge(o: Obj): int { o.y + o.h }

  /** A new object: normal, idle, no hug, clean. */
  function New(name: string, x: int, y: int, w: int, h: int): (r: Obj)
    ensures r.x == x && r.y == y && r.w == w && r.h == h && r.name == name
    ensures r.status == Normal && !r.moving && !r.dirty
    ensures r.dx == 0 && r.dy == 0 && r.anchor == Body
  {
    Obj(name, x, y, w, h, 0, 0, Normal, false, 0, 0, Body, false)
  }

  /** The source's `inbox`: strictly inside the box on every side. */
  predicate InBox(px: int, py: int, left: int, top: int, bw: int, bh: int) {
    px > left && py > top && px < left + bw && py < top + bh
  }

  /** Hit test against the object's own rectangle. */
  predicate Hit(o: Obj, px: int, py: int) {
    InBox(px, py, o.x, o.y, o.w, o.h)
  }

  /** A point on any edge of the rectangle never hits it. */
  lemma HitIsStrict(o: Obj, px: int, py: int)
    ensures Hit(o, px, py) <==> o.x < px < RightEdge(o) && o.y < py < BottomEdge(o)
    ensures px == o.x || py == o.y || px == RightEdge(o) || py == BottomEdge(o) ==> !Hit(o, px, py)
  {
  }

  /** Closed intervals [a, a2] and [b, b2] share a point. */
  predicate Overlap(a: int, a2: int, b: int, b2: int) {
    a <= b2 && b <= a2
  }

  /** The source's `collide`: does the object meet the drag rectangle
      spanned by two opposite corners given in any order? */
  predicate Collide(o: Obj, ax: int, ay: int, ax2: int, ay2: int) {
    var x := if ax < ax2 then ax else ax2;
    var x2 := if ax < ax2 then ax2 else ax;
    var y := if ay < ay2 then ay else ay2;
    var y2 := if ay < ay2 then ay2 else ay;
    ((o.x <= x && o.x + o.w >= x) || (o.x >= x && o.x <= x2))
    && ((o.y <= y && o.y + o.h >= y) || (o.y >= y && o.y <= y2))
  }

  /** For a rectangle of non-negative size, `collide` is exactly the
      overlap of the closed rectangle with the closed drag box, and the
      order of the two corners does not matter. */
  lemma CollideIsOverlap(o: Obj, ax: int, ay: int, ax2: int, ay2: int)
    requires o.w >= 0 && o.h >= 0
    ensures Collide(o, ax, ay, ax2, ay2) <==>
      Overlap(o.x, RightEdge(o), Min(ax, ax2), Max(ax, ax2))
      && Overlap(o.y, BottomEdge(o), Min(ay, ay2), Max(ay, ay2))
    ensures Collide(o, ax, ay, ax2, ay2) == Collide(o, ax2, ay2, ax, ay)
  {
  }

  function Min(a: int, b: int): int { if a <= b then a else b }
  function Max(a: int, b: int): int { if a >= b then a else b }

  // ---------------------------------------------------------------------
  // Status transitions

  /** Normal becomes Active; any other status is left alone. */
  function Activate(o: Obj): (r: Obj)
    ensures r.status == (if o.status == Normal then Active else o.status)
    ensures r.dirty == (o.dirty || r.status != o.status)
    ensures r.(status := o.status, dirty := o.dirty) == o
  {
    if o.status == Normal then o.(dirty := true, status := Active) else o
  }

  /** Active becomes Normal; any other status is left alone. */
  function Deactivate(o: Obj): (r: Obj)
    ensures r.status == (if o.status == Active then Normal else o.status)
    ensures r.dirty == (o.dirty || r.status != o.status)
    ensures r.(status := o.status, dirty := o.dirty) == o
  {
    if o.status == Active then o.(dirty := true, status := Normal) else o
  }

  /** Any status becomes Selected. */
  function Select(o: Obj): (r: Obj)
    ensures r.status == Selected
    ensures r.dirty == (o.dirty || o.status != Selected)
    ensures r.(status := o.status, dirty := o.dirty) == o
  {
    if o.status != Selected then o.(dirty := true, status := Selected) else o
  }

  /** Any status becomes Normal. */
  function Deselect(o: Obj): (r: Obj)
    ensures r.status == Normal
    ensures r.dirty == (o.dirty || o.status != Normal)
    ensures r.(status := o.status, dirty := o.dirty) == o
  {
    if o.status != Normal then o.(dirty := true, status := Normal) else o
  }

  /** Each transition is idempotent: a second call changes nothing, so it
      produces no second dirty transition. */
  lemma TransitionsIdempotent(o: Obj)
    ensures Activate(Activate(o)) == Activate(o)
    ensures Deactivate(Deactivate(o)) == Deactivate(o)
    ensures Select(Select(o)) == Select(o)
    ensures Deselect(Deselect(o)) == Deselect(o)
  {
  }

  // ---------------------------------------------------------------------
  // Press: the anchor zones

  /** Which edge of an axis a drag from an anchor moves: both (the body
      translates), only the low edge (left/top), only the high edge
      (right/bottom) or neither. */
  datatype AxisRole = Both | LowEdge | HighEdge | Neither

  function RoleX(a: Anchor): AxisRole {
    match a
    case Body => Both
    case TopLeft => LowEdge
    case BottomLeft => LowEdge
    case Left => LowEdge
    case TopRight => HighEdge
    case BottomRight => HighEdge
    case Right => HighEdge
    case Top => Neither
    case Bottom => Neither
  }

  function RoleY(a: Anchor): AxisRole {
    match a
    case Body => Both
    case TopLeft => LowEdge
    case TopRight => LowEdge
    case Top => LowEdge
    case BottomLeft => HighEdge
    case BottomRight => HighEdge
    case Bottom => HighEdge
    case Left => Neither
    case Right => Neither
  }

  /** The press zone of each anchor, for a press at offset (ox, oy) from
      the top-left corner of a w x h rectangle: the corners are checked
      with inclusive 10-unit bounds, the edge handles are strict 10 x 10
      boxes centred on each side, the body matches everywhere. */
  predicate InZone(a: Anchor, ox: int, oy: int, w: int, h: int) {
    match a
    case TopLeft => ox <= 10 && oy <= 10
    case BottomLeft => ox <= 10 && oy >= h - 10
    case TopRight => oy <= 10 && ox >= w - 10
    case BottomRight => ox >= w - 10 && oy >= h - 10
    case Left => InBox(ox, oy, 0, h / 2 - 5, 10, 10)
    case Right => InBox(ox, oy, w - 10, h / 2 - 5, 10, 10)
    case Top => InBox(ox, oy, w / 2 - 5, 0, 10, 10)
    case Bottom => InBox(ox, oy, w / 2 - 5, h - 10, 10, 10)
    case Body => true
  }

  /** Precedence of the zones: the corners 1-4, then the edges 5-8, the
      body last. */
  function Rank(a: Anchor): nat {
    match a
    case TopLeft => 1
    case BottomLeft => 2
    case TopRight => 3
    case BottomRight => 4
    case Left => 5
    case Right => 6
    case Top => 7
    case Bottom => 8
    case Body => 9
  }

  /** The anchor chosen for a press: the first zone, in precedence order,
      that contains the press point. */
  function AnchorAt(ox: int, oy: int, w: int, h: int): (r: Anchor)
    ensures InZone(r, ox, oy, w, h)
    ensures forall a :: Rank(a) < Rank(r) ==> !InZone(a, ox, oy, w, h)
  {
    if ox <= 10 && oy <= 10 then TopLeft
    else if ox <= 10 && oy >= h - 10 then BottomLeft
    else if oy <= 10 && ox >= w - 10 then TopRight
    else if ox >= w - 10 && oy >= h - 10 then BottomRight
    else if InBox(ox, oy, 0, h / 2 - 5, 10, 10) then Left
    else if InBox(ox, oy, w - 10, h / 2 - 5, 10, 10) then Right
    else if InBox(ox, oy, w / 2 - 5, 0, 10, 10) then Top
    else if InBox(ox, oy, w / 2 - 5, h - 10, 10, 10) then Bottom
    else Body
  }

  /** Press: start moving, remember where the rectangle was grabbed and
      pick the anchor from that offset. */
  function OnPress(o: Obj, px: int, py: int): (r: Obj)
    ensures r.moving
    ensures r.x + r.offx == px && r.y + r.offy == py
    ensures InZone(r.anchor, r.offx, r.offy, o.w, o.h)
    ensures forall a :: Rank(a) < Rank(r.anchor) ==> !InZone(a, r.offx, r.offy, o.w, o.h)
    ensures r.(moving := o.moving, offx := o.offx, offy := o.offy, anchor := o.anchor) == o
  {
    var ox := px - o.x;
    var oy := py - o.y;
    o.(moving := true, offx := ox, offy := oy, anchor := AnchorAt(ox, oy, o.w, o.h))
  }

  // ---------------------------------------------------------------------
  // Release: commit the hug

  /** The displacement of an axis' low and high edges when a drag from an
      edge of the given role is moved by `d`. */
  function LowShift(role: AxisRole, d: int): int {
    if role == Both || role == LowEdge then d else 0
  }
  function HighShift(role: AxisRole, d: int): int {
    if role == Both || role == HighEdge then d else 0
  }

  /** Release: the hug offset moves exactly the edges the anchor drags
      (both edges for the body), then the hug is cleared and the object
      stops moving. No minimum size is re-applied. */
  function OnRelease(o: Obj): (r: Obj)
    ensures r.x == o.x + LowShift(RoleX(o.anchor), o.dx)
    ensures RightEdge(r) == RightEdge(o) + HighShift(RoleX(o.anchor), o.dx)
    ensures r.y == o.y + LowShift(RoleY(o.anchor), o.dy)
    ensures BottomEdge(r) == BottomEdge(o) + HighShift(RoleY(o.anchor), o.dy)
    ensures r.dx == 0 && r.dy == 0 && !r.moving
    ensures r.(x := o.x, y := o.y, w := o.w, h := o.h, dx := o.dx, dy := o.dy, moving := o.moving) == o
  {
    var o1 := o.(moving := false);
    var o2 :=
      match o.anchor
      case TopLeft => o1.(x := o.x + o.dx, y := o.y + o.dy, w := o.w - o.dx, h := o.h - o.dy)
      case BottomLeft => o1.(x := o.x + o.dx, w := o.w - o.dx, h := o.h + o.dy)
      case TopRight => o1.(y := o.y + o.dy, w := o.w + o.dx, h := o.h - o.dy)
      case BottomRight => o1.(w := o.w + o.dx, h := o.h + o.dy)
      case Left => o1.(x := o.x + o.dx, w := o.w - o.dx)
      case Right => o1.(w := o.w + o.dx)
      case Top => o1.(y := o.y + o.dy, h := o.h - o.dy)
      case Bottom => o1.(h := o.h + o.dy)
      case Body => o1.(x := o.x + o.dx, y := o.y + o.dy);
    o2.(dx := 0, dy := 0)
  }

  /** The release does not re-apply the floor: a bottom-right hug of -5 on
      a 10-wide object leaves it 5 wide. */
  lemma ReleaseCanUndercutFloor()
    ensures var o := New("k", 0, 0, 10, 10).(anchor := BottomRight, dx := -5);
            OnRelease(o).w == 5
  {
  }

  // ---------------------------------------------------------------------
  // Motion

  /** One axis of a drag, as (low edge, size, press offset): the body
      puts the low edge at the mouse minus the press offset; a low-edge
      drag does the same but keeps the high edge, so the size changes; a
      high-edge drag keeps the low edge, takes the new press offset from
      the mouse and grows the size by the change of offset. */
  function DragAxis(role: AxisRole, lo: int, len: int, off: int, p: int): (int, int, int) {
    match role
    case Both => (p - off, len, off)
    case LowEdge => var n := p - off; (n, len + lo - n, off)
    case HighEdge => var n := p - lo; (lo, len - off + n, n)
    case Neither => (lo, len, off)
  }

  /** The 10-unit floor of one axis: a size that fell below 10 is set to
      10; a low edge that moved is put back so that the high edge keeps its
      place, and a press offset that moved is corrected alike. */
  function FloorAxis(lo: int, len: int, off: int, d: (int, int, int)): (int, int, int) {
    if d.1 < MinSize then
      (if d.0 != lo then lo + len - MinSize else d.0,
       MinSize,
       if d.2 != off then off - len + MinSize else d.2)
    else d
  }

  /** How one axis of a drag ends, for an axis whose size was at least the
      floor: the body moves the low edge to the mouse minus the press
      offset and keeps the size; a low-edge drag keeps the high edge and
      moves the low edge with the mouse, but never closer than 10 to the
      high edge; a high-edge drag keeps the low edge and moves the high
      edge so that it stays as far from the mouse as at press time, but
      never closer than 10 to the low edge; other anchors leave the axis. */
  ghost predicate AxisDrag(role: AxisRole, lo: int, len: int, off: int, p: int, lo2: int, len2: int) {
    match role
    case Both => lo2 == p - off && len2 == len
    case LowEdge => lo2 + len2 == lo + len && lo2 == Min(p - off, lo + len - MinSize)
    case HighEdge => lo2 == lo && lo2 + len2 == Max(lo + MinSize, p + len - off)
    case Neither => lo2 == lo && len2 == len
  }

  /** A drag step on one axis never leaves the size below the floor, and
      from a size at least the floor it ends as `AxisDrag` describes. */
  lemma FloorAxisDrag(role: AxisRole, lo: int, len: int, off: int, p: int)
    ensures var r := FloorAxis(lo, len, off, DragAxis(role, lo, len, off, p));
            r.1 >= MinSize && (len >= MinSize ==> AxisDrag(role, lo, len, off, p, r.0, r.1))
  {
  }

  /** A drag step: both axes follow the anchor's roles, then the floor is
      applied to each. */
  function DragStep(o: Obj, px: int, py: int): Obj {
    var (x, w, offx) := FloorAxis(o.x, o.w, o.offx, DragAxis(RoleX(o.anchor), o.x, o.w, o.offx, px));
    var (y, h, offy) := FloorAxis(o.y, o.h, o.offy, DragAxis(RoleY(o.anchor), o.y, o.h, o.offy, py));
    o.(x := x, w := w, offx := offx, y := y, h := h, offy := offy)
  }

  /** The hover reaction of an object that is not being dragged. */
  function Hover(o: Obj, px: int, py: int): Obj {
    if Hit(o, px, py) then
      (if o.status == Normal then o.(dirty := true, status := Active) else o)
    else
      (if o.status == Active then o.(dirty := true, status := Normal) else o)
  }

  /** Mouse motion. While moving, the rectangle follows the anchor's
      edges, never ends smaller than 10 x 10, and the edge opposite a
      dragged one keeps its place. Otherwise only the hover status
      changes: Normal to Active under the mouse, Active to Normal away
      from it. */
  function OnMotion(o: Obj, px: int, py: int): (r: Obj)
    ensures o.moving ==> r.w >= MinSize && r.h >= MinSize && r.dirty && r.moving
    ensures o.moving && o.w >= MinSize ==> AxisDrag(RoleX(o.anchor), o.x, o.w, o.offx, px, r.x, r.w)
    ensures o.moving && o.h >= MinSize ==> AxisDrag(RoleY(o.anchor), o.y, o.h, o.offy, py, r.y, r.h)
    ensures o.moving ==> r.status == o.status && r.anchor == o.anchor && r.dx == o.dx && r.dy == o.dy
    ensures !o.moving ==> r.(status := o.status, dirty := o.dirty) == o
    ensures !o.moving ==> r.status == (if Hit(o, px, py) && o.status == Normal then Active
                                       else if !Hit(o, px, py) && o.status == Active then Normal
                                       else o.status)
    ensures !o.moving ==> r.dirty == (o.dirty || r.status != o.status)
  {
    if o.moving then
      FloorAxisDrag(RoleX(o.anchor), o.x, o.w, o.offx, px);
      FloorAxisDrag(RoleY(o.anchor), o.y, o.h, o.offy, py);
      DragStep(o, px, py).(dirty := true)
    else Hover(o, px, py)
  }

  /** Leaving the canvas drops the Active status. */
  function OnLeave(o: Obj): (r: Obj)
    ensures r == Deactivate(o)
  {
    if o.status == Active then o.(dirty := true, status := Normal) else o
  }

  /** Set the pending hug offset; nothing else changes. */
  function Hug(o: Obj, dx: int, dy: int): (r: Obj)
    ensures r.dx == dx && r.dy == dy
    ensures r.(dx := o.dx, dy := o.dy) == o
  {
    o.(dx := dx, dy := dy)
  }

  /** Moves through a non-empty sequence of mouse positions. */
  function Motions(o: Obj, pts: seq<(int, int)>): Obj
    decreases |pts|
  {
    if |pts| == 0 then o else Motions(OnMotion(o, pts[0].0, pts[0].1), pts[1..])
  }

  /** Without a hug, a press followed by at least one motion and a release
      leaves the object at least 10 x 10. */
  lemma {:induction false} DragKeepsFloor(o: Obj, px: int, py: int, pts: seq<(int, int)>)
    requires |pts| > 0 && o.dx == 0 && o.dy == 0
    ensures var r := OnRelease(Motions(OnPress(o, px, py), pts));
            r.w >= MinSize && r.h >= MinSize
  {
    MotionsKeepFloor(OnPress(o, px, py), pts);
  }

  lemma {:induction false} MotionsKeepFloor(o: Obj, pts: seq<(int, int)>)
    requires |pts| > 0 && o.moving && o.dx == 0 && o.dy == 0
    ensures var r := Motions(o, pts);
            r.w >= MinSize && r.h >= MinSize && r.moving && r.dx == 0 && r.dy == 0
    decreases |pts|
  {
    var o1 := OnMotion(o, pts[0].0, pts[0].1);
    if |pts| > 1 {
      MotionsKeepFloor(o1, pts[1..]);
    }
  }
}

=== FILE: toolkit_scene.dfy ===
/** The editor canvas (class `scene` of editor/toolkit.py): a z-ordered
    list of objects, the selection, the rubber band and the grid, driven by
    press, motion, release and leave events. Each event is a function from
    the scene before to the scene after; a motion also reports whether a
    redraw is requested. */
module Scene {
  import opened Optional
  import opened Seqs
  import SO = SceneObject
  import Sel = Selection
  import Snapping

  type Id = nat

  datatype Scene = Scene(
    g: Sel.Group,        // the object store and the selection
    order: seq<Id>,      // z-order, bottom first: the last object is drawn on top
    top: Option<Id>,     // the object raised by the current press
    moving: bool,        // a rubber band is being dragged
    xsel: int, ysel: int, xsel2: int, ysel2: int,   // rubber band corners
    gridx: int, gridy: int,                         // grid spacing, 0 for none
    w: int, h: int)                                 // canvas size

  /** The scene's consistency: z-order lists each stored object once, the
      selection lists stored objects once each, and an object is Selected
      exactly when it is a member of the selection. */
  ghost predicate Valid(s: Scene) {
    && NoDup(s.order)
    && (forall k :: k in s.order <==> k in s.g.objs)
    && NoDup(s.g.members)
    && (forall k :: k in s.g.members ==> k in s.g.objs)
    && (forall k :: k in s.g.objs ==> (s.g.objs[k].status == SO.Selected <==> k in s.g.members))
  }

  /** `reset`: no objects, no selection, no press, no rubber band, no grid;
      the canvas size is kept. */
  function Reset(s: Scene): (r: Scene)
    ensures Valid(r)
    ensures |r.order| == 0 && |r.g.members| == 0 && r.top == None && !r.moving
    ensures r.gridx == 0 && r.gridy == 0 && r.w == s.w && r.h == s.h
  {
    Scene(Sel.Empty(map[]), [], None, false, 0, 0, 0, 0, 0, 0, s.w, s.h)
  }

  /** A fresh key: one more than every key in the list. */
  function FreshId(ks: seq<Id>): (r: Id)
    ensures forall k :: k in ks ==> k < r
    decreases |ks|
  {
    if |ks| == 0 then 0
    else
      var m := FreshId(ks[1..]);
      assert forall k :: k in ks ==> k == ks[0] || k in ks[1..];
      if ks[0] + 1 > m then ks[0] + 1 else m
  }

  /** `add`: a new object goes on top of the z-order. */
  function AddObject(s: Scene, name: string, x: int, y: int, w: int, h: int): (r: (Scene, Id))
    ensures r.0.order == s.order + [r.1] && r.1 !in s.order
    ensures Valid(s) ==> Valid(r.0) && r.0.g.objs == s.g.objs[r.1 := SO.New(name, x, y, w, h)]
    ensures r.0.g.members == s.g.members
  {
    var k := FreshId(s.order);
    (s.(g := s.g.(objs := s.g.objs[k := SO.New(name, x, y, w, h)]), order := s.order + [k]), k)
  }

  /** `setgrid` and `setSize`. */
  function SetGrid(s: Scene, gx: int, gy: int): (r: Scene)
    ensures r.gridx == gx && r.gridy == gy && r.(gridx := s.gridx, gridy := s.gridy) == s
  {
    s.(gridx := gx, gridy := gy)
  }

  function SetSize(s: Scene, w: int, h: int): (r: Scene)
    ensures r.w == w && r.h == h && r.(w := s.w, h := s.h) == s
  {
    s.(w := w, h := h)
  }

  /** The z-order with `k` moved to the end. */
  function Raise(order: seq<Id>, k: Id): (r: seq<Id>)
    ensures k in order ==> |r| == |order| && r[|r| - 1] == k
    ensures k in order ==> multiset(r) == multiset(order)
    ensures NoDup(order) && k in order ==> NoDup(r) && r[..|r| - 1] == RemoveFirst(order, k)
  {
    var rest := RemoveFirst(order, k);
    assert NoDup(order) ==> NoDup(rest) && k !in rest by {
      if NoDup(order) { RemoveFirstNoDup(order, k); }
    }
    assert NoDup(order) && k in order ==> NoDup(rest + [k]) by {
      if NoDup(order) && k in order { AppendNoDup(rest, k); }
    }
    assert (rest + [k])[..|rest|] == rest;
    rest + [k]
  }

  /** `totop`: the object becomes the current press target and moves to
      the end of the z-order. */
  function ToTop(s: Scene, k: Id): (r: Scene)
    ensures r.top == Some(k) && r.order == Raise(s.order, k)
    ensures r.(top := s.top, order := s.order) == s
  {
    s.(top := Some(k), order := Raise(s.order, k))
  }

  /** Appending a new element keeps a list duplicate-free. */
  lemma AppendNoDup<T>(s: seq<T>, x: T)
    requires NoDup(s) && x !in s
    ensures NoDup(s + [x])
  {
  }

  /** The objects from the topmost down. */
  function Topmost(s: Scene): (r: seq<Id>)
    ensures |r| == |s.order|
    ensures forall i :: 0 <= i < |r| ==> r[i] == s.order[|s.order| - 1 - i]
  {
    Reverse(s.order)
  }

  /** Does the listed key name a stored object under the point? */
  predicate HitAt(objs: map<Id, SO.Obj>, k: Id, px: int, py: int) {
    k in objs && SO.Hit(objs[k], px, py)
  }

  /** The first object of `ks` under the point. */
  function FirstHit(objs: map<Id, SO.Obj>, ks: seq<Id>, px: int, py: int): (r: Option<Id>)
    ensures r == None <==> forall k :: k in ks ==> !HitAt(objs, k, px, py)
    ensures r.Some? ==> exists i :: 0 <= i < |ks| && ks[i] == r.value && HitAt(objs, r.value, px, py)
                          && forall j :: 0 <= j < i ==> !HitAt(objs, ks[j], px, py)
    decreases |ks|
  {
    if |ks| == 0 then None
    else if HitAt(objs, ks[0], px, py) then
      assert ks[0] == ks[0];
      Some(ks[0])
    else
      var r := FirstHit(objs, ks[1..], px, py);
      assert forall k :: k in ks <==> k == ks[0] || k in ks[1..];
      if r.Some? then
        var i :| 0 <= i < |ks[1..]| && ks[1..][i] == r.value && HitAt(objs, r.value, px, py)
                 && forall j :: 0 <= j < i ==> !HitAt(objs, ks[1..][j], px, py);
        assert ks[i + 1] == r.value;
        assert forall j :: 0 <= j < i + 1 ==> !HitAt(objs, ks[j], px, py) by {
          forall j | 0 <= j < i + 1 ensures !HitAt(objs, ks[j], px, py) {
            if j > 0 { assert ks[j] == ks[1..][j - 1]; }
          }
        }
        r
      else r
  }

  // ---------------------------------------------------------------------
  // Press

  /** `press`: the topmost object under the mouse is toggled (with
      Control) or raised and made the selection (without); if it ends up
      selected the whole selection is pressed with it. A press on empty
      canvas clears the selection (without Control) and starts a rubber
      band at the mouse. */
  function Press(s: Scene, px: int, py: int, ctrl: bool): (r: Scene)
    ensures var hit := FirstHit(s.g.objs, Topmost(s), px, py);
      && (hit == None ==> r == PressEmpty(s, px, py, ctrl))
      && (hit.Some? ==> r == PressHit(s, hit.value, px, py, ctrl))
  {
    match FirstHit(s.g.objs, Topmost(s), px, py)
    case Some(k) => PressHit(s, k, px, py, ctrl)
    case None => PressEmpty(s, px, py, ctrl)
  }

  /** A press on an object: toggle it (Control) or raise and select it;
      a selected result presses the whole selection. */
  function PressHit(s: Scene, k: Id, px: int, py: int, ctrl: bool): (r: Scene)
    requires k in s.g.objs
    ensures ctrl ==> r.order == s.order && r.top == s.top
    ensures !ctrl ==> r.order == Raise(s.order, k) && r.top == Some(k)
    ensures r.moving == s.moving && r.g.objs.Keys == s.g.objs.Keys
    ensures r.g.members == (if ctrl then Sel.Toggle(s.g, k) else Sel.Select(s.g, k)).members
    ensures var g1 := if ctrl then Sel.Toggle(s.g, k) else Sel.Select(s.g, k);
      g1.objs[k].status == SO.Selected ==> r.g == Sel.Press(g1, k, px, py)
    ensures var g1 := if ctrl then Sel.Toggle(s.g, k) else Sel.Select(s.g, k);
      g1.objs[k].status != SO.Selected ==> r.g == g1
  {
    var s1 := if ctrl then s.(g := Sel.Toggle(s.g, k)) else ToTop(s, k).(g := Sel.Select(s.g, k));
    if s1.g.objs[k].status == SO.Selected then s1.(g := Sel.Press(s1.g, k, px, py)) else s1
  }

  /** A press on empty canvas: without Control the selection is cleared;
      a rubber band starts at the mouse. */
  function PressEmpty(s: Scene, px: int, py: int, ctrl: bool): (r: Scene)
    ensures r.moving && r.xsel == px && r.ysel == py && r.xsel2 == px && r.ysel2 == py
    ensures r.order == s.order && r.top == s.top
    ensures ctrl ==> r.g == s.g
    ensures !ctrl ==> r.g == Sel.Clear(s.g)
  {
    var g1 := if ctrl then s.g else Sel.Clear(s.g);
    s.(g := g1, moving := true, xsel := px, ysel := py, xsel2 := px, ysel2 := py)
  }

  // ---------------------------------------------------------------------
  // Motion

  /** The rubber-band reaction of one object: Normal objects touching the
      band become Active, Active objects off it become Normal. */
  function Band(o: SO.Obj, ax: int, ay: int, ax2: int, ay2: int): (r: SO.Obj)
    ensures r.status == (if o.status == SO.Selected then SO.Selected
                         else if SO.Collide(o, ax, ay, ax2, ay2) then SO.Active else SO.Normal)
    ensures r.(status := o.status, dirty := o.dirty) == o
  {
    if SO.Collide(o, ax, ay, ax2, ay2) then SO.Activate(o) else SO.Deactivate(o)
  }

  /** The idle hover walk over objects from the topmost down: until an
      object under the mouse has been met, each object reacts to the
      mouse; every object below it is deactivated. The flag reports
      whether any object is dirty after its turn (see
      `SceneProps.HoverWalkRedraw`). */
  function HoverWalk(objs: map<Id, SO.Obj>, ks: seq<Id>, px: int, py: int, active: bool): (r: (map<Id, SO.Obj>, bool))
    ensures r.0.Keys == objs.Keys
    ensures forall k :: k in objs && k !in ks ==> r.0[k] == objs[k]
    ensures Sel.KeepsSelected(objs, r.0)
    decreases |ks|
  {
    if |ks| == 0 then (objs, false)
    else
      var k := ks[0];
      var (o1, act) :=
        if active then (Sel.Update(objs, k, SO.Deactivate), true)
        else
          var o1 := Sel.Update(objs, k, o => SO.OnMotion(o, px, py));
          (o1, HitAt(o1, k, px, py));
      var (rest, d) := HoverWalk(o1, ks[1..], px, py, act);
      (rest, (k in o1 && o1[k].dirty) || d)
  }

  /** `motion`. While a press is held the selection follows the mouse,
      its hug is reset, and with Alt held the group's bounding box is
      snapped (an empty selection makes the source fail at this point: no snap
      hug and no redraw). During a rubber band the band's far corner
      follows the mouse and every object is (de)activated by whether it
      touches the band. Otherwise the objects hover. The flag requests a
      redraw. */
  function Motion(s: Scene, px: int, py: int, alt: bool): (r: (Scene, bool))
    ensures r.0.order == s.order && r.0.top == s.top && r.0.g.members == s.g.members
    ensures r.0.g.objs.Keys == s.g.objs.Keys
    ensures s.top == None && s.moving ==> r.0.xsel2 == px && r.0.ysel2 == py && r.1 && r.0.moving
    ensures s.top == None && s.moving ==> forall k :: k in s.order && k in s.g.objs ==>
              r.0.g.objs[k].status == (if s.g.objs[k].status == SO.Selected then SO.Selected
                                       else if SO.Collide(s.g.objs[k], s.xsel, s.ysel, px, py) then SO.Active
                                       else SO.Normal)
    ensures s.top.Some? && !alt ==> forall k :: k in s.g.members && k in s.g.objs ==> r.0.g.objs[k].dx == 0 && r.0.g.objs[k].dy == 0
  {
    if s.top.Some? then
      var (g1, dirty) := Sel.Motion(s.g, px, py);
      var g2 := Sel.Hug(g1, 0, 0);
      if !alt then (s.(g := g2), dirty)
      else
        match Sel.GetExtents(g2)
        case None => (s.(g := g2), false)
        case Some((x, y, w, h)) =>
          var others := Sel.MemberObjsOf(g2.objs, Topmost(s));
          var (dx, dy) := Snapping.Snap(Snapping.Box(x, y, w, h), s.gridx, s.gridy, others, s.w, s.h);
          (s.(g := Sel.Hug(g2, dx, dy)), dirty)
    else if s.moving then
      var objs := Sel.ForEach(s.g.objs, s.order, o => Band(o, s.xsel, s.ysel, px, py));
      assert forall k :: k in s.order && k in s.g.objs ==> objs[k] == Band(s.g.objs[k], s.xsel, s.ysel, px, py) by {
        BandEach(s.g.objs, s.order, s.xsel, s.ysel, px, py);
      }
      (s.(g := s.g.(objs := objs), xsel2 := px, ysel2 := py), true)
    else
      var (objs, dirty) := HoverWalk(s.g.objs, Topmost(s), px, py, false);
      (s.(g := s.g.(objs := objs)), dirty)
  }

  /** The band reaction depends only on an object's status and geometry
      and leaves both in place, so a second application changes nothing:
      the rubber band sets every listed object's status even when the list
      repeats it. */
  lemma {:induction false} BandEach(objs: map<Id, SO.Obj>, ks: seq<Id>, ax: int, ay: int, ax2: int, ay2: int)
    ensures forall k :: k in ks && k in objs ==>
      Sel.ForEach(objs, ks, o => Band(o, ax, ay, ax2, ay2))[k] == Band(objs[k], ax, ay, ax2, ay2)
    decreases |ks|
  {
    if |ks| > 0 {
      var f := o => Band(o, ax, ay, ax2, ay2);
      var o1 := Sel.Update(objs, ks[0], f);
      BandEach(o1, ks[1..], ax, ay, ax2, ay2);
      assert forall k :: k in ks <==> k == ks[0] || k in ks[1..];
      if ks[0] in objs {
        var b := Band(objs[ks[0]], ax, ay, ax2, ay2);
        assert Band(b, ax, ay, ax2, ay2) == b;
      }
    }
  }

  // ---------------------------------------------------------------------
  // Release, leave, delete

  /** Adds, in list order, every listed object that is Active. */
  function AddActive(g: Sel.Group, ks: seq<Id>): (r: Sel.Group)
    ensures r.objs.Keys == g.objs.Keys
    ensures forall k :: k in g.objs && k !in ks ==> r.objs[k] == g.objs[k]
    decreases |ks|
  {
    if |ks| == 0 then g
    else
      var k := ks[0];
      var g1 := if k in g.objs && g.objs[k].status == SO.Active then Sel.Add(g, k) else g;
      AddActive(g1, ks[1..])
  }

  /** `release`: a rubber band ends by adding every Active object to the
      selection, in z-order; otherwise the selection commits its hug. The
      press target is dropped either way. */
  function Release(s: Scene): (r: Scene)
    ensures r.top == None && !r.moving && r.order == s.order
    ensures r.g.objs.Keys == s.g.objs.Keys
    ensures !s.moving ==> r.g == Sel.Release(s.g)
    ensures s.moving ==> r.g == AddActive(s.g, s.order)
  {
    if s.moving then s.(g := AddActive(s.g, s.order), moving := false, top := None)
    else s.(g := Sel.Release(s.g), top := None)
  }

  /** `leave`: the mouse left the canvas, so nothing stays Active. */
  function Leave(s: Scene): (r: Scene)
    ensures r.order == s.order && r.g.members == s.g.members && r.g.objs.Keys == s.g.objs.Keys
    ensures NoDup(s.order) ==> forall k :: k in s.order && k in s.g.objs ==> r.g.objs[k] == SO.Deactivate(s.g.objs[k])
    ensures forall k :: k in s.g.objs && k !in s.order ==> r.g.objs[k] == s.g.objs[k]
    ensures r.(g := s.g) == s
  {
    s.(g := s.g.(objs := Sel.ForEach(s.g.objs, s.order, SO.OnLeave)))
  }

  /** `delete`: every selected object leaves the z-order and the store,
      and the selection ends empty. */
  function Delete(s: Scene): (r: Scene)
    ensures |r.g.members| == 0
    ensures r.g.objs.Keys == s.g.objs.Keys - set k | k in s.g.members
    ensures forall k :: k in r.g.objs ==> r.g.objs[k] == s.g.objs[k]
    ensures NoDup(s.order) ==> forall k :: k in r.order <==> k in s.order && k !in s.g.members
  {
    var order := RemoveEach(s.order, s.g.members);
    var g1 := Sel.Clear(s.g);
    var gone := set k | k in s.g.members;
    var objs := g1.objs - gone;
    assert forall k :: k in objs ==> k !in s.g.members && objs[k] == s.g.objs[k];
    s.(order := order, g := Sel.Group(objs, g1.members))
  }

  /** Removes the first occurrence of each listed element in turn, as the
      source's `for obj in sel: objects.remove(obj)` does. */
  function RemoveEach(s: seq<Id>, ks: seq<Id>): (r: seq<Id>)
    ensures NoDup(s) ==> NoDup(r)
    ensures NoDup(s) ==> forall k :: k in r <==> k in s && k !in ks
    ensures forall k :: k in r ==> k in s
    decreases |ks|
  {
    if |ks| == 0 then s
    else
      var s1 := RemoveFirst(s, ks[0]);
      assert NoDup(s) ==> NoDup(s1) && forall k :: k in s1 <==> k in s && k != ks[0] by {
        if NoDup(s) { RemoveFirstNoDup(s, ks[0]); }
      }
      assert forall k :: k in ks <==> k == ks[0] || k in ks[1..];
      RemoveEach(s1, ks[1..])
  }
}

=== FILE: toolkit_scene_props.dfy ===
/** Properties of the editor canvas: every event keeps the scene
    consistent, a press raises and selects, the idle hover leaves at most
    the topmost object under the mouse Active, a rubber band selects
    exactly what it touched, and the worked examples of the editor's
    behaviour. */
module SceneProps {
  import opened Optional
  import opened Seqs
  import SO = SceneObject
  import Sel = Selection
  import Snapping
  import opened Scene

  // ---------------------------------------------------------------------
  // Consistency is kept by every event

  /** Replacing the store by one that agrees on who is Selected keeps the
      scene consistent. */
  lemma ValidWithObjs(s: Scene, objs: map<Id, SO.Obj>)
    requires Valid(s) && Sel.KeepsSelected(s.g.objs, objs)
    ensures Valid(s.(g := s.g.(objs := objs)))
  {
  }

  /** Object reactions that never make or unmake a selected object. */
  lemma OnMotionKeepsSelected(o: SO.Obj, px: int, py: int)
    ensures (SO.OnMotion(o, px, py).status == SO.Selected) == (o.status == SO.Selected)
  {
  }

  lemma MotionKeepsSelected(g: Sel.Group, px: int, py: int)
    requires NoDup(g.members)
    ensures Sel.KeepsSelected(g.objs, Sel.Motion(g, px, py).0.objs)
  {
    var r := Sel.Motion(g, px, py).0;
    forall k | k in g.objs
      ensures (r.objs[k].status == SO.Selected <==> g.objs[k].status == SO.Selected)
    {
      if k in g.members { OnMotionKeepsSelected(g.objs[k], px, py); }
    }
  }

  lemma HugKeepsSelected(g: Sel.Group, dx: int, dy: int)
    ensures Sel.KeepsSelected(g.objs, Sel.Hug(g, dx, dy).objs)
  {
    var r := Sel.Hug(g, dx, dy);
    forall k | k in g.objs
      ensures (r.objs[k].status == SO.Selected <==> g.objs[k].status == SO.Selected)
    {
      if k in g.members {
        assert r.objs[k].(dx := g.objs[k].dx, dy := g.objs[k].dy) == g.objs[k];
      }
    }
  }

  /** A mouse motion keeps the scene consistent. */
  lemma MotionKeepsValid(s: Scene, px: int, py: int, alt: bool)
    requires Valid(s)
    ensures Valid(Motion(s, px, py, alt).0)
  {
    if s.top.Some? {
      DragKeepsValid(s, px, py, alt);
    } else if s.moving {
      BandKeepsValid(s, px, py, alt);
    }
  }

  /** Dragging the selection, snapped or not, keeps the scene consistent. */
  lemma DragKeepsValid(s: Scene, px: int, py: int, alt: bool)
    requires Valid(s) && s.top.Some?
    ensures Valid(Motion(s, px, py, alt).0)
  {
    var (g1, dirty) := Sel.Motion(s.g, px, py);
    MotionKeepsSelected(s.g, px, py);
    var g2 := Sel.Hug(g1, 0, 0);
    HugKeepsSelected(g1, 0, 0);
    if alt {
      match Sel.GetExtents(g2)
      case None =>
      case Some((x, y, w, h)) =>
        var others := Sel.MemberObjsOf(g2.objs, Topmost(s));
        var (dx, dy) := Snapping.Snap(Snapping.Box(x, y, w, h), s.gridx, s.gridy, others, s.w, s.h);
        HugKeepsSelected(g2, dx, dy);
    }
  }

  /** A drag without Alt: every member reacts to the mouse as `onmotion`
      does and ends with its hug reset, every other object and the rest of
      the scene stay, and a redraw is requested exactly when a member is
      dirty after its reaction. */
  lemma DragMoves(s: Scene, px: int, py: int)
    requires s.top.Some? && NoDup(s.g.members)
    ensures var (r, redraw) := Motion(s, px, py, false);
      && r.g.members == s.g.members && r.g.objs.Keys == s.g.objs.Keys
      && (forall k :: k in s.g.objs && k in s.g.members ==>
            r.g.objs[k] == SO.OnMotion(s.g.objs[k], px, py).(dx := 0, dy := 0))
      && (forall k :: k in s.g.objs && k !in s.g.members ==> r.g.objs[k] == s.g.objs[k])
      && r.(g := s.g) == s
      && (redraw <==> exists k :: k in s.g.members && k in s.g.objs && r.g.objs[k].dirty)
  {
    var (g1, dirty) := Sel.Motion(s.g, px, py);
    var g2 := Sel.Hug(g1, 0, 0);
    forall k | k in s.g.objs && k in s.g.members
      ensures g2.objs[k] == SO.OnMotion(s.g.objs[k], px, py).(dx := 0, dy := 0)
    {
      assert g2.objs[k].(dx := g1.objs[k].dx, dy := g1.objs[k].dy) == g1.objs[k];
    }
    forall k | k in s.g.members && k in s.g.objs
      ensures g2.objs[k].dirty == g1.objs[k].dirty
    {
      assert g2.objs[k].(dx := g1.objs[k].dx, dy := g1.objs[k].dy) == g1.objs[k];
    }
  }

  /** A drag with Alt is the plain drag followed by the snap: the box of
      the moved selection is pulled by `Snapping.Snap` against the grid,
      the objects in top-down order and the canvas border, and every
      member takes that pull as its hug; the redraw request is the plain
      drag's. With no stored member there is no box: the source fails in
      `get_extents`, and the scene keeps the plain drag without a redraw. */
  lemma AltDragSnaps(s: Scene, px: int, py: int)
    requires s.top.Some?
    ensures var (m, plain) := Motion(s, px, py, false);
      var (r, redraw) := Motion(s, px, py, true);
      var e := Sel.GetExtents(m.g);
      && (e.None? ==> r == m && !redraw)
      && (e.Some? ==>
            var d := Snapping.Snap(Snapping.Box(e.value.0, e.value.1, e.value.2, e.value.3),
                                   s.gridx, s.gridy, Sel.MemberObjsOf(m.g.objs, Topmost(s)), s.w, s.h);
            && r.g.members == m.g.members && r.g.objs.Keys == m.g.objs.Keys
            && (forall k :: k in m.g.objs && k in m.g.members ==> r.g.objs[k] == m.g.objs[k].(dx := d.0, dy := d.1))
            && (forall k :: k in m.g.objs && k !in m.g.members ==> r.g.objs[k] == m.g.objs[k])
            && r.(g := m.g) == m
            && redraw == plain)
  {
    var (g1, dirty) := Sel.Motion(s.g, px, py);
    var g2 := Sel.Hug(g1, 0, 0);
    assert Motion(s, px, py, false) == (s.(g := g2), dirty);
    match Sel.GetExtents(g2)
    case None =>
      assert Motion(s, px, py, true) == (s.(g := g2), false);
    case Some((x, y, w, h)) =>
      var d := Snapping.Snap(Snapping.Box(x, y, w, h), s.gridx, s.gridy, Sel.MemberObjsOf(g2.objs, Topmost(s)), s.w, s.h);
      var r := Sel.Hug(g2, d.0, d.1);
      assert Motion(s, px, py, true) == (s.(g := r), dirty);
      forall k | k in g2.objs && k in g2.members
        ensures r.objs[k] == g2.objs[k].(dx := d.0, dy := d.1)
      {
        assert r.objs[k].(dx := g2.objs[k].dx, dy := g2.objs[k].dy) == g2.objs[k];
      }
  }

  /** Stretching the rubber band keeps the scene consistent. */
  lemma BandKeepsValid(s: Scene, px: int, py: int, alt: bool)
    requires Valid(s) && s.top == None && s.moving
    ensures Valid(Motion(s, px, py, alt).0)
  {
    var r := Motion(s, px, py, alt).0;
    forall k | k in s.g.objs
      ensures (r.g.objs[k].status == SO.Selected <==> s.g.objs[k].status == SO.Selected)
    {
      assert k in s.order;
    }
  }

  lemma PressKeepsSelected(g: Sel.Group, k: Id, px: int, py: int)
    requires k in g.objs && NoDup(g.members)
    ensures Sel.KeepsSelected(g.objs, Sel.Press(g, k, px, py).objs)
  {
    var r := Sel.Press(g, k, px, py);
    forall j | j in g.objs
      ensures (r.objs[j].status == SO.Selected <==> g.objs[j].status == SO.Selected)
    {
      if j == k {
        assert r.objs[k].status == SO.OnPress(g.objs[k], px, py).status;
      } else if j in g.members {
        var f := Sel.PressFollowing(g.objs[j], px, py, r.objs[k].anchor);
        assert f.(moving := g.objs[j].moving, offx := g.objs[j].offx, offy := g.objs[j].offy, anchor := g.objs[j].anchor) == g.objs[j];
      }
    }
  }

  /** Toggling or selecting the object keeps membership and status in step. */
  lemma ToggleKeepsValid(s: Scene, k: Id)
    requires Valid(s) && k in s.g.objs
    ensures Valid(s.(g := Sel.Toggle(s.g, k)))
  {
  }

  lemma SelectKeepsValid(s: Scene, k: Id)
    requires Valid(s) && k in s.g.objs
    ensures Valid(s.(g := Sel.Select(s.g, k)))
  {
    var g1 := Sel.Select(s.g, k);
    if k !in s.g.members {
      forall j | j in g1.objs
        ensures (g1.objs[j].status == SO.Selected <==> j in g1.members)
      {
        if j != k && j in s.g.members {
          assert g1.objs[j].status == SO.Normal;
        }
      }
    }
  }

  /** Raising an object keeps the z-order a duplicate-free list of the
      stored objects. */
  lemma RaiseKeepsValid(s: Scene, k: Id)
    requires Valid(s) && k in s.g.objs
    ensures Valid(ToTop(s, k))
  {
    var r := Raise(s.order, k);
    assert multiset(r) == multiset(s.order);
    forall j ensures j in r <==> j in s.order {
      assert j in r <==> j in multiset(r);
      assert j in s.order <==> j in multiset(s.order);
    }
  }

  /** A press keeps the scene consistent. */
  lemma PressKeepsValid(s: Scene, px: int, py: int, ctrl: bool)
    requires Valid(s)
    ensures Valid(Press(s, px, py, ctrl))
  {
    match FirstHit(s.g.objs, Topmost(s), px, py)
    case Some(k) =>
      var s1 := if ctrl then s.(g := Sel.Toggle(s.g, k)) else ToTop(s, k).(g := Sel.Select(s.g, k));
      if ctrl {
        ToggleKeepsValid(s, k);
      } else {
        RaiseKeepsValid(s, k);
        SelectKeepsValid(ToTop(s, k), k);
      }
      assert Valid(s1);
      if s1.g.objs[k].status == SO.Selected {
        PressKeepsSelected(s1.g, k, px, py);
        ValidWithObjs(s1, Sel.Press(s1.g, k, px, py).objs);
        assert s1.(g := Sel.Press(s1.g, k, px, py)) == s1.(g := s1.g.(objs := Sel.Press(s1.g, k, px, py).objs));
      }
    case None =>
  }

  /** The Active objects of a list, in list order. */
  function Actives(objs: map<Id, SO.Obj>, ks: seq<Id>): seq<Id> {
    Filter(ks, k => k in objs && objs[k].status == SO.Active)
  }

  lemma ActivesAre(objs: map<Id, SO.Obj>, ks: seq<Id>)
    ensures forall k :: k in Actives(objs, ks) <==> k in ks && k in objs && objs[k].status == SO.Active
    ensures NoDup(ks) ==> NoDup(Actives(objs, ks))
  {
    if NoDup(ks) { FilterNoDup(ks, k => k in objs && objs[k].status == SO.Active); }
  }

  /** Adding the Active objects of a duplicate-free list appends exactly
      them, in list order, and makes them Selected; nothing else changes. */
  lemma AddActiveSpec(g: Sel.Group, ks: seq<Id>)
    requires NoDup(ks)
    ensures var r := AddActive(g, ks);
      && r.members == g.members + Actives(g.objs, ks)
      && (forall k :: k in g.objs && k in ks && g.objs[k].status == SO.Active ==> r.objs[k] == SO.Select(g.objs[k]))
      && (forall k :: k in g.objs && !(k in ks && g.objs[k].status == SO.Active) ==> r.objs[k] == g.objs[k])
  {
    AddActiveMembers(g, ks);
    AddActiveObjs(g, ks);
  }

  lemma {:induction false} AddActiveMembers(g: Sel.Group, ks: seq<Id>)
    requires NoDup(ks)
    ensures AddActive(g, ks).members == g.members + Actives(g.objs, ks)
    decreases |ks|
  {
    if |ks| > 0 {
      var k0 := ks[0];
      var act := k0 in g.objs && g.objs[k0].status == SO.Active;
      var g1 := if act then Sel.Add(g, k0) else g;
      AddActiveMembers(g1, ks[1..]);
      assert AddActive(g, ks) == AddActive(g1, ks[1..]);
      ActivesStep(g, g1, ks, act);
      var head: seq<Id> := if act then [k0] else [];
      var tail := Actives(g.objs, ks[1..]);
      assert g1.members == g.members + head;
      assert (g.members + head) + tail == g.members + (head + tail);
    }
  }

  lemma {:induction false} AddActiveObjs(g: Sel.Group, ks: seq<Id>)
    requires NoDup(ks)
    ensures var r := AddActive(g, ks);
      && (forall k :: k in g.objs && k in ks && g.objs[k].status == SO.Active ==> r.objs[k] == SO.Select(g.objs[k]))
      && (forall k :: k in g.objs && !(k in ks && g.objs[k].status == SO.Active) ==> r.objs[k] == g.objs[k])
    decreases |ks|
  {
    if |ks| > 0 {
      var k0 := ks[0];
      var act := k0 in g.objs && g.objs[k0].status == SO.Active;
      var g1 := if act then Sel.Add(g, k0) else g;
      AddActiveObjs(g1, ks[1..]);
      assert forall k :: k in ks <==> k == k0 || k in ks[1..];
      assert k0 !in ks[1..];
    }
  }

  /** The Active objects of `ks` are its head (when Active) and those of
      its tail, which an update of the head does not change. */
  lemma ActivesStep(g: Sel.Group, g1: Sel.Group, ks: seq<Id>, act: bool)
    requires |ks| > 0 && NoDup(ks)
    requires act == (ks[0] in g.objs && g.objs[ks[0]].status == SO.Active)
    requires g1 == if act then Sel.Add(g, ks[0]) else g
    ensures Actives(g1.objs, ks[1..]) == Actives(g.objs, ks[1..])
    ensures Actives(g.objs, ks) == (if act then [ks[0]] else []) + Actives(g.objs, ks[1..])
  {
    assert ks[0] !in ks[1..];
    FilterCongruent(ks[1..], k => k in g1.objs && g1.objs[k].status == SO.Active,
                             k => k in g.objs && g.objs[k].status == SO.Active);
  }

  /** A release keeps the scene consistent. */
  lemma ReleaseKeepsValid(s: Scene)
    requires Valid(s)
    ensures Valid(Release(s))
  {
    var r := Release(s);
    if s.moving {
      AddActiveSpec(s.g, s.order);
      var act := Actives(s.g.objs, s.order);
      ActivesAre(s.g.objs, s.order);
      NoDupConcat(s.g.members, act);
    } else {
      forall k | k in s.g.objs
        ensures (r.g.objs[k].status == SO.Selected <==> s.g.objs[k].status == SO.Selected)
      {
        if k in s.g.members {
          assert r.g.objs[k] == SO.OnRelease(s.g.objs[k]);
        }
      }
    }
  }

  /** Leaving and deleting keep the scene consistent. */
  lemma LeaveKeepsValid(s: Scene)
    requires Valid(s)
    ensures Valid(Leave(s))
  {
    var r := Leave(s);
    forall k | k in s.g.objs
      ensures (r.g.objs[k].status == SO.Selected <==> s.g.objs[k].status == SO.Selected)
    {
      assert k in s.order;
    }
  }

  lemma DeleteKeepsValid(s: Scene)
    requires Valid(s)
    ensures Valid(Delete(s))
  {
  }

  // ---------------------------------------------------------------------
  // Behaviour

  /** A press without Control on an object raises the topmost object
      under the mouse to the top of the z-order, and it ends selected and
      grabbed; if it was not selected before it is now the only member. */
  lemma PressRaisesAndSelects(s: Scene, px: int, py: int)
    requires Valid(s) && FirstHit(s.g.objs, Topmost(s), px, py).Some?
    ensures var k := FirstHit(s.g.objs, Topmost(s), px, py).value;
            var r := Press(s, px, py, false);
      && r.order[|r.order| - 1] == k && r.top == Some(k)
      && k in r.g.members && r.g.objs[k].status == SO.Selected && r.g.objs[k].moving
      && (k !in s.g.members ==> r.g.members == [k])
  {
  }

  /** A Control press never grabs the object for dragging: the press
      target and the z-order stay as they were. */
  lemma CtrlPressKeepsOrder(s: Scene, px: int, py: int)
    ensures Press(s, px, py, true).order == s.order && Press(s, px, py, true).top == s.top
  {
  }

  /** What the hover walk does, for objects that are not being dragged:
      only the first object under the mouse can end Active, and it does
      unless it is selected. */
  lemma {:induction false} HoverWalkSpec(objs: map<Id, SO.Obj>, ks: seq<Id>, px: int, py: int, active: bool)
    requires NoDup(ks) && forall k :: k in ks ==> k in objs && !objs[k].moving
    ensures var r := HoverWalk(objs, ks, px, py, active).0;
      && (forall k :: k in ks && r[k].status == SO.Active ==> !active && FirstHit(objs, ks, px, py) == Some(k))
      && (var hit := FirstHit(objs, ks, px, py);
          !active && hit.Some? && objs[hit.value].status != SO.Selected ==> r[hit.value].status == SO.Active)
    decreases |ks|
  {
    if |ks| > 0 {
      var k0 := ks[0];
      var r := HoverWalk(objs, ks, px, py, active).0;
      assert forall k :: k in ks <==> k == k0 || k in ks[1..];
      assert k0 !in ks[1..];
      if active {
        var o1 := Sel.Update(objs, k0, SO.Deactivate);
        HoverWalkSpec(o1, ks[1..], px, py, true);
      } else {
        var o1 := Sel.Update(objs, k0, o => SO.OnMotion(o, px, py));
        var act := HitAt(o1, k0, px, py);
        assert act == HitAt(objs, k0, px, py);
        HoverWalkSpec(o1, ks[1..], px, py, act);
        if !act {
          FirstHitSame(objs, o1, ks[1..], px, py);
        }
      }
    }
  }

  /** Each listed object has one turn in the hover walk, so its redraw
      request is whether a listed object ends dirty. */
  lemma {:induction false} HoverWalkRedraw(objs: map<Id, SO.Obj>, ks: seq<Id>, px: int, py: int, active: bool)
    requires NoDup(ks)
    ensures var (r, redraw) := HoverWalk(objs, ks, px, py, active);
      redraw <==> exists j :: j in ks && j in objs && r[j].dirty
    decreases |ks|
  {
    if |ks| > 0 {
      var k := ks[0];
      var o1 := if active then Sel.Update(objs, k, SO.Deactivate)
                else Sel.Update(objs, k, o => SO.OnMotion(o, px, py));
      var act := if active then true else HitAt(o1, k, px, py);
      assert HoverWalk(objs, ks, px, py, active).0 == HoverWalk(o1, ks[1..], px, py, act).0;
      HoverWalkRedraw(o1, ks[1..], px, py, act);
      assert k !in ks[1..];
      assert forall j :: j in ks <==> j == k || j in ks[1..];
    }
  }

  /** The first hit depends only on the listed objects. */
  lemma {:induction false} FirstHitSame(a: map<Id, SO.Obj>, b: map<Id, SO.Obj>, ks: seq<Id>, px: int, py: int)
    requires forall k :: k in ks ==> (k in a <==> k in b) && (k in a ==> a[k] == b[k])
    ensures FirstHit(a, ks, px, py) == FirstHit(b, ks, px, py)
    decreases |ks|
  {
    if |ks| > 0 {
      FirstHitSame(a, b, ks[1..], px, py);
    }
  }

  /** The idle hover: with no press, no rubber band and nothing being
      dragged, a motion leaves at most one object Active — the topmost one
      under the mouse — and makes that one Active unless it is selected. */
  lemma HoverSingleActive(s: Scene, px: int, py: int, alt: bool)
    requires Valid(s) && s.top == None && !s.moving
    requires forall k :: k in s.g.objs ==> !s.g.objs[k].moving
    ensures var r := Motion(s, px, py, alt).0;
            var hit := FirstHit(s.g.objs, Topmost(s), px, py);
      && (forall k :: k in r.g.objs && r.g.objs[k].status == SO.Active ==> hit == Some(k))
      && (hit.Some? && s.g.objs[hit.value].status != SO.Selected ==> r.g.objs[hit.value].status == SO.Active)
  {
    ReverseFacts(s.order);
    HoverWalkSpec(s.g.objs, Topmost(s), px, py, false);
  }

  /** The idle hover requests a redraw exactly when an object of the
      z-order ends dirty. */
  lemma HoverRedraw(s: Scene, px: int, py: int, alt: bool)
    requires s.top == None && !s.moving && NoDup(s.order)
    ensures var (r, redraw) := Motion(s, px, py, alt);
      redraw <==> exists k :: k in s.order && k in s.g.objs && r.g.objs[k].dirty
  {
    ReverseFacts(s.order);
    HoverWalkRedraw(s.g.objs, Topmost(s), px, py, false);
  }

  /** A rubber band's release appends the objects it made Active to the
      selection, bottom-most first, and afterwards no object is Active. */
  lemma RubberBandRelease(s: Scene)
    requires Valid(s) && s.moving
    ensures var r := Release(s);
      && r.g.members == s.g.members + Actives(s.g.objs, s.order)
      && (forall k :: k in r.g.objs ==> r.g.objs[k].status != SO.Active)
  {
    AddActiveSpec(s.g, s.order);
  }

  // ---------------------------------------------------------------------
  // Worked examples

  /** Hit testing is strict: inside an object at (10, 10) of size 20 x 20,
      (29, 29) hits, (30, 30) and the corner (10, 10) do not. */
  lemma HitExample()
    ensures var o := SO.New("a", 10, 10, 20, 20);
      SO.Hit(o, 29, 29) && !SO.Hit(o, 30, 30) && !SO.Hit(o, 10, 10)
  {
  }

  /** Grid snap: with spacing 30 and a box at x = 28 of width 60, the left
      edge is 28 above the line below (too far) and 2 below the line above,
      so the box is pulled 2 to the right. */
  lemma GridExample()
    ensures Snapping.GridOffset(28, 60, 30) == 2
  {
    assert Snapping.PyMod(28, 30) == 28;
    assert Snapping.PyMod(-28, 30) == 2;
  }

  /** The three-object scene of the examples: A at (10, 10), B at
      (100, 100), C at (200, 10), all 20 x 20, none selected, on a
      400 x 300 canvas. */
  function Three(): Scene {
    Scene(Sel.Group(map[0 := SO.New("A", 10, 10, 20, 20), 1 := SO.New("B", 100, 100, 20, 20),
                         2 := SO.New("C", 200, 10, 20, 20)], []),
          [0, 1, 2], None, false, 0, 0, 0, 0, 0, 0, 400, 300)
  }

  lemma ThreeValid()
    ensures Valid(Three())
  {
  }

  /** Pressing the empty corner (0, 0) of the three-object scene starts a
      rubber band there. */
  lemma RubberBandPressExample()
    ensures Press(Three(), 0, 0, false) == Three().(moving := true)
  {
    var s := Three();
    forall k | k in s.order ensures !HitAt(s.g.objs, k, 0, 0) {
      assert k == 0 || k == 1 || k == 2;
    }
    PressMissStartsBand(s, 0, 0);
  }

  /** With nothing selected, a press that hits no object starts a rubber band and changes nothing else. */
  lemma PressMissStartsBand(s: Scene, px: int, py: int)
    requires s.g.members == []
    requires forall k :: k in s.order ==> !HitAt(s.g.objs, k, px, py)
    ensures Press(s, px, py, false) == s.(moving := true, xsel := px, ysel := py, xsel2 := px, ysel2 := py)
  {
    var t := Topmost(s);
    forall k | k in t ensures !HitAt(s.g.objs, k, px, py) {
      var i :| 0 <= i < |t| && t[i] == k;
      assert s.order[|s.order| - 1 - i] == k;
    }
    var c := Sel.Clear(s.g);
    assert c.objs == s.g.objs;
    assert c == s.g;
  }

  /** Dragging that band to (50, 50): A, inside it, becomes Active; B and
      C, outside, stay Normal; a redraw is requested. */
  lemma RubberBandMotionExample()
    ensures var (s2, redraw) := Motion(Three().(moving := true), 50, 50, false);
      && redraw && s2.xsel2 == 50 && s2.ysel2 == 50
      && s2.g.objs[0].status == SO.Active && s2.g.objs[1].status == SO.Normal && s2.g.objs[2].status == SO.Normal
  {
    var s := Three();
    assert SO.Collide(s.g.objs[0], 0, 0, 50, 50);
    assert !SO.Collide(s.g.objs[1], 0, 0, 50, 50);
    assert !SO.Collide(s.g.objs[2], 0, 0, 50, 50);
  }

  /** Releasing the band makes A the only selected object; B stays Normal. */
  lemma RubberBandReleaseExample()
    ensures var s3 := Release(Motion(Three().(moving := true), 50, 50, false).0);
      s3.g.members == [0] && s3.g.objs[0].status == SO.Selected && s3.g.objs[1].status == SO.Normal
      && !s3.moving
  {
    var s2 := Motion(Three().(moving := true), 50, 50, false).0;
    BandOverA();
    BandReleaseOfThree(s2);
  }

  /** After that drag the scene is valid, still banding, and only A is Active. */
  lemma BandOverA()
    ensures var s2 := Motion(Three().(moving := true), 50, 50, false).0;
      && Valid(s2) && s2.order == [0, 1, 2] && s2.g.members == [] && s2.moving
      && s2.g.objs[0].status == SO.Active && s2.g.objs[1].status == SO.Normal && s2.g.objs[2].status == SO.Normal
  {
    RubberBandMotionExample();
    ThreeValid();
    MotionKeepsValid(Three().(moving := true), 50, 50, false);
  }

  /** Releasing a band over three objects of which only the first is
      Active selects exactly that one. */
  lemma BandReleaseOfThree(s2: Scene)
    requires Valid(s2) && s2.order == [0, 1, 2] && s2.g.members == [] && s2.moving
    requires s2.g.objs[0].status == SO.Active && s2.g.objs[1].status == SO.Normal && s2.g.objs[2].status == SO.Normal
    ensures var s3 := Release(s2);
      s3.g.members == [0] && s3.g.objs[0].status == SO.Selected && s3.g.objs[1].status == SO.Normal
      && !s3.moving
  {
    OnlyAActive(s2.g.objs);
    AddActiveSpec(s2.g, s2.order);
  }

  lemma OnlyAActive(objs: map<Id, SO.Obj>)
    requires 0 in objs && 1 in objs && 2 in objs
    requires objs[0].status == SO.Active && objs[1].status == SO.Normal && objs[2].status == SO.Normal
    ensures Actives(objs, [0, 1, 2]) == [0]
  {
    assert Actives(objs, [2]) == [] by {
      assert [2][1..] == [];
    }
    assert Actives(objs, [1, 2]) == [] by {
      assert [1, 2][1..] == [2];
    }
    assert [0, 1, 2][1..] == [1, 2];
  }

  /** Deleting from the three-object scene with C selected leaves A and B
      and an empty selection. */
  lemma DeleteExample()
    ensures var s := Three();
            var r := Delete(s.(g := Sel.Select(s.g, 2)));
      && |r.g.members| == 0 && r.g.objs.Keys == {0, 1} && r.order == [0, 1]
  {
    var s := Three();
    SelectOnlyC();
    DeleteOnlyC(s.(g := Sel.Select(s.g, 2)));
  }

  lemma DeleteOnlyC(s: Scene)
    requires s.g.members == [2] && s.g.objs.Keys == {0, 1, 2} && s.order == [0, 1, 2]
    ensures var r := Delete(s);
      && |r.g.members| == 0 && r.g.objs.Keys == {0, 1} && r.order == [0, 1]
  {
    DeleteOnlyCOrder(s);
    DeleteOnlyCKeys(s);
  }

  lemma DeleteOnlyCOrder(s: Scene)
    requires s.g.members == [2] && s.order == [0, 1, 2]
    ensures Delete(s).order == [0, 1]
  {
    RemoveCFromOrder();
  }

  lemma DeleteOnlyCKeys(s: Scene)
    requires s.g.members == [2] && s.g.objs.Keys == {0, 1, 2}
    ensures Delete(s).g.objs.Keys == {0, 1}
  {
    var r := Delete(s);
    assert forall k :: k in r.g.objs.Keys <==> k in s.g.objs.Keys && k !in s.g.members;
  }


  lemma SelectOnlyC()
    ensures Sel.Select(Three().g, 2).members == [2]
    ensures Sel.Select(Three().g, 2).objs.Keys == {0, 1, 2}
  {
    assert Sel.Clear(Three().g) == Three().g;
  }

  lemma RemoveCFromOrder()
    ensures RemoveEach([0, 1, 2], [2]) == [0, 1]
  {
    RemoveLastOfThree();
    var ks: seq<Id> := [2];
    assert ks[1..] == [];
  }

  lemma RemoveLastOfThree()
    ensures RemoveFirst([0, 1, 2], 2) == [0, 1]
  {
    var s: seq<Id> := [0, 1, 2];
    assert s[1..] == [1, 2];
    RemoveLastOfTwo();
  }

  lemma RemoveLastOfTwo()
    ensures RemoveFirst([1, 2], 2) == [1]
  {
    var s: seq<Id> := [1, 2];
    assert s[1..] == [2];
    assert RemoveFirst([2], 2) == [];
  }
}

=== FILE: toolkit_selection.dfy ===
/** The editor's selection (class `selection` of editor/toolkit.py): an
    ordered list of objects that moves, resizes and hugs as one group.
    Objects are shared with the scene, so the group is modelled together
    with the object store it acts on; an object's identity is its key. */
module Selection {
  import opened Optional
  import opened Seqs
  import SO = SceneObject

  type Id = nat

  /** The object store and the list of selected objects, in selection order. */
  datatype Group = Group(objs: map<Id, SO.Obj>, members: seq<Id>)

  /** The empty selection over a store. */
  function Empty(objs: map<Id, SO.Obj>): (r: Group)
    ensures r.objs == objs && |r.members| == 0
  {
    Group(objs, [])
  }

  /** Applies `f` to the object with key `k`, if there is one. */
  function Update(objs: map<Id, SO.Obj>, k: Id, f: SO.Obj -> SO.Obj): (r: map<Id, SO.Obj>)
    ensures r.Keys == objs.Keys
    ensures k in objs ==> r[k] == f(objs[k])
    ensures forall j :: j in objs && j != k ==> r[j] == objs[j]
  {
    if k in objs then objs[k := f(objs[k])] else objs
  }

  /** Applies `f` to each listed object in turn, as a `for` loop over the
      list does: an object listed twice is transformed twice. */
  function ForEach(objs: map<Id, SO.Obj>, ks: seq<Id>, f: SO.Obj -> SO.Obj): (r: map<Id, SO.Obj>)
    ensures r.Keys == objs.Keys
    ensures forall j :: j in objs && j !in ks ==> r[j] == objs[j]
    ensures NoDup(ks) ==> forall j :: j in objs && j in ks ==> r[j] == f(objs[j])
    decreases |ks|
  {
    if |ks| == 0 then objs
    else
      var r := ForEach(Update(objs, ks[0], f), ks[1..], f);
      assert NoDup(ks) ==> NoDup(ks[1..]) && ks[0] !in ks[1..];
      assert forall j :: j in ks <==> j == ks[0] || j in ks[1..];
      r
  }

  /** Two stores with the same keys that agree, object by object, on
      whether it is Selected. */
  ghost predicate KeepsSelected(a: map<Id, SO.Obj>, b: map<Id, SO.Obj>) {
    a.Keys == b.Keys && forall k :: k in a ==> (b[k].status == SO.Selected <==> a[k].status == SO.Selected)
  }

  /** `add`: appends the object, without checking whether it is already
      listed, and marks it selected. */
  function Add(g: Group, k: Id): (r: Group)
    ensures r.members == g.members + [k]
    ensures r.objs.Keys == g.objs.Keys
    ensures k in g.objs ==> r.objs[k] == SO.Select(g.objs[k])
    ensures forall j :: j in g.objs && j != k ==> r.objs[j] == g.objs[j]
  {
    Group(Update(g.objs, k, SO.Select), g.members + [k])
  }

  /** `remove`: drops the first occurrence and marks the object normal; an
      object that is not listed is left untouched. */
  function Remove(g: Group, k: Id): (r: Group)
    ensures k !in g.members ==> r == g
    ensures k in g.members ==> |r.members| == |g.members| - 1 && multiset(r.members) == multiset(g.members) - multiset{k}
    ensures NoDup(g.members) ==> NoDup(r.members) && forall j :: j in r.members <==> j in g.members && j != k
    ensures r.objs.Keys == g.objs.Keys
    ensures k in g.members && k in g.objs ==> r.objs[k].status == SO.Normal
    ensures forall j :: j in g.objs && j != k ==> r.objs[j] == g.objs[j]
  {
    assert NoDup(g.members) ==> NoDup(RemoveFirst(g.members, k)) && forall j :: j in RemoveFirst(g.members, k) <==> j in g.members && j != k by {
      if NoDup(g.members) { RemoveFirstNoDup(g.members, k); }
    }
    if k in g.members then Group(Update(g.objs, k, SO.Deselect), RemoveFirst(g.members, k))
    else g
  }

  /** Removes each listed object in turn. */
  function RemoveAll(g: Group, ks: seq<Id>): (r: Group)
    ensures r.objs.Keys == g.objs.Keys
    ensures forall j :: j in g.objs && j !in ks ==> r.objs[j] == g.objs[j]
    ensures multiset(ks) <= multiset(g.members) ==> multiset(r.members) == multiset(g.members) - multiset(ks)
    ensures multiset(ks) <= multiset(g.members) ==> forall j :: j in g.objs && j in ks ==> r.objs[j].status == SO.Normal
    decreases |ks|
  {
    if |ks| == 0 then g
    else
      assert ks == [ks[0]] + ks[1..];
      var g1 := Remove(g, ks[0]);
      var r := RemoveAll(g1, ks[1..]);
      assert multiset(ks) <= multiset(g.members) ==> multiset(ks[1..]) <= multiset(g1.members) by {
        if multiset(ks) <= multiset(g.members) {
          assert ks[0] in multiset(g.members);
        }
      }
      r
  }

  /** `clear`: removes every member, walking a copy of the list. The
      selection ends empty, every former member is normal, and no other
      object changes. */
  function Clear(g: Group): (r: Group)
    ensures |r.members| == 0
    ensures r.objs.Keys == g.objs.Keys
    ensures forall j :: j in g.objs && j in g.members ==> r.objs[j].status == SO.Normal
    ensures forall j :: j in g.objs && j !in g.members ==> r.objs[j] == g.objs[j]
  {
    var r := RemoveAll(g, g.members);
    assert multiset(r.members) == multiset{};
    r
  }

  /** `select`: an object already selected leaves the selection as it is;
      any other object becomes the only member. */
  function Select(g: Group, k: Id): (r: Group)
    ensures k in g.members ==> r == g
    ensures k !in g.members ==> r.members == [k]
    ensures r.objs.Keys == g.objs.Keys
    ensures k !in g.members && k in g.objs ==> r.objs[k].status == SO.Selected
    ensures k !in g.members ==> forall j :: j in g.objs && j in g.members ==> r.objs[j].status == SO.Normal
    ensures forall j :: j in g.objs && j != k && j !in g.members ==> r.objs[j] == g.objs[j]
  {
    if k in g.members then g else Add(Clear(g), k)
  }

  /** `toggle`: a member is removed, a non-member is added. */
  function Toggle(g: Group, k: Id): (r: Group)
    ensures k in g.members ==> r == Remove(g, k)
    ensures k !in g.members ==> r == Add(g, k)
    ensures NoDup(g.members) ==> NoDup(r.members) && (k in r.members <==> k !in g.members)
    ensures NoDup(g.members) ==> forall j :: j != k ==> (j in r.members <==> j in g.members)
    ensures r.objs.Keys == g.objs.Keys
    ensures k in g.objs ==> r.objs[k].status == (if k in g.members then SO.Normal else SO.Selected)
  {
    if k in g.members then Remove(g, k) else Add(g, k)
  }

  /** Toggling twice restores a duplicate-free member list. */
  lemma ToggleTwice(g: Group, k: Id)
    requires NoDup(g.members)
    ensures k !in g.members ==> Toggle(Toggle(g, k), k).members == g.members
    ensures k in g.members ==> multiset(Toggle(Toggle(g, k), k).members) == multiset(g.members)
  {
    if k !in g.members {
      var g1 := Add(g, k);
      assert g1.members[..|g.members|] == g.members;
      RemoveFirstAppend(g.members, k);
    }
  }

  /** Removing an element absent from `s` after appending it gives `s` back. */
  lemma {:induction false} RemoveFirstAppend<T(!new)>(s: seq<T>, x: T)
    requires x !in s
    ensures RemoveFirst(s + [x], x) == s
  {
    if |s| > 0 {
      assert (s + [x])[1..] == s[1..] + [x];
      RemoveFirstAppend(s[1..], x);
    }
  }

  /** `motion`: every member reacts to the mouse in list order; the
      result says whether any of them needs redrawing right after its own
      reaction. */
  function MotionFold(objs: map<Id, SO.Obj>, ks: seq<Id>, px: int, py: int): (r: (map<Id, SO.Obj>, bool))
    ensures r.0 == ForEach(objs, ks, o => SO.OnMotion(o, px, py))
    ensures NoDup(ks) ==> (r.1 <==> exists j :: j in ks && j in objs && r.0[j].dirty)
    decreases |ks|
  {
    if |ks| == 0 then (objs, false)
    else
      var o1 := Update(objs, ks[0], o => SO.OnMotion(o, px, py));
      var (rest, d) := MotionFold(o1, ks[1..], px, py);
      var here := ks[0] in o1 && o1[ks[0]].dirty;
      assert NoDup(ks) ==> NoDup(ks[1..]) && ks[0] !in ks[1..];
      assert forall j :: j in ks <==> j == ks[0] || j in ks[1..];
      (rest, here || d)
  }

  function Motion(g: Group, px: int, py: int): (r: (Group, bool))
    ensures r.0.members == g.members
    ensures r.0.objs.Keys == g.objs.Keys
    ensures NoDup(g.members) ==> forall j :: j in g.objs && j in g.members ==> r.0.objs[j] == SO.OnMotion(g.objs[j], px, py)
    ensures forall j :: j in g.objs && j !in g.members ==> r.0.objs[j] == g.objs[j]
    ensures NoDup(g.members) ==> (r.1 <==> exists j :: j in g.members && j in g.objs && r.0.objs[j].dirty)
  {
    var (objs, d) := MotionFold(g.objs, g.members, px, py);
    (Group(objs, g.members), d)
  }

  /** `press`: the pressed object is pressed first, then every other
      member is pressed at the same point and takes over the pressed
      object's anchor, so the whole group resizes from the same handle. */
  function Press(g: Group, k: Id, px: int, py: int): (r: Group)
    requires k in g.objs
    ensures r.members == g.members && r.objs.Keys == g.objs.Keys
    ensures r.objs[k] == SO.OnPress(g.objs[k], px, py)
    ensures NoDup(g.members) ==> forall j :: j in g.objs && j in g.members && j != k ==>
      r.objs[j] == PressFollowing(g.objs[j], px, py, r.objs[k].anchor)
    ensures forall j :: j in g.objs && j !in g.members && j != k ==> r.objs[j] == g.objs[j]
  {
    var objs1 := Update(g.objs, k, o => SO.OnPress(o, px, py));
    var a := objs1[k].anchor;
    var others := Without(g.members, k);
    var objs2 := ForEach(objs1, others, o => PressFollowing(o, px, py, a));
    assert objs2[k] == objs1[k];
    Group(objs2, g.members)
  }

  /** A member pressed along with another: it starts moving from the same
      point but uses the given anchor. */
  function PressFollowing(o: SO.Obj, px: int, py: int, a: SO.Anchor): (r: SO.Obj)
    ensures r.moving && r.anchor == a
    ensures r.x + r.offx == px && r.y + r.offy == py
    ensures r.(moving := o.moving, offx := o.offx, offy := o.offy, anchor := o.anchor) == o
  {
    SO.OnPress(o, px, py).(anchor := a)
  }

  /** The list without any occurrence of `k`. */
  function Without(s: seq<Id>, k: Id): (r: seq<Id>)
    ensures k !in r
    ensures forall j :: j != k ==> (j in r <==> j in s)
    ensures NoDup(s) ==> NoDup(r)
  {
    assert NoDup(s) ==> NoDup(Filter(s, j => j != k)) by {
      if NoDup(s) { FilterNoDup(s, j => j != k); }
    }
    Filter(s, j => j != k)
  }

  /** `release`: every member commits its hug and stops moving. */
  function Release(g: Group): (r: Group)
    ensures r.members == g.members && r.objs.Keys == g.objs.Keys
    ensures NoDup(g.members) ==> forall j :: j in g.objs && j in g.members ==> r.objs[j] == SO.OnRelease(g.objs[j])
    ensures forall j :: j in g.objs && j !in g.members ==> r.objs[j] == g.objs[j]
  {
    Group(ForEach(g.objs, g.members, SO.OnRelease), g.members)
  }

  /** `hug`: every member gets the same pending offset. */
  function Hug(g: Group, dx: int, dy: int): (r: Group)
    ensures r.members == g.members && r.objs.Keys == g.objs.Keys
    ensures forall j :: j in g.objs && j in g.members ==> r.objs[j].dx == dx && r.objs[j].dy == dy
    ensures forall j :: j in g.objs && j in g.members ==> r.objs[j].(dx := g.objs[j].dx, dy := g.objs[j].dy) == g.objs[j]
    ensures forall j :: j in g.objs && j !in g.members ==> r.objs[j] == g.objs[j]
  {
    var r := ForEach(g.objs, g.members, o => SO.Hug(o, dx, dy));
    assert forall j :: j in g.objs && j in g.members ==> r[j] == SO.Hug(g.objs[j], dx, dy) by {
      HugForEach(g.objs, g.members, dx, dy);
    }
    Group(r, g.members)
  }

  /** Setting the hug is idempotent, so a member listed twice still ends
      with the group's offset. */
  lemma {:induction false} HugForEach(objs: map<Id, SO.Obj>, ks: seq<Id>, dx: int, dy: int)
    ensures forall j :: j in objs && j in ks ==> ForEach(objs, ks, o => SO.Hug(o, dx, dy))[j] == SO.Hug(objs[j], dx, dy)
    decreases |ks|
  {
    if |ks| > 0 {
      var f := o => SO.Hug(o, dx, dy);
      var o1 := Update(objs, ks[0], f);
      HugForEach(o1, ks[1..], dx, dy);
      assert forall j :: j in ks <==> j == ks[0] || j in ks[1..];
    }
  }

  // ---------------------------------------------------------------------
  // Extents

  /** One step of the source's bound accumulation: the running value is
      replaced when it is unset or — since the test is Python's `not x` —
      when it is 0, and otherwise when the new value is smaller (for a
      lower bound) or larger (for an upper bound). */
  function Accumulate(acc: Option<int>, v: int, lower: bool): Option<int> {
    if acc == None || acc == Some(0) then Some(v)
    else if lower && acc.value > v then Some(v)
    else if !lower && acc.value < v then Some(v)
    else acc
  }

  /** The accumulated bound of a list of coordinates, folded left to right. */
  function Bound(vs: seq<int>, lower: bool): (r: Option<int>)
    ensures r == None <==> |vs| == 0
    decreases |vs|
  {
    if |vs| == 0 then None else Accumulate(Bound(vs[..|vs| - 1], lower), vs[|vs| - 1], lower)
  }

  /** The bound is one of the coordinates, and when none of them is 0 it is
      their minimum (lower bound) or maximum (upper bound). */
  lemma {:induction false} BoundSound(vs: seq<int>, lower: bool)
    ensures Bound(vs, lower).Some? ==> Bound(vs, lower).value in vs
    ensures (forall i :: 0 <= i < |vs| ==> vs[i] != 0) ==>
      forall i :: 0 <= i < |vs| ==> if lower then Bound(vs, lower).value <= vs[i] else Bound(vs, lower).value >= vs[i]
    decreases |vs|
  {
    if |vs| > 0 {
      var init := vs[..|vs| - 1];
      BoundSound(init, lower);
      assert vs == init + [vs[|vs| - 1]];
      if |init| > 0 && (forall i :: 0 <= i < |vs| ==> vs[i] != 0) {
        assert Bound(init, lower).value in init;
        assert Bound(init, lower).value != 0;
        assert forall i :: 0 <= i < |init| ==> init[i] != 0;
      }
    }
  }

  function Lefts(os: seq<SO.Obj>): seq<int> { seq(|os|, i requires 0 <= i < |os| => os[i].x) }
  function Tops(os: seq<SO.Obj>): seq<int> { seq(|os|, i requires 0 <= i < |os| => os[i].y) }
  function Rights(os: seq<SO.Obj>): seq<int> { seq(|os|, i requires 0 <= i < |os| => os[i].x + os[i].w) }
  function Bottoms(os: seq<SO.Obj>): seq<int> { seq(|os|, i requires 0 <= i < |os| => os[i].y + os[i].h) }

  /** The selected objects, in selection order. */
  function MemberObjs(g: Group): (r: seq<SO.Obj>)
    ensures |r| <= |g.members|
    ensures forall o :: o in r ==> exists j :: j in g.members && j in g.objs && g.objs[j] == o
    ensures forall j :: j in g.members && j in g.objs ==> g.objs[j] in r
  {
    MemberObjsOf(g.objs, g.members)
  }

  function MemberObjsOf(objs: map<Id, SO.Obj>, ks: seq<Id>): (r: seq<SO.Obj>)
    ensures |r| <= |ks|
    ensures forall o :: o in r ==> exists j :: j in ks && j in objs && objs[j] == o
    ensures forall j :: j in ks && j in objs ==> objs[j] in r
    decreases |ks|
  {
    if |ks| == 0 then []
    else
      var rest := MemberObjsOf(objs, ks[..|ks| - 1]);
      assert forall j :: j in ks <==> j == ks[|ks| - 1] || j in ks[..|ks| - 1] by {
        assert ks == ks[..|ks| - 1] + [ks[|ks| - 1]];
      }
      var k := ks[|ks| - 1];
      if k in objs then rest + [objs[k]] else rest
  }

  /** `get_extents`: the group's bounding box as (x, y, width, height), or
      nothing for an empty selection, where the source fails on the
      missing bounds. */
  function GetExtents(g: Group): (r: Option<(int, int, int, int)>)
    ensures r == None <==> |MemberObjs(g)| == 0
  {
    var os := MemberObjs(g);
    if |os| == 0 then None
    else
      var x := Bound(Lefts(os), true).value;
      var y := Bound(Tops(os), true).value;
      Some((x, y, Bound(Rights(os), false).value - x, Bound(Bottoms(os), false).value - y))
  }

  /** Each edge of the reported box is an edge of some selected object. */
  lemma ExtentsAttained(g: Group)
    requires GetExtents(g).Some?
    ensures var (x, y, w, h) := GetExtents(g).value;
      && (exists o :: o in MemberObjs(g) && o.x == x)
      && (exists o :: o in MemberObjs(g) && o.y == y)
      && (exists o :: o in MemberObjs(g) && o.x + o.w == x + w)
      && (exists o :: o in MemberObjs(g) && o.y + o.h == y + h)
  {
    var os := MemberObjs(g);
    LeftSound(os);
    TopSound(os);
    RightSound(os);
    BottomSound(os);
  }

  /** When no selected object has its left edge at 0 the box's left edge
      is the leftmost one, and likewise for the other three edges. */
  lemma ExtentsSound(g: Group)
    requires GetExtents(g).Some?
    ensures var (x, y, w, h) := GetExtents(g).value;
      && ((forall o :: o in MemberObjs(g) ==> o.x != 0) ==> forall o :: o in MemberObjs(g) ==> x <= o.x)
      && ((forall o :: o in MemberObjs(g) ==> o.y != 0) ==> forall o :: o in MemberObjs(g) ==> y <= o.y)
      && ((forall o :: o in MemberObjs(g) ==> o.x + o.w != 0) ==> forall o :: o in MemberObjs(g) ==> o.x + o.w <= x + w)
      && ((forall o :: o in MemberObjs(g) ==> o.y + o.h != 0) ==> forall o :: o in MemberObjs(g) ==> o.y + o.h <= y + h)
  {
    var os := MemberObjs(g);
    LeftSound(os);
    TopSound(os);
    RightSound(os);
    BottomSound(os);
  }

  lemma LeftSound(os: seq<SO.Obj>)
    requires |os| > 0
    ensures var v := Bound(Lefts(os), true).value;
      && (exists o :: o in os && o.x == v)
      && ((forall o :: o in os ==> o.x != 0) ==> forall o :: o in os ==> v <= o.x)
  {
    var vs := Lefts(os);
    BoundSound(vs, true);
    var i :| 0 <= i < |vs| && vs[i] == Bound(vs, true).value;
    assert os[i] in os;
    if forall o :: o in os ==> o.x != 0 {
      forall o | o in os ensures Bound(vs, true).value <= o.x {
        var k :| 0 <= k < |os| && os[k] == o;
        assert vs[k] == o.x;
      }
    }
  }

  lemma TopSound(os: seq<SO.Obj>)
    requires |os| > 0
    ensures var v := Bound(Tops(os), true).value;
      && (exists o :: o in os && o.y == v)
      && ((forall o :: o in os ==> o.y != 0) ==> forall o :: o in os ==> v <= o.y)
  {
    var vs := Tops(os);
    BoundSound(vs, true);
    var i :| 0 <= i < |vs| && vs[i] == Bound(vs, true).value;
    assert os[i] in os;
    if forall o :: o in os ==> o.y != 0 {
      forall o | o in os ensures Bound(vs, true).value <= o.y {
        var k :| 0 <= k < |os| && os[k] == o;
        assert vs[k] == o.y;
      }
    }
  }

  lemma RightSound(os: seq<SO.Obj>)
    requires |os| > 0
    ensures var v := Bound(Rights(os), false).value;
      && (exists o :: o in os && o.x + o.w == v)
      && ((forall o :: o in os ==> o.x + o.w != 0) ==> forall o :: o in os ==> o.x + o.w <= v)
  {
    var vs := Rights(os);
    BoundSound(vs, false);
    var i :| 0 <= i < |vs| && vs[i] == Bound(vs, false).value;
    assert os[i] in os;
    if forall o :: o in os ==> o.x + o.w != 0 {
      forall o | o in os ensures o.x + o.w <= Bound(vs, false).value {
        var k :| 0 <= k < |os| && os[k] == o;
        assert vs[k] == o.x + o.w;
      }
    }
  }

  lemma BottomSound(os: seq<SO.Obj>)
    requires |os| > 0
    ensures var v := Bound(Bottoms(os), false).value;
      && (exists o :: o in os && o.y + o.h == v)
      && ((forall o :: o in os ==> o.y + o.h != 0) ==> forall o :: o in os ==> o.y + o.h <= v)
  {
    var vs := Bottoms(os);
    BoundSound(vs, false);
    var i :| 0 <= i < |vs| && vs[i] == Bound(vs, false).value;
    assert os[i] in os;
    if forall o :: o in os ==> o.y + o.h != 0 {
      forall o | o in os ensures o.y + o.h <= Bound(vs, false).value {
        var k :| 0 <= k < |os| && os[k] == o;
        assert vs[k] == o.y + o.h;
      }
    }
  }

  /** The `not x` test in `get_extents` forgets a bound of 0: a group of an
      object at x = 0 and one at x = 20 reports its left edge at 20. */
  lemma ExtentsForgetZero()
    ensures var a := SO.New("a", 0, 0, 10, 10);
            var b := SO.New("b", 20, 0, 10, 10);
            GetExtents(Group(map[1 := a, 2 := b], [1, 2])) == Some((20, 0, 10, 10))
  {
    var a := SO.New("a", 0, 0, 10, 10);
    var b := SO.New("b", 20, 0, 10, 10);
    TwoMemberObjs(a, b);
    assert Lefts([a, b]) == [0, 20] && Tops([a, b]) == [0, 0];
    assert Rights([a, b]) == [10, 30] && Bottoms([a, b]) == [10, 10];
    BoundOfTwo(0, 20, true);
    BoundOfTwo(0, 0, true);
    BoundOfTwo(10, 30, false);
    BoundOfTwo(10, 10, false);
  }

  lemma TwoMemberObjs(a: SO.Obj, b: SO.Obj)
    ensures MemberObjs(Group(map[1 := a, 2 := b], [1, 2])) == [a, b]
  {
    var ks: seq<Id> := [1, 2];
    assert ks[..1] == [1] && ks[..1][..0] == [];
  }

  /** The bound of two coordinates: the second accumulated onto the first. */
  lemma BoundOfTwo(u: int, v: int, lower: bool)
    ensures Bound([u, v], lower) == Accumulate(Some(u), v, lower)
  {
    assert [u, v][..1] == [u] && [u][..0] == [];
  }
}

=== FILE: toolkit_snap.dfy ===
/** Edge hugging while a group is dragged with the Alt modifier held
    (the snapping part of `scene.motion` in editor/toolkit.py): the group's
    bounding box is pulled onto a grid line, else flush against a
    neighbouring object, else against the canvas border, whenever such an
    edge lies within 10 units. */
module Snapping {
  import SO = SceneObject

  /** How close an edge must be to be pulled. */
  const Reach: int := 10

  /** Python's `%`: the remainder takes the sign of the divisor. */
  function PyMod(a: int, b: int): (r: int)
    requires b != 0
    ensures b > 0 ==> 0 <= r < b
    ensures b < 0 ==> b < r <= 0
    ensures (a - r) % b == 0
  {
    if b > 0 then
      ModSub(a, b);
      a % b
    else
      var m := a % (-b);
      var q := a / (-b);
      assert a == q * (-b) + m;
      if m == 0 then
        assert a - 0 == (-q) * b;
        MulMod(-q, b);
        0
      else
        assert a - (m + b) == (-q - 1) * b;
        MulMod(-q - 1, b);
        m + b
  }

  // Divisibility facts the solver does not find on its own.

  lemma {:induction false} MulNonneg(a: nat, b: nat)
    ensures a * b >= 0
    decreases a
  {
    if a > 0 {
      MulNonneg(a - 1, b);
      assert a * b == (a - 1) * b + b;
    }
  }

  /** A non-zero multiple of `g` is at least as large as `g` in magnitude. */
  lemma MulBound(m: int, g: int)
    requires m != 0 && g != 0
    ensures m * g >= g || m * g <= -g
    ensures m * g >= -g || m * g <= g
  {
    var am := if m > 0 then m - 1 else -m - 1;
    var ag := if g > 0 then g else -g;
    MulNonneg(am, ag);
    if m > 0 {
      if g > 0 { assert m * g == am * ag + g; }
      else { assert m * g == -(am * ag) + g; }
    } else {
      if g > 0 { assert m * g == -(am * ag) - g; }
      else { assert m * g == am * ag - g; }
    }
  }

  lemma MulMod(k: int, g: int)
    requires g != 0
    ensures (k * g) % g == 0
  {
    var q := (k * g) / g;
    var r := (k * g) % g;
    assert k * g == q * g + r;
    assert r == (k - q) * g;
    if k - q != 0 {
      MulBound(k - q, g);
    }
  }

  lemma ModSub(a: int, g: int)
    requires g != 0
    ensures (a - a % g) % g == 0
  {
    var q := a / g;
    assert a - a % g == q * g;
    MulMod(q, g);
  }

  /** Divisibility is preserved by negation. */
  lemma NegMod(a: int, g: int)
    requires g != 0 && a % g == 0
    ensures (-a) % g == 0
  {
    var q := a / g;
    assert -a == (-q) * g;
    MulMod(-q, g);
  }

  /** For a positive spacing, the distance from `a` down to the grid line
      at or below it and up to the grid line at or above it. */
  function Down(a: int, g: int): int requires g > 0 { a % g }
  function Up(a: int, g: int): int requires g > 0 { (-a) % g }

  /** A coordinate off the grid but within reach of a grid line. */
  predicate Near(a: int, g: int)
    requires g > 0
  {
    a % g != 0 && (Down(a, g) <= Reach || Up(a, g) <= Reach)
  }

  /** The grid offset of one axis, for a box edge at `v` of size `len` and
      grid spacing `g` (0 meaning no grid): in order, pull the low edge
      down onto a grid line, pull it up, pull the high edge down, pull the
      high edge up — whichever comes first within reach. */
  function GridOffset(v: int, len: int, g: int): (d: int)
    ensures g == 0 ==> d == 0
    ensures g > 0 && Near(v, g) ==> d != 0 && -Reach <= d <= Reach && (v + d) % g == 0
    ensures g > 0 && !Near(v, g) && Near(v + len, g) ==> d != 0 && -Reach <= d <= Reach && (v + len + d) % g == 0
    ensures g > 0 && !Near(v, g) && !Near(v + len, g) ==> d == 0
    ensures g != 0 && d != 0 ==> (v + d) % g == 0 || (v + len + d) % g == 0
  {
    if g == 0 then 0
    else
      var d1 := if PyMod(v, g) <= Reach then -PyMod(v, g) else 0;
      var d2 := if d1 == 0 && PyMod(-v, g) <= Reach then PyMod(-v, g) else d1;
      var d3 := if d2 == 0 && PyMod(v + len, g) <= Reach then -PyMod(v + len, g) else d2;
      var d4 := if d3 == 0 && PyMod(-v - len, g) <= Reach then PyMod(-v - len, g) else d3;
      GridFacts(v, g);
      GridFacts(v + len, g);
      d4
  }

  /** The remainders of `a` and `-a` differ from `a` (resp. `-a`) by a
      multiple of the spacing, and one is 0 exactly when the other is. */
  lemma GridFacts(a: int, g: int)
    requires g != 0
    ensures (a + (-PyMod(a, g))) % g == 0
    ensures (a + PyMod(-a, g)) % g == 0
    ensures PyMod(a, g) == 0 <==> PyMod(-a, g) == 0
    ensures g > 0 ==> PyMod(a, g) == Down(a, g) && PyMod(-a, g) == Up(a, g)
  {
    var m := PyMod(-a, g);
    assert a + m == -(-a - m);
    NegMod(-a - m, g);
    if PyMod(a, g) == 0 {
      NegMod(a, g);
      assert -a - 0 == -a;
    }
    if m == 0 {
      NegMod(-a, g);
      assert a - 0 == a;
    }
  }

  /** Do the closed spans [a, a + la] and [b, b + lb] meet, written as the
      source writes the test? */
  predicate Spans(a: int, la: int, b: int, lb: int) {
    (b <= a && b + lb >= a) || (b >= a && a + la >= b)
  }

  function Abs(a: int): int { if a < 0 then -a else a }

  /** The box being dragged. */
  datatype Box = Box(x: int, y: int, w: int, h: int)

  /** One neighbour's pull. A vertical offset not yet chosen is taken from
      a neighbour the box overlaps horizontally: the box's top goes flush
      against the neighbour's bottom, else the box's bottom against the
      neighbour's top, when within reach. The horizontal offset is chosen
      alike from a neighbour it overlaps vertically. */
  function Pull(b: Box, o: SO.Obj, dx: int, dy: int): (int, int) {
    var dy1 := if dy == 0 && Spans(b.x, b.w, o.x, o.w) && Abs(o.y + o.h - b.y) <= Reach then o.y + o.h - b.y else dy;
    var dy2 := if dy == 0 && Spans(b.x, b.w, o.x, o.w) && dy1 == 0 && Abs(b.y + b.h - o.y) <= Reach then o.y - b.y - b.h else dy1;
    var dx1 := if dx == 0 && Spans(b.y, b.h, o.y, o.h) && Abs(o.x + o.w - b.x) <= Reach then o.x + o.w - b.x else dx;
    var dx2 := if dx == 0 && Spans(b.y, b.h, o.y, o.h) && dx1 == 0 && Abs(b.x + b.w - o.x) <= Reach then o.x - b.x - b.w else dx1;
    (dx2, dy2)
  }

  /** The box's top (or bottom) can go flush against this neighbour by
      moving `dy`, and the neighbour is horizontally in line with it. */
  ghost predicate FlushY(b: Box, o: SO.Obj, dy: int) {
    Spans(b.x, b.w, o.x, o.w) && Abs(dy) <= Reach
    && (b.y + dy == o.y + o.h || b.y + b.h + dy == o.y)
  }

  ghost predicate FlushX(b: Box, o: SO.Obj, dx: int) {
    Spans(b.y, b.h, o.y, o.h) && Abs(dx) <= Reach
    && (b.x + dx == o.x + o.w || b.x + b.w + dx == o.x)
  }

  /** The neighbour scan: walks the other objects from the topmost down,
      skipping selected ones, until both offsets are chosen. An offset
      already chosen is kept; one chosen here puts the box flush against
      some unselected object in line with it; one left at 0 had no such
      object within reach. */
  function Scan(b: Box, os: seq<SO.Obj>, dx: int, dy: int): (r: (int, int))
    ensures dx != 0 ==> r.0 == dx
    ensures dy != 0 ==> r.1 == dy
    ensures dx == 0 && r.0 != 0 ==> exists o :: o in os && o.status != SO.Selected && FlushX(b, o, r.0)
    ensures dy == 0 && r.1 != 0 ==> exists o :: o in os && o.status != SO.Selected && FlushY(b, o, r.1)
    ensures dx == 0 && r.0 == 0 ==> forall o :: o in os && o.status != SO.Selected ==> forall d :: d != 0 ==> !FlushX(b, o, d)
    ensures dy == 0 && r.1 == 0 ==> forall o :: o in os && o.status != SO.Selected ==> forall d :: d != 0 ==> !FlushY(b, o, d)
    decreases |os|
  {
    if |os| == 0 then (dx, dy)
    else if os[0].status == SO.Selected then
      var r := Scan(b, os[1..], dx, dy);
      assert forall o :: o in os <==> o == os[0] || o in os[1..];
      r
    else
      var (ndx, ndy) := Pull(b, os[0], dx, dy);
      PullSound(b, os[0], dx, dy);
      assert forall o :: o in os <==> o == os[0] || o in os[1..];
      if ndx != 0 && ndy != 0 then (ndx, ndy)
      else Scan(b, os[1..], ndx, ndy)
  }

  /** What one neighbour's pull guarantees. */
  lemma PullSound(b: Box, o: SO.Obj, dx: int, dy: int)
    ensures var (ndx, ndy) := Pull(b, o, dx, dy);
      && (dx != 0 ==> ndx == dx) && (dy != 0 ==> ndy == dy)
      && (dx == 0 && ndx != 0 ==> FlushX(b, o, ndx))
      && (dy == 0 && ndy != 0 ==> FlushY(b, o, ndy))
      && (dx == 0 && ndx == 0 ==> forall d :: d != 0 ==> !FlushX(b, o, d))
      && (dy == 0 && ndy == 0 ==> forall d :: d != 0 ==> !FlushY(b, o, d))
  {
  }

  /** The canvas border, for an axis not yet pulled: the low edge goes to 0
      when within reach of it, else the high edge goes to the canvas size
      when within reach of it (or beyond it). */
  function Border(v: int, len: int, size: int, d: int): (r: int)
    ensures d != 0 ==> r == d
    ensures d == 0 && v <= Reach ==> v + r == 0
    ensures d == 0 && v > Reach && v + len >= size - Reach ==> v + len + r == size
    ensures d == 0 && v > Reach && v + len < size - Reach ==> r == 0
  {
    if d == 0 && v <= Reach then -v
    else if d == 0 && v + len >= size - Reach then size - len - v
    else d
  }

  /** The hug of a dragged group with bounding box `b`: grid first, then
      neighbours (the other objects, topmost first), then the border of a
      `sw` x `sh` canvas. */
  function Snap(b: Box, gridx: int, gridy: int, os: seq<SO.Obj>, sw: int, sh: int): (r: (int, int))
    ensures var (gdx, gdy) := (GridOffset(b.x, b.w, gridx), GridOffset(b.y, b.h, gridy));
      && (gdx != 0 ==> r.0 == gdx) && (gdy != 0 ==> r.1 == gdy)
  {
    var dx := GridOffset(b.x, b.w, gridx);
    var dy := GridOffset(b.y, b.h, gridy);
    var (sdx, sdy) := Scan(b, os, dx, dy);
    (Border(b.x, b.w, sw, sdx), Border(b.y, b.h, sh, sdy))
  }

  /** Without a grid, a horizontal hug that is neither a neighbour pull
      nor a border pull never happens: the offset is 0 or puts an edge
      flush with a neighbour or the canvas border. */
  lemma SnapWithoutGrid(b: Box, os: seq<SO.Obj>, sw: int, sh: int)
    ensures var r := Snap(b, 0, 0, os, sw, sh);
      r.0 == 0
      || (exists o :: o in os && o.status != SO.Selected && FlushX(b, o, r.0))
      || b.x + r.0 == 0 || b.x + b.w + r.0 == sw
    ensures var r := Snap(b, 0, 0, os, sw, sh);
      r.1 == 0
      || (exists o :: o in os && o.status != SO.Selected && FlushY(b, o, r.1))
      || b.y + r.1 == 0 || b.y + b.h + r.1 == sh
  {
  }
}

=== FILE: web_field.dfy ===
/**
 * The text field of the web demo and the browser behaviour its editing
 * code relies on. A field holds its value and its selection; the selection
 * offsets are unsigned longs, so a negative offset wraps around to a huge
 * one, and every offset is clamped into the value.
 */
module WebField {
  import opened WebText

  datatype Field = Field(value: string, start: nat, end: nat)

  predicate Valid(f: Field)
  {
    f.start <= f.end <= |f.value|
  }

  /** Number of values of an unsigned long. */
  const ULongRange: int := 0x1_0000_0000

  /**
   * A selection offset converted to an unsigned long: a negative one is
   * reduced modulo 2^32. Offsets of 2^32 and more would need a value of
   * that length and are kept as they are.
   */
  function ToULong(v: int): (r: nat)
    ensures v >= 0 ==> r == v
    ensures -ULongRange <= v < 0 ==> r == v + ULongRange
  {
    if v < 0 then v % ULongRange else v
  }

  /** A value short enough that a wrapped -1 lies beyond its end. */
  predicate Short(v: string)
  {
    |v| < ULongRange - 1
  }

  /** Setting the selection range: the end is clamped into the value, and a start past the end moves to the end. */
  function SetRange(f: Field, s: nat, e: nat): (r: Field)
    ensures Valid(r) && r.value == f.value
    ensures r.end <= e && r.start <= s
    ensures e <= |f.value| ==> r.end == e
    ensures s <= r.end ==> r.start == s
  {
    var e1 := if e > |f.value| then |f.value| else e;
    Field(f.value, if s > e1 then e1 else s, e1)
  }

  /** Assigning `selectionStart`: the end is first raised to the new start when it lies before it. */
  function SetStart(f: Field, v: int): (r: Field)
    requires Valid(f)
    ensures Valid(r) && r.value == f.value
    ensures 0 <= v <= f.end ==> r == f.(start := v)
    ensures f.end <= v <= |f.value| ==> r == f.(start := v, end := v)
    ensures v > |f.value| ==> r == f.(start := |f.value|, end := |f.value|)
    ensures v == -1 && Short(f.value) ==> r == f.(start := |f.value|, end := |f.value|)
  {
    var s := ToULong(v);
    SetRange(f, s, if f.end < s then s else f.end)
  }

  /** Assigning `selectionEnd`. */
  function SetEnd(f: Field, v: int): (r: Field)
    requires Valid(f)
    ensures Valid(r) && r.value == f.value
    ensures f.start <= v <= |f.value| ==> r == f.(end := v)
    ensures 0 <= v <= f.start ==> r == f.(start := v, end := v)
    ensures v > |f.value| ==> r == f.(end := |f.value|)
    ensures v == -1 && Short(f.value) ==> r == f.(end := |f.value|)
  {
    SetRange(f, f.start, ToULong(v))
  }

  /** Assigning the value: a different value puts the caret at its end; the same value changes nothing. */
  function SetValue(f: Field, v: string): (r: Field)
    requires Valid(f)
    ensures Valid(r) && r.value == v
    ensures v != f.value ==> r.start == |v| && r.end == |v|
    ensures v == f.value ==> r == f
  {
    if v == f.value then f else Field(v, |v|, |v|)
  }

  /** Moving the caret to `p` by assigning both offsets. */
  function MoveCaret(f: Field, p: int): (r: Field)
    requires Valid(f)
    ensures Valid(r) && r.value == f.value && r.start == r.end
    ensures 0 <= p <= |f.value| ==> r.start == p
    ensures p > |f.value| ==> r.start == |f.value|
    ensures p == -1 && Short(f.value) ==> r.start == |f.value|
  {
    SetEnd(SetStart(f, p), p)
  }

  /**
   * The editor: the field and the remembered column of vertical caret
   * moves, one more than the column, or -1 when there is none.
   */
  datatype Editor = Editor(field: Field, offset: int)

  predicate Good(ed: Editor)
  {
    Valid(ed.field) && (ed.offset == -1 || ed.offset >= 1)
  }

  /** No newline lies in `v[a..b]`. */
  predicate NoNewline(v: string, a: nat, b: nat)
    requires a <= b <= |v|
  {
    forall i | a <= i < b :: v[i] != '\n'
  }

  /** Where the line holding position `p` starts: just after the last newline before `p`. */
  function LineStart(v: string, p: nat): (r: nat)
    requires p <= |v|
    ensures r <= p && NoNewline(v, r, p)
    ensures r > 0 ==> v[r - 1] == '\n'
  {
    LastBefore(v, '\n', p) + 1
  }

  /** Where the line holding position `p` ends: at the first newline from `p`, or at the end of the value. */
  function LineEnd(v: string, p: nat): (r: nat)
    requires p <= |v|
    ensures p <= r <= |v| && NoNewline(v, p, r)
    ensures r < |v| ==> v[r] == '\n'
  {
    var k := IndexFrom(v, '\n', p, |v|);
    if k == -1 then |v| else k
  }

  /** The line holding `p` starts at `a` when `a` follows a newline (or is 0) and no newline lies between. */
  lemma LineStartAt(v: string, p: nat, a: nat)
    requires a <= p <= |v| && NoNewline(v, a, p)
    requires a == 0 || v[a - 1] == '\n'
    ensures LineStart(v, p) == a
  {
  }

  /** The line holding `p` ends at `b` when `b` is a newline (or the end) and no newline lies between. */
  lemma LineEndAt(v: string, p: nat, b: nat)
    requires p <= b <= |v| && NoNewline(v, p, b)
    requires b == |v| || v[b] == '\n'
    ensures LineEnd(v, p) == b
  {
  }

  /**
   * Inserting at the caret: the text replaces the selection and the caret
   * lands after it. The column memory is dropped.
   */
  function InsertAtCaret(ed: Editor, t: string): (r: Editor)
    requires Valid(ed.field)
    ensures Good(r) && r.offset == -1
    ensures var f := ed.field;
      r.field == Field(f.value[..f.start] + t + f.value[f.end..], f.start + |t|, f.start + |t|)
  {
    var f := ed.field;
    var v := Substring(f.value, 0, f.start) + t + Substring(f.value, f.end, |f.value|);
    var f1 := SetValue(f, v);
    assert f1.value == f.value ==> f1.end == f.start + |t|;
    Editor(MoveCaret(f1, f.start + |t|), -1)
  }

  /** The caret moves one left of the selection's start; from the very start it wraps to the end. */
  function Left(ed: Editor): (r: Editor)
    requires Valid(ed.field)
    ensures Good(r) && r.offset == -1 && r.field.value == ed.field.value
    ensures ed.field.start > 0 ==> r.field.start == r.field.end == ed.field.start - 1
    ensures ed.field.start == 0 && Short(ed.field.value) ==> r.field.start == r.field.end == |ed.field.value|
  {
    Editor(MoveCaret(ed.field, ed.field.start - 1), -1)
  }

  /** The caret moves one right of the selection's end, stopping at the end of the value. */
  function Right(ed: Editor): (r: Editor)
    requires Valid(ed.field)
    ensures Good(r) && r.offset == -1 && r.field.value == ed.field.value
    ensures ed.field.end < |ed.field.value| ==> r.field.start == r.field.end == ed.field.end + 1
    ensures ed.field.end == |ed.field.value| && Short(ed.field.value) ==> r.field.start == r.field.end == |ed.field.value|
  {
    Editor(MoveCaret(ed.field, ed.field.end + 1), -1)
  }

  /** Left then right gives back a caret that was not at the start. */
  lemma RightAfterLeft(ed: Editor)
    requires Valid(ed.field) && ed.field.start == ed.field.end > 0
    ensures Right(Left(ed)).field == ed.field
  {
  }

  /** Right then left leaves the caret at the old end of the selection, unless it was at the end of the value. */
  lemma LeftAfterRight(ed: Editor)
    requires Valid(ed.field) && ed.field.end < |ed.field.value|
    ensures Left(Right(ed)).field == ed.field.(start := ed.field.end)
  {
  }

  /**
   * Backspace. With a caret, the character before it goes and the caret
   * follows; at the very start nothing is deleted and the caret wraps to
   * the end. With a selection, the selection goes and the caret stays at
   * its start.
   */
  function BackSpace(ed: Editor): (r: Editor)
    requires Valid(ed.field)
    ensures Good(r) && r.offset == -1
    ensures var f := ed.field; var v := f.value;
      (f.start == f.end && f.start > 0 ==>
        r.field == Field(v[..f.start - 1] + v[f.start..], f.start - 1, f.start - 1))
      && (f.start == f.end == 0 && Short(v) ==> r.field == Field(v, |v|, |v|))
      && (f.start < f.end ==> r.field == Field(v[..f.start] + v[f.end..], f.start, f.start))
  {
    var f := ed.field;
    var s, e := f.start, f.end;
    if s == e then
      var v := Substring(f.value, 0, s - 1) + Substring(f.value, e, |f.value|);
      assert s == 0 ==> v == f.value;
      Editor(MoveCaret(SetValue(f, v), s - 1), -1)
    else
      var v := Substring(f.value, 0, s) + Substring(f.value, e, |f.value|);
      Editor(MoveCaret(SetValue(f, v), s), -1)
  }

  /** Typing a character then backspace gives back the field. */
  lemma BackSpaceAfterInsert(ed: Editor, c: char)
    requires Valid(ed.field) && ed.field.start == ed.field.end
    ensures BackSpace(InsertAtCaret(ed, [c])).field == ed.field
  {
    var f := ed.field;
    var v := f.value;
    var s := f.start;
    var w := v[..s] + [c] + v[s..];
    assert InsertAtCaret(ed, [c]).field == Field(w, s + 1, s + 1);
    assert w[..s] + w[s + 1..] == v;
  }

  function Min(a: int, b: int): int
  {
    if a <= b then a else b
  }

  /** A caret at `p`, clamped into the value: what assigning the start and then the end to the new start gives (`PlaceCaretAssigns`). */
  function PlaceCaret(f: Field, p: nat): (r: Field)
  {
    var q := Min(p, |f.value|);
    Field(f.value, q, q)
  }

  /** Assigning `selectionStart := p` and then `selectionEnd := selectionStart` places a caret. */
  lemma PlaceCaretAssigns(f: Field, p: nat)
    requires Valid(f)
    ensures var f1 := SetStart(f, p); SetEnd(f1, f1.start) == PlaceCaret(f, p)
  {
  }

  /**
   * Caret up. On the first line nothing happens. Otherwise the column
   * memory is set to one more than the caret's column, unless the caret
   * sits on a newline (the end of a line) and a column is remembered; the
   * caret then lands at that column of the previous line, or at its end
   * when the line is shorter. The searches are those of the text before
   * the caret and before the newline found (`LastBeforeSubstring`); the
   * test for a newline at the caret is `CharAt`.
   */
  function Up(ed: Editor): (r: Editor)
    requires Good(ed)
    ensures Good(r) && r.field.value == ed.field.value
    ensures var v := ed.field.value; var s := ed.field.start; var ls := LineStart(v, s);
      (ls == 0 ==> r == ed)
      && (ls > 0 ==>
            var prev := LineStart(v, ls - 1);
            var off := if ed.offset == -1 || s == |v| || v[s] != '\n' then s - ls + 1 else ed.offset;
            r.offset == off
            && r.field.start == r.field.end == Min(prev + off - 1, ls - 1))
  {
    var f := ed.field;
    var v := f.value;
    var s := f.start;
    var index := LastBefore(v, '\n', s);
    if index > -1 then
      var off := if ed.offset == -1 || !(s < |v| && v[s] == '\n') then s - index else ed.offset;
      var index2 := LastBefore(v, '\n', index);
      Editor(PlaceCaret(f, if index2 + off < index then index2 + off else index), off)
    else ed
  }

  /**
   * Caret down. The column memory is set to one more than the column of
   * the selection's end, unless that end sits on a newline and a column is
   * remembered; on the last line nothing else happens. Otherwise the caret
   * lands at that column of the next line, or at its end when the line is
   * shorter.
   */
  function Down(ed: Editor): (r: Editor)
    requires Good(ed)
    ensures Good(r) && r.field.value == ed.field.value
    ensures var v := ed.field.value; var e := ed.field.end; var le := LineEnd(v, e);
      r.offset == (if ed.offset == -1 || e == |v| || v[e] != '\n' then e - LineStart(v, e) + 1 else ed.offset)
      && (le == |v| ==> r.field == ed.field)
      && (le < |v| ==> r.field.start == r.field.end == Min(le + r.offset, LineEnd(v, le + 1)))
  {
    var off := DownColumn(ed.field.value, ed.field.end, ed.offset);
    Editor(DownField(ed.field, off), off)
  }

  /**
   * The column memory after a move down: one more than the column of `e`,
   * or the remembered one when `e` is on a newline. The search is that of
   * the text before `e` (`LastBeforeSubstring`).
   */
  function DownColumn(v: string, e: nat, offset: int): (off: nat)
    requires e <= |v| && (offset == -1 || offset >= 1)
    ensures off >= 1
    ensures off == (if offset == -1 || e == |v| || v[e] != '\n' then e - LineStart(v, e) + 1 else offset)
  {
    var index := LastBefore(v, '\n', e);
    if offset == -1 || !(e < |v| && v[e] == '\n') then
      if index > -1 then e - index else e + 1
    else offset
  }

  /**
   * The selection after a move down with column memory `off`. The first
   * search is that of the text after the selection's end
   * (`SearchSubstring`), the second that of a window of that text just
   * past the newline found (`TailSubstring`).
   */
  function DownField(f: Field, off: nat): (r: Field)
    requires Valid(f) && off >= 1
    ensures Valid(r) && r.value == f.value
    ensures var v := f.value; var le := LineEnd(v, f.end);
      (le == |v| ==> r == f)
      && (le < |v| ==> r.start == r.end == Min(le + off, LineEnd(v, le + 1)))
  {
    var v := f.value;
    var e := f.end;
    var i := Search(v, '\n', e, |v|);
    SearchLineEnd(v, e);
    if i > -1 then
      DownLands(v, e + i, off);
      PlaceCaret(f, DownCaret(v, e + i, off))
    else f
  }

  /** Searching the text after `p` for a newline finds the end of `p`'s line, if that is not the end of the text. */
  lemma SearchLineEnd(v: string, p: nat)
    requires p <= |v|
    ensures var i := Search(v, '\n', p, |v|);
      (i > -1 <==> LineEnd(v, p) < |v|) && (i > -1 ==> p + i == LineEnd(v, p))
  {
  }

  /**
   * Where a move down lands, with `le` the newline ending the current line:
   * the first newline in the next `off - 1` characters, or `off` past `le`.
   */
  function DownCaret(v: string, le: nat, off: nat): nat
    requires le < |v| && off >= 1
  {
    var j := Search(v, '\n', le + 1, Min(le + off, |v|));
    if j > -1 then le + j + 1 else le + off
  }

  /** A move down lands at the remembered column of the next line, or at that line's end when it is shorter. */
  lemma DownLands(v: string, le: nat, off: nat)
    requires le < |v| && off >= 1
    ensures Min(DownCaret(v, le, off), |v|) == Min(le + off, LineEnd(v, le + 1))
  {
    IndexFromShorter(v, '\n', le + 1, Min(le + off, |v|), |v|);
  }

  /**
   * The window a move down searches, cut from the text after the
   * selection's end `e`, is cut from the value between the shifted bounds;
   * `SearchSubstring` then relates both searches of a move down to
   * `Search`.
   */
  lemma TailSubstring(v: string, e: nat, a: nat, b: nat)
    requires e + a <= |v| && a <= b
    ensures Substring(Substring(v, e, |v|), a, b) == Substring(v, e + a, Min(e + b, |v|))
  {
    var rest := v[e..];
    var top := Min(b, |rest|);
    assert Substring(rest, a, b) == rest[a..top];
    assert rest[a..top] == v[e + a..e + top];
  }

  /**
   * A caret moved up then down comes back, when no column was remembered
   * and the previous line is at least as long as the caret's column.
   */
  lemma DownAfterUp(ed: Editor)
    requires Good(ed) && ed.offset == -1 && ed.field.start == ed.field.end
    requires var v := ed.field.value; var s := ed.field.start; var ls := LineStart(v, s);
      ls > 0 && s - ls <= ls - 1 - LineStart(v, ls - 1)
    ensures Down(Up(ed)).field == ed.field
  {
    var v := ed.field.value;
    var s := ed.field.start;
    var ls := LineStart(v, s);
    var p := LineStart(v, ls - 1) + s - ls;
    assert Up(ed) == Editor(Field(v, p, p), s - ls + 1);
    DownToColumn(v, s, p);
  }

  /** From the column of the previous line, down lands back on the caret when that column is remembered. */
  lemma DownToColumn(v: string, s: nat, p: nat)
    requires s <= |v|
    requires var ls := LineStart(v, s);
      ls > 0 && p == LineStart(v, ls - 1) + s - ls && p <= ls - 1
    ensures Down(Editor(Field(v, p, p), s - LineStart(v, s) + 1)).field == Field(v, s, s)
  {
    var ls := LineStart(v, s);
    var prev := LineStart(v, ls - 1);
    LineStartAt(v, p, prev);
    LineEndAt(v, p, ls - 1);
    LineEndAt(v, ls, LineEnd(v, s));
    var r := Down(Editor(Field(v, p, p), s - ls + 1));
    assert r.offset == s - ls + 1;
  }

  /**
   * The line part of a tab over a selection: a tab at the start of the
   * selection's line, unless the selection starts on a newline. The text
   * before the selection is searched forwards and backwards for a newline
   * (`SearchSubstring`, `LastBeforeSubstring`).
   */
  function TabLead(v: string, s: nat): (lead: string)
    requires s < |v|
    ensures var ls := LineStart(v, s);
      lead == (if v[s] == '\n' then v[..s] else v[..ls] + "\t" + v[ls..s])
  {
    SearchFindsLast(v, '\n', s);
    if v[s] == '\n' then v[..s]
    else if Search(v, '\n', 0, s) > -1 then
      var index := LastBefore(v, '\n', s);
      v[..index + 1] + "\t" + v[index + 1..s]
    else
      assert v[..0] + "\t" + v[0..s] == "\t" + v[..s];
      "\t" + v[..s]
  }

  /** The value after a tab over a selection: its length, and the character at the old start. */
  lemma TabShape(v: string, s: nat, e: nat)
    requires s < e <= |v|
    ensures var w := TabLead(v, s) + Indent(v[s..e]) + v[e..];
      |w| == |v| + Count(v[s..e], '\n') + (if v[s] == '\n' then 0 else 1)
      && s < |w| && w != v
      && (v[s] == '\n' ==> w[s] == '\n')
      && (v[s] != '\n' && LineStart(v, s) == s ==> w[s] == '\t')
      && (v[s] != '\n' && LineStart(v, s) < s ==> w[s] == v[s - 1])
  {
    var sel := v[s..e];
    var lead := TabLead(v, s);
    IndentHead(sel);
    assert sel[0] == v[s];
    if v[s] == '\n' {
      assert Count(sel, '\n') > 0;
    }
    var w := lead + Indent(sel) + v[e..];
    if v[s] == '\n' {
      assert w[s] == Indent(sel)[0];
    }
  }

  /** Setting the value then both selection offsets, in order, selects exactly that range. */
  lemma SelectRange(f: Field, w: string, a: int, b: int)
    requires Valid(f)
    ensures 0 <= a <= b <= |w| ==> SetEnd(SetStart(SetValue(f, w), a), b) == Field(w, a, b)
  {
  }

  /**
   * Tab. With a caret it inserts a tab. With a selection it inserts a tab
   * after every newline of the selection and, unless the selection starts
   * on a newline, at the start of the selection's first line
   * (`TabSelection`). The column memory is dropped.
   */
  function Tab(ed: Editor): (r: Editor)
    requires Valid(ed.field)
    ensures Good(r) && r.offset == -1
    ensures ed.field.start == ed.field.end ==> r == InsertAtCaret(ed, "\t")
  {
    var f := ed.field;
    var v := f.value;
    var s, e := f.start, f.end;
    if s == e then InsertAtCaret(ed, "\t")
    else
      TabShape(v, s, e);
      var count := 1 + Count(v[s..e], '\n') - (if v[s] == '\n' then 1 else 0);
      var w := TabLead(v, s) + Indent(v[s..e]) + v[e..];
      Editor(SetEnd(SetStart(SetValue(f, w), if w[s] != '\t' then s + 1 else s), e + count), -1)
  }

  /** The field a tab over a selection leaves: the new value, selected from one past the old start unless a tab lands there, to the end moved over the inserted tabs. */
  lemma TabField(ed: Editor)
    requires Valid(ed.field) && ed.field.start < ed.field.end
    ensures var v := ed.field.value; var s := ed.field.start; var e := ed.field.end;
      var w := TabLead(v, s) + Indent(v[s..e]) + v[e..];
      s < |w| && Tab(ed).field == Field(w, if w[s] != '\t' then s + 1 else s, e + Count(v[s..e], '\n') + (if v[s] == '\n' then 0 else 1))
  {
    var f := ed.field;
    var v := f.value;
    var s, e := f.start, f.end;
    TabShape(v, s, e);
    var count := 1 + Count(v[s..e], '\n') - (if v[s] == '\n' then 1 else 0);
    var w := TabLead(v, s) + Indent(v[s..e]) + v[e..];
    SelectRange(f, w, if w[s] != '\t' then s + 1 else s, e + count);
  }

  /** A tab over a selection: the value, and the end of the selection advanced by the number of tabs inserted. */
  lemma TabSelection(ed: Editor)
    requires Valid(ed.field) && ed.field.start < ed.field.end
    ensures var r := Tab(ed).field; var v := ed.field.value; var s := ed.field.start; var e := ed.field.end;
      r.value == TabLead(v, s) + Indent(v[s..e]) + v[e..]
      && r.end - e == Count(v[s..e], '\n') + (if v[s] == '\n' then 0 else 1)
      && r.end == e + (|r.value| - |v|)
  {
    var v := ed.field.value;
    TabShape(v, ed.field.start, ed.field.end);
    TabField(ed);
  }

  /**
   * A tab over a selection: the start moves one right past a leading
   * newline and when the tab went before it, except when the character it
   * then lands on is a tab: this is the case when the tab went exactly at
   * the start, or when a tab preceded it.
   */
  lemma TabSelectionStart(ed: Editor)
    requires Valid(ed.field) && ed.field.start < ed.field.end
    ensures var r := Tab(ed).field; var v := ed.field.value; var s := ed.field.start;
      (v[s] == '\n' ==> r.start == s + 1)
      && (v[s] != '\n' && LineStart(v, s) == s ==> r.start == s)
      && (v[s] != '\n' && LineStart(v, s) < s ==> (r.start == s <==> v[s - 1] == '\t'))
  {
    TabShape(ed.field.value, ed.field.start, ed.field.end);
    TabField(ed);
  }

  /**
   * The tab a left tab with a caret removes: the one after the last
   * newline-tab pair before the caret, which may lie on an earlier line
   * than the caret's, or, when no newline precedes the caret, a tab at the
   * very start; -1 when there is none.
   */
  function CaretTab(v: string, s: nat): (at: int)
    requires s <= |v|
    ensures -1 <= at < s
    ensures at >= 0 ==> v[at] == '\t' && (at == 0 || v[at - 1] == '\n')
    ensures LineStart(v, s) > 0 ==>
      (at >= 1 <==> exists k :: PairAt(v[..s], '\n', '\t', k))
      && (forall k :: PairAt(v[..s], '\n', '\t', k) ==> k < at)
    ensures LineStart(v, s) == 0 ==> at == (if s > 0 && v[0] == '\t' then 0 else -1)
  {
    SearchFindsLast(v, '\n', s);
    CharAt(v[..s], 0, '\t');
    if Search(v, '\n', 0, s) > -1 then
      var i := LastPairIndex(v[..s], '\n', '\t');
      if i > -1 then
        assert PairAt(v[..s], '\n', '\t', i);
        i + 1
      else i
    else if Substring(v[..s], 0, 1) == "\t" then 0 else -1
  }

  /**
   * Left tab with a caret: the tab `CaretTab` finds goes and the caret
   * moves back one; without one nothing changes. The column memory is left
   * as it was, because the function's local `offset` shadows it.
   */
  function LeftTabCaret(ed: Editor): (r: Editor)
    requires Valid(ed.field) && ed.field.start == ed.field.end
    ensures r.offset == ed.offset && Valid(r.field)
    ensures var v := ed.field.value; var s := ed.field.start; var at := CaretTab(v, s);
      (at == -1 ==> r.field == ed.field)
      && (at >= 0 ==> r.field == Field(v[..at] + v[at + 1..], s - 1, s - 1))
  {
    var f := ed.field;
    var v := f.value;
    var s := f.start;
    var index := CaretTab(v, s);
    if index > -1 then
      assert v[..index] + v[index + 1..s] + v[s..] == v[..index] + v[index + 1..];
      Editor(MoveCaret(SetValue(f, v[..index] + v[index + 1..s] + v[s..]), s - 1), ed.offset)
    else
      assert v[..s] + v[s..] == v;
      Editor(MoveCaret(SetValue(f, v[..s] + v[s..]), s), ed.offset)
  }

  /**
   * The tab a left tab over a selection removes: the one starting the
   * selection's first line, except when the selection starts the value;
   * -1 when that line does not start with a tab.
   */
  function SelectionTab(v: string, s: nat): (at: int)
    requires s < |v|
  {
    var ls := LineStart(v, s);
    if v[ls] == '\t' && (ls < s || ls > 0) then ls else -1
  }

  /**
   * The part before the selection after a left tab over a selection, and
   * where the unindented part starts: a tab at the selection's start is
   * skipped, any other removed tab is cut from the lead.
   */
  function LeftTabLead(v: string, s: nat): (r: (string, nat))
    requires s < |v|
    ensures var at := SelectionTab(v, s);
      r.1 == (if at == s then s + 1 else s)
      && r.0 == (if at == -1 || at == s then v[..s] else v[..at] + v[at + 1..s])
      && |r.0| + (if at == -1 then 0 else 1) == r.1
  {
    SearchFindsLast(v, '\n', s);
    if Search(v, '\n', 0, s) > -1 then
      var index := LastBefore(v, '\n', s);
      if index + 1 == s && v[s] == '\t' then (v[..s], s + 1)
      else if v[index + 1] == '\t' then (v[..index + 1] + v[index + 2..s], s)
      else (v[..s], s)
    else if s > 0 && v[0] == '\t' then
      assert v[..0] + v[1..s] == v[1..s];
      (v[1..s], s)
    else (v[..s], s)
  }

  /** Skipping a leading tab does not change how many newline-tab pairs a selection holds. */
  lemma CountPairsSkipTab(v: string, s: nat, e: nat, start: nat)
    requires s < e <= |v| && (start == s || (start == s + 1 && v[s] == '\t'))
    ensures CountPairs(v[s..e]) == CountPairs(v[start..e])
  {
    if start == s + 1 && e - s >= 2 {
      assert v[s..e][1..] == v[s + 1..e];
    }
  }

  /**
   * Left tab over a selection, with `shift` the initial value of the count
   * of removed tabs: -1 as the source initialises it, 0 as intended. The
   * tab `SelectionTab` finds goes and every newline-tab pair of the
   * selection loses its tab (`LeftTabSelectionValue`); with the intended
   * count the selection covers exactly the unindented text
   * (`LeftTabSelectionRange`). The column memory is left as it was.
   */
  function LeftTabSelection(ed: Editor, shift: int): (r: Editor)
    requires Valid(ed.field) && ed.field.start < ed.field.end
    ensures Valid(r.field) && r.offset == ed.offset
  {
    var f := ed.field;
    var v := f.value;
    var s, e := f.start, f.end;
    var count := CountPairs(v[s..e]);
    var (lead, start) := LeftTabLead(v, s);
    var off := shift + start - |lead|;
    var w := lead + Unindent(v[start..e]) + v[e..];
    Editor(SetEnd(SetStart(SetValue(f, w), start - off), e - count - off), ed.offset)
  }

  /** The value after a left tab over a selection. */
  lemma LeftTabSelectionValue(ed: Editor, shift: int)
    requires Valid(ed.field) && ed.field.start < ed.field.end
    ensures var v := ed.field.value; var (lead, start) := LeftTabLead(v, ed.field.start);
      LeftTabSelection(ed, shift).field.value == lead + Unindent(v[start..ed.field.end]) + v[ed.field.end..]
  {
  }

  /** Counting removed tabs from zero, the selection covers exactly the unindented text. */
  lemma LeftTabSelectionRange(ed: Editor)
    requires Valid(ed.field) && ed.field.start < ed.field.end
    ensures var v := ed.field.value; var (lead, start) := LeftTabLead(v, ed.field.start);
      var r := LeftTabSelection(ed, 0).field;
      r.start == |lead| && r.end == |lead| + |Unindent(v[start..ed.field.end])|
  {
    var f := ed.field;
    var v := f.value;
    var s, e := f.start, f.end;
    var (lead, start) := LeftTabLead(v, s);
    CountPairsSkipTab(v, s, e, start);
    var w := lead + Unindent(v[start..e]) + v[e..];
    SelectRange(f, w, |lead|, |lead| + |Unindent(v[start..e])|);
  }

  /** The as-written left tab moves an untouched selection one to the right. */
  lemma LeftTabSelectionShifts()
    ensures LeftTabSelection(Editor(Field("ab", 0, 2), -1), -1).field == Field("ab", 1, 2)
    ensures LeftTabSelection(Editor(Field("ab", 0, 2), -1), 0).field == Field("ab", 0, 2)
  {
    assert "ab"[0..2] == "ab" && "ab"[2..] == "";
    assert CountPairs("ab") == 0 by { assert "ab"[1..] == "b"; }
    assert Unindent("ab") == "ab" by { assert "ab"[1..] == "b"; }
  }

  /** Left tab: with a caret or with a selection, counting removed tabs from zero. */
  function LeftTab(ed: Editor): (r: Editor)
    requires Valid(ed.field)
    ensures Valid(r.field) && r.offset == ed.offset
    ensures ed.field.start == ed.field.end ==> r == LeftTabCaret(ed)
    ensures ed.field.start < ed.field.end ==>
      var (lead, start) := LeftTabLead(ed.field.value, ed.field.start);
      r.field.start == |lead| && r.field.value[r.field.start..r.field.end] == Unindent(ed.field.value[start..ed.field.end])
  {
    if ed.field.start == ed.field.end then LeftTabCaret(ed)
    else
      LeftTabSelectionValue(ed, 0);
      LeftTabSelectionRange(ed);
      LeftTabSelection(ed, 0)
  }

  /** Assigning a value and then a selection from `a` to `b` clamps both offsets into the value. */
  lemma SelectClamped(f: Field, w: string, a: int, b: int)
    requires Valid(f) && 0 <= a <= b
    ensures var r := SetEnd(SetStart(SetValue(f, w), a), b);
      r.value == w
      && r.start == (if a <= |w| then a else |w|)
      && r.end == (if b <= |w| then b else |w|)
  {
  }

  /**
   * The as-written count moves the selection of a left tab one to the
   * right of the intended one, clamped into the value; the value itself
   * is the same.
   */
  lemma LeftTabSelectionShiftedRange(ed: Editor)
    requires Valid(ed.field) && ed.field.start < ed.field.end
    ensures var c := LeftTabSelection(ed, 0).field; var r := LeftTabSelection(ed, -1).field;
      r.value == c.value
      && r.start == (if c.start + 1 <= |c.value| then c.start + 1 else |c.value|)
      && r.end == (if c.end + 1 <= |c.value| then c.end + 1 else |c.value|)
  {
    var f := ed.field;
    var v := f.value;
    var s, e := f.start, f.end;
    var (lead, start) := LeftTabLead(v, s);
    LeftTabSelectionRange(ed);
    CountPairsSkipTab(v, s, e, start);
    var w := lead + Unindent(v[start..e]) + v[e..];
    SelectClamped(f, w, |lead| + 1, |lead| + |Unindent(v[start..e])| + 1);
  }

  /**
   * Left tab as the page wires it: the caret case, or the selection case
   * with the count of removed tabs starting at -1. It leaves the same value
   * as `LeftTab` and differs only by the selection's shift.
   */
  function LeftTabAsWritten(ed: Editor): (r: Editor)
    requires Valid(ed.field)
    ensures Valid(r.field) && r.offset == ed.offset
    ensures var c := LeftTab(ed).field;
      r.field.value == c.value
      && (ed.field.start == ed.field.end ==> r == LeftTab(ed))
      && (ed.field.start < ed.field.end ==>
            r.field.start == (if c.start + 1 <= |c.value| then c.start + 1 else |c.value|)
            && r.field.end == (if c.end + 1 <= |c.value| then c.end + 1 else |c.value|))
  {
    if ed.field.start == ed.field.end then LeftTabCaret(ed)
    else
      LeftTabSelectionShiftedRange(ed);
      LeftTabSelection(ed, -1)
  }

  /** A value cut around a middle part gives back its three parts. */
  lemma SplitAround(lead: string, mid: string, tail: string)
    ensures var w := lead + mid + tail;
      w[..|lead|] == lead && w[|lead|..|lead| + |mid|] == mid && w[|lead| + |mid|..] == tail
  {
  }

  /** A value is its three parts around a selection. */
  lemma SplitThree(v: string, s: nat, e: nat)
    requires s <= e <= |v|
    ensures v[..s] + v[s..e] + v[e..] == v
  {
  }

  /** Right after a tab typed at a line start, the tab a left tab with a caret finds is that one. */
  lemma CaretTabAtLineStart(lead: string, tail: string)
    requires |lead| == 0 || lead[|lead| - 1] == '\n'
    ensures CaretTab(lead + "\t" + tail, |lead| + 1) == |lead|
  {
    var s := |lead|;
    var w := lead + "\t" + tail;
    assert w[s] == '\t';
    LineStartAt(w, s + 1, s);
    if s > 0 {
      assert w[..s + 1] == lead + "\t";
      assert PairAt(w[..s + 1], '\n', '\t', s - 1);
    }
  }

  /** A left tab right after a tab typed at a line start removes that tab. */
  lemma LeftTabAtTypedTab(x: Editor, lead: string, tail: string)
    requires |lead| == 0 || lead[|lead| - 1] == '\n'
    requires x.field == Field(lead + "\t" + tail, |lead| + 1, |lead| + 1)
    ensures LeftTab(x).field == Field(lead + tail, |lead|, |lead|)
  {
    CaretTabAtLineStart(lead, tail);
    SplitAround(lead, "\t", tail);
  }

  /** A tab typed at the start of a line is taken back by a left tab. */
  lemma LeftTabAfterTab(ed: Editor)
    requires Valid(ed.field) && ed.field.start == ed.field.end
    requires ed.field.start == 0 || ed.field.value[ed.field.start - 1] == '\n'
    ensures LeftTab(Tab(ed)).field == ed.field
  {
    var v := ed.field.value;
    var s := ed.field.start;
    var lead, tail := v[..s], v[s..];
    assert Tab(ed).field == Field(lead + "\t" + tail, s + 1, s + 1);
    LeftTabAtTypedTab(Tab(ed), lead, tail);
    SplitThree(v, s, s);
  }

  /** With a selection, a left tab is the one over a selection counting removed tabs from zero. */
  lemma LeftTabIsSelection(ed: Editor)
    requires Valid(ed.field) && ed.field.start < ed.field.end
    ensures LeftTab(ed) == LeftTabSelection(ed, 0)
  {
  }

  /** Unindenting a selection just indented with a tab restores the value and the selection, when it starts a line that does not start with a tab or a newline. */
  lemma LeftTabAfterTabSelection(ed: Editor)
    requires Valid(ed.field) && ed.field.start < ed.field.end
    requires var v := ed.field.value; var s := ed.field.start;
      s > 0 && v[s - 1] == '\n' && v[s] != '\n' && v[s] != '\t'
    ensures LeftTab(Tab(ed)).field == ed.field
  {
    var v := ed.field.value;
    var s, e := ed.field.start, ed.field.end;
    var lead, sel, tail := v[..s], v[s..e], v[e..];
    var body := Indent(sel);
    TabAtLineStart(ed);
    assert Tab(ed) == Editor(Field(lead + "\t" + body + tail, s, s + 1 + |body|), -1);
    LeftTabAtIndented(Tab(ed), lead, body, tail);
    UnindentIndent(sel);
    SplitThree(v, s, e);
  }

  /** A tab over a selection starting a line that does not start with a tab or a newline: a tab goes before it, and the selection grows over the new tabs. */
  lemma TabAtLineStart(ed: Editor)
    requires Valid(ed.field) && ed.field.start < ed.field.end
    requires var v := ed.field.value; var s := ed.field.start;
      s > 0 && v[s - 1] == '\n' && v[s] != '\n' && v[s] != '\t'
    ensures var v := ed.field.value; var s := ed.field.start; var e := ed.field.end;
      Tab(ed) == Editor(Field(v[..s] + "\t" + Indent(v[s..e]) + v[e..], s, e + 1 + Count(v[s..e], '\n')), -1)
  {
    var v := ed.field.value;
    var s, e := ed.field.start, ed.field.end;
    LineStartAt(v, s, s);
    assert TabLead(v, s) == v[..s] + "\t" by {
      assert v[..s] + "\t" + v[s..s] == v[..s] + "\t";
    }
    TabSelection(ed);
    TabSelectionStart(ed);
    var r := Tab(ed).field;
    assert r.value == v[..s] + "\t" + Indent(v[s..e]) + v[e..];
    assert r.start == s;
  }

  /** A left tab over an editor whose selection follows a tab opening a line removes that tab and unindents the selection. */
  lemma LeftTabAtIndented(x: Editor, lead: string, body: string, tail: string)
    requires |lead| > 0 && lead[|lead| - 1] == '\n'
    requires x == Editor(Field(lead + "\t" + body + tail, |lead|, |lead| + 1 + |body|), -1)
    ensures LeftTab(x).field == Field(lead + Unindent(body) + tail, |lead|, |lead| + |Unindent(body)|)
  {
    LeftTabIsSelection(x);
    LeftTabAtLineStart(lead, body, tail);
  }

  /**
   * A left tab over a selection that starts just past a tab opening a line
   * (not the first one): the tab goes, the newline-tab pairs of the
   * selection lose their tabs, and the selection covers the result.
   */
  lemma LeftTabAtLineStart(lead: string, body: string, tail: string)
    requires |lead| > 0 && lead[|lead| - 1] == '\n'
    ensures var w := lead + "\t" + body + tail;
      var r := LeftTabSelection(Editor(Field(w, |lead|, |lead| + 1 + |body|), -1), 0).field;
      r == Field(lead + Unindent(body) + tail, |lead|, |lead| + |Unindent(body)|)
  {
    var s := |lead|;
    var w := lead + "\t" + body + tail;
    var t := s + 1 + |body|;
    assert w[s - 1] == '\n' && w[s] == '\t';
    LineStartAt(w, s, s);
    assert SelectionTab(w, s) == s;
    assert w[..s] == lead && w[s + 1..t] == body && w[t..] == tail;
    var ed := Editor(Field(w, s, t), -1);
    LeftTabSelectionValue(ed, 0);
    LeftTabSelectionRange(ed);
  }
}

=== FILE: web_keys.dfy ===
/**
 * What releasing a key of the web demo does: the key's symbol class
 * selects an editing command on the text field, and a modifier key cycles
 * its latched and locked marks while the global modifier mask follows.
 * A modifier group is the set of keys sharing one `modN` class; the marks
 * are the "latched " and "locked " prefixes of their shapes' classes.
 */
module WebKeys {
  import opened WebField

  // ---------------------------------------------------------------------
  // Searching a class string

  /** `pat` occurs in `s` at `i`. */
  predicate OccursAt(s: string, pat: string, i: int)
  {
    0 <= i && i + |pat| <= |s| && s[i..i + |pat|] == pat
  }

  /**
   * The first index at or after `k` where `pat` occurs, or -1:
   * `s.search(pat)` for a pattern of plain letters, digits and underscores.
   */
  function FindFrom(s: string, pat: string, k: nat): (r: int)
    ensures -1 <= r
    decreases |s| - k
  {
    if k + |pat| > |s| then -1
    else if s[k..k + |pat|] == pat then k
    else FindFrom(s, pat, k + 1)
  }

  /** The search answers the first occurrence from `k` on, or -1 when there is none. */
  lemma {:induction false} FindFromFirst(s: string, pat: string, k: nat)
    ensures var r := FindFrom(s, pat, k);
      (r == -1 || (k <= r && OccursAt(s, pat, r)))
      && forall j | k <= j && (r == -1 || j < r) :: !OccursAt(s, pat, j)
    decreases |s| - k
  {
    if k + |pat| <= |s| && s[k..k + |pat|] != pat {
      FindFromFirst(s, pat, k + 1);
    }
  }

  /** `s.search(pat) > -1`. */
  predicate Has(s: string, pat: string)
  {
    FindFrom(s, pat, 0) > -1
  }

  /** The search succeeds exactly when the pattern occurs somewhere. */
  lemma HasOccurs(s: string, pat: string)
    ensures Has(s, pat) <==> exists i :: OccursAt(s, pat, i)
  {
    FindFromFirst(s, pat, 0);
    if !Has(s, pat) {
      forall i ensures !OccursAt(s, pat, i) {
        if i >= 0 {
          assert !OccursAt(s, pat, i);
        }
      }
    }
  }

  /** A pattern occurs in any string that has it at some index. */
  lemma HasAt(s: string, pat: string, i: int)
    requires OccursAt(s, pat, i)
    ensures Has(s, pat)
  {
    HasOccurs(s, pat);
  }

  // ---------------------------------------------------------------------
  // The editing command

  /** What a key release does to the text field. */
  datatype Command =
    | DoBackSpace | DoReturn | DoLeftTab | DoTab
    | DoLeft | DoRight | DoUp | DoDown
    | DoInsert(text: string) | DoNothing

  /** The class names checked, in order, with the command each selects. */
  const Tests: seq<(string, Command)> := [
    ("BackSpace", DoBackSpace), ("Return", DoReturn), ("ISO_Left_Tab", DoLeftTab), ("Tab", DoTab),
    ("Left", DoLeft), ("Right", DoRight), ("Up", DoUp), ("Down", DoDown)]

  /** The index of the first test from `i` on that the class passes, or the table's length. */
  function FirstPass(c: string, i: nat): (j: nat)
    requires i <= |Tests|
    ensures i <= j <= |Tests|
    ensures j < |Tests| ==> Has(c, Tests[j].0)
    ensures forall l | i <= l < j :: !Has(c, Tests[l].0)
    decreases |Tests| - i
  {
    if i == |Tests| || Has(c, Tests[i].0) then i else FirstPass(c, i + 1)
  }

  /**
   * The command of a key whose visible symbol has class `c` and whose
   * visible label is `t`: the class names are checked in order; when none
   * is found, a one-character label is typed and anything else ignored.
   */
  function Dispatch(c: string, t: string): (r: Command)
    ensures r.DoInsert? ==> r.text == t && |t| == 1
  {
    if Has(c, "BackSpace") then DoBackSpace
    else if Has(c, "Return") then DoReturn
    else if Has(c, "ISO_Left_Tab") then DoLeftTab
    else if Has(c, "Tab") then DoTab
    else if Has(c, "Left") then DoLeft
    else if Has(c, "Right") then DoRight
    else if Has(c, "Up") then DoUp
    else if Has(c, "Down") then DoDown
    else if |t| == 1 then DoInsert(t)
    else DoNothing
  }

  /**
   * The chain of tests selects the command of the first table entry the
   * class passes; a class passing none types a one-character label.
   */
  lemma DispatchFirstPass(c: string, t: string)
    ensures var j := FirstPass(c, 0);
      Dispatch(c, t) == if j < |Tests| then Tests[j].1 else if |t| == 1 then DoInsert(t) else DoNothing
  {
    assert Tests[0].0 == "BackSpace" && Tests[1].0 == "Return" && Tests[2].0 == "ISO_Left_Tab";
    assert Tests[3].0 == "Tab" && Tests[4].0 == "Left" && Tests[5].0 == "Right";
    assert Tests[6].0 == "Up" && Tests[7].0 == "Down";
  }

  /**
   * "ISO_Left_Tab" contains both "Tab" and "Left", so it must be checked
   * before them: a left-tab key unindents rather than indenting or moving.
   */
  lemma LeftTabCheckedFirst(c: string, t: string)
    requires c == "ISO_Left_Tab"
    ensures Has(c, "Tab") && Has(c, "Left")
    ensures Dispatch(c, t) == DoLeftTab
  {
    assert c[9..12] == "Tab";
    HasAt(c, "Tab", 9);
    assert c[4..8] == "Left";
    HasAt(c, "Left", 4);
    assert c[0..12] == "ISO_Left_Tab";
    HasAt(c, "ISO_Left_Tab", 0);
    assert 'B' !in c && 'R' !in c;
    MissingHead(c, "BackSpace");
    MissingHead(c, "Return");
  }

  /** A pattern whose first character is nowhere in `s` is not found. */
  lemma MissingHead(s: string, pat: string)
    requires pat != [] && pat[0] !in s
    ensures !Has(s, pat)
  {
    forall i ensures !OccursAt(s, pat, i) {
      if 0 <= i && i + |pat| <= |s| {
        assert s[i..i + |pat|][0] == s[i];
      }
    }
    HasOccurs(s, pat);
  }

  /** The command applied to the editor. */
  function Apply(ed: Editor, cmd: Command): (r: Editor)
    requires Good(ed)
    ensures Good(r)
    ensures cmd == DoNothing ==> r == ed
  {
    match cmd
    case DoBackSpace => BackSpace(ed)
    case DoReturn => InsertAtCaret(ed, "\n")
    case DoLeftTab => LeftTab(ed)
    case DoTab => Tab(ed)
    case DoLeft => Left(ed)
    case DoRight => Right(ed)
    case DoUp => Up(ed)
    case DoDown => Down(ed)
    case DoInsert(t) => InsertAtCaret(ed, t)
    case DoNothing => ed
  }

  /** A key with a one-character label and no special class types that character at the caret. */
  lemma PlainKeyTypes(ed: Editor, c: string, t: string)
    requires Good(ed) && |t| == 1
    requires forall j | 0 <= j < |Tests| :: !Has(c, Tests[j].0)
    ensures var v := ed.field.value; var s := ed.field.start;
      Apply(ed, Dispatch(c, t)).field.value == v[..s] + t + v[ed.field.end..]
      && Apply(ed, Dispatch(c, t)).field.start == s + 1
  {
    DispatchFirstPass(c, t);
  }

  /** A label longer than one character, or empty, types nothing. */
  lemma LongLabelIgnored(ed: Editor, c: string, t: string)
    requires Good(ed) && |t| != 1
    requires forall j | 0 <= j < |Tests| :: !Has(c, Tests[j].0)
    ensures Apply(ed, Dispatch(c, t)) == ed
  {
    DispatchFirstPass(c, t);
  }

  // ---------------------------------------------------------------------
  // Modifier masks

  /** A modifier's bit value, and the global mask they make up: bytes. */
  type Mask = bv8

  /** `globalmod |= m`. */
  function Latch(g: Mask, m: Mask): (r: Mask)
    ensures r & m == m
    ensures r & !m == g & !m
  {
    g | m
  }

  /** `globalmod &= 255 - m`. */
  function Unlatch(g: Mask, m: Mask): (r: Mask)
    ensures r & m == 0
    ensures r & !m == g & !m
  {
    g & (255 - m)
  }

  /** Unlatching undoes latching a mask the global mask did not hold. */
  lemma UnlatchAfterLatch(g: Mask, m: Mask)
    requires g & m == 0
    ensures Unlatch(Latch(g, m), m) == g
  {
  }

  /** Latching undoes unlatching a mask the global mask held. */
  lemma LatchAfterUnlatch(g: Mask, m: Mask)
    requires g & m == m
    ensures Latch(Unlatch(g, m), m) == g
  {
  }

  // ---------------------------------------------------------------------
  // Modifier groups

  /** A modifier group: its mask and whether its shapes are marked latched or locked. */
  datatype Group = Group(mask: Mask, latched: bool, locked: bool)

  /** The groups and the global modifier mask. */
  datatype Mods = Mods(groups: seq<Group>, globalmod: Mask)

  /** `latchorlock`: marks the group latched (or locked) and adds its mask. */
  function LatchOrLock(p: Mods, g: nat, lock: bool): (r: Mods)
    requires g < |p.groups|
    ensures |r.groups| == |p.groups| && r.globalmod == Latch(p.globalmod, p.groups[g].mask)
    ensures r.groups[g] == (if lock then p.groups[g].(locked := true) else p.groups[g].(latched := true))
    ensures forall j | 0 <= j < |p.groups| && j != g :: r.groups[j] == p.groups[j]
  {
    var s := p.groups[g];
    var s1 := if lock then s.(locked := true) else s.(latched := true);
    Mods(p.groups[g := s1], Latch(p.globalmod, s.mask))
  }

  /** `unlatchorunlock`: removes the group's latched (or locked) mark and clears its mask. */
  function UnlatchOrUnlock(p: Mods, g: nat, lock: bool): (r: Mods)
    requires g < |p.groups|
    ensures |r.groups| == |p.groups| && r.globalmod == Unlatch(p.globalmod, p.groups[g].mask)
    ensures r.groups[g] == (if lock then p.groups[g].(locked := false) else p.groups[g].(latched := false))
    ensures forall j | 0 <= j < |p.groups| && j != g :: r.groups[j] == p.groups[j]
  {
    var s := p.groups[g];
    var s1 := if lock then s.(locked := false) else s.(latched := false);
    Mods(p.groups[g := s1], Unlatch(p.globalmod, s.mask))
  }

  /**
   * Releasing a key of group `g`: a locker toggles its lock; any other
   * modifier goes from released to latched, from latched to locked, and
   * from locked back to released.
   */
  function ModifierRelease(p: Mods, g: nat, locker: bool): (r: Mods)
    requires g < |p.groups|
    ensures |r.groups| == |p.groups| && r.groups[g].mask == p.groups[g].mask
    ensures var s, s1 := p.groups[g], r.groups[g];
      if locker then s1.locked == !s.locked && s1.latched == s.latched
      else !(s.latched && s.locked) ==> s1.latched == (!s.latched && !s.locked) && s1.locked == (s.latched && !s.locked)
    ensures forall j | 0 <= j < |p.groups| && j != g :: r.groups[j] == p.groups[j]
  {
    var s := p.groups[g];
    if locker then
      if !s.locked then LatchOrLock(p, g, true) else UnlatchOrUnlock(p, g, true)
    else if s.locked then UnlatchOrUnlock(p, g, true)
    else if s.latched then LatchOrLock(UnlatchOrUnlock(p, g, false), g, true)
    else LatchOrLock(p, g, false)
  }

  /** Releasing any other key unlatches every latched group, in order; locked groups stay. */
  function PlainRelease(p: Mods): (r: Mods)
    ensures |r.groups| == |p.groups|
    ensures forall j | 0 <= j < |p.groups| ::
      r.groups[j] == p.groups[j].(latched := false)
  {
    UnlatchFrom(p, 0)
  }

  /** Unlatches the latched groups from `i` on. */
  function UnlatchFrom(p: Mods, i: nat): (r: Mods)
    requires i <= |p.groups|
    ensures |r.groups| == |p.groups|
    ensures forall j | 0 <= j < i :: r.groups[j] == p.groups[j]
    ensures forall j | i <= j < |p.groups| :: r.groups[j] == p.groups[j].(latched := false)
    decreases |p.groups| - i
  {
    if i == |p.groups| then p
    else if p.groups[i].latched then UnlatchFrom(UnlatchOrUnlock(p, i, false), i + 1)
    else UnlatchFrom(p, i + 1)
  }

  // ---------------------------------------------------------------------
  // The global mask as the union of the marked groups' masks

  /** Bit `i` of a mask is set. */
  predicate HasBit(x: Mask, i: nat)
    requires i < 8
  {
    x & (1 << i) != 0
  }

  /** The positions of a mask's set bits. */
  function BitsOf(x: Mask): (b: set<nat>)
    ensures forall i | i in b :: i < 8
  {
    set i: nat | i < 8 && HasBit(x, i)
  }

  /** `|` is the union of the bits. */
  lemma LatchBits(g: Mask, m: Mask)
    ensures BitsOf(Latch(g, m)) == BitsOf(g) + BitsOf(m)
  {
    forall i: nat | i < 8 ensures HasBit(g | m, i) <==> HasBit(g, i) || HasBit(m, i) {
      BitOr(g, m, i);
    }
  }

  lemma BitOr(g: Mask, m: Mask, i: nat)
    requires i < 8
    ensures HasBit(g | m, i) <==> HasBit(g, i) || HasBit(m, i)
  {
  }

  /** `& (255 - m)` removes the bits of `m`. */
  lemma UnlatchBits(g: Mask, m: Mask)
    ensures BitsOf(Unlatch(g, m)) == BitsOf(g) - BitsOf(m)
  {
    forall i: nat | i < 8 ensures HasBit(g & (255 - m), i) <==> HasBit(g, i) && !HasBit(m, i) {
      BitClear(g, m, i);
    }
  }

  lemma BitClear(g: Mask, m: Mask, i: nat)
    requires i < 8
    ensures HasBit(g & (255 - m), i) <==> HasBit(g, i) && !HasBit(m, i)
  {
  }

  /** A group contributes its mask's bits while it is latched or locked. */
  function Contribution(s: Group): set<nat>
  {
    if s.latched || s.locked then BitsOf(s.mask) else {}
  }

  /** The union of the marked groups' bits. */
  function OrOf(gs: seq<Group>): set<nat>
    decreases |gs|
  {
    if gs == [] then {} else Contribution(gs[0]) + OrOf(gs[1..])
  }

  /** Group masks share no bit, and no group is both latched and locked. */
  predicate GroupsOk(gs: seq<Group>)
  {
    && (forall i, j | 0 <= i < j < |gs| :: BitsOf(gs[i].mask) !! BitsOf(gs[j].mask))
    && (forall i | 0 <= i < |gs| :: !(gs[i].latched && gs[i].locked))
  }

  /** The global mask holds exactly the bits of the marked groups. */
  predicate Consistent(p: Mods)
  {
    GroupsOk(p.groups) && BitsOf(p.globalmod) == OrOf(p.groups)
  }

  /** Groups whose masks miss `m` contribute nothing of `m`. */
  lemma {:induction false} OrOfDisjoint(gs: seq<Group>, m: set<nat>)
    requires forall i | 0 <= i < |gs| :: BitsOf(gs[i].mask) !! m
    ensures OrOf(gs) !! m
    decreases |gs|
  {
    if gs != [] {
      OrOfDisjoint(gs[1..], m);
    }
  }

  /**
   * Changing the marks of group `g`, whose bits no other group shares,
   * changes the union by exactly that group's contribution.
   */
  lemma {:induction false} OrOfUpdate(gs: seq<Group>, g: nat, s: Group)
    requires g < |gs| && s.mask == gs[g].mask
    requires forall j | 0 <= j < |gs| && j != g :: BitsOf(gs[j].mask) !! BitsOf(gs[g].mask)
    ensures OrOf(gs[g := s]) == (OrOf(gs) - BitsOf(s.mask)) + Contribution(s)
    decreases |gs|
  {
    var tl := gs[1..];
    if g == 0 {
      assert gs[0 := s][1..] == tl;
      forall j | 0 <= j < |tl| ensures BitsOf(tl[j].mask) !! BitsOf(s.mask) {
        assert tl[j] == gs[j + 1];
      }
      OrOfDisjoint(tl, BitsOf(s.mask));
    } else {
      forall j | 0 <= j < |tl| && j != g - 1 ensures BitsOf(tl[j].mask) !! BitsOf(tl[g - 1].mask) {
        assert tl[j] == gs[j + 1];
      }
      OrOfUpdate(tl, g - 1, s);
      assert gs[g := s][1..] == tl[g - 1 := s];
    }
  }

  /** The groups other than `g` share no bit with `g`. */
  lemma OthersDisjoint(gs: seq<Group>, g: nat)
    requires GroupsOk(gs) && g < |gs|
    ensures forall j | 0 <= j < |gs| && j != g :: BitsOf(gs[j].mask) !! BitsOf(gs[g].mask)
  {
    forall j | 0 <= j < |gs| && j != g ensures BitsOf(gs[j].mask) !! BitsOf(gs[g].mask) {
      if j < g {
        assert BitsOf(gs[j].mask) !! BitsOf(gs[g].mask);
      } else {
        assert BitsOf(gs[g].mask) !! BitsOf(gs[j].mask);
      }
    }
  }

  /** Changing only the marks of a group keeps the groups well formed, if it is not both latched and locked. */
  lemma GroupsOkUpdate(gs: seq<Group>, g: nat, s: Group)
    requires GroupsOk(gs) && g < |gs| && s.mask == gs[g].mask && !(s.latched && s.locked)
    ensures GroupsOk(gs[g := s])
  {
    var gs1 := gs[g := s];
    forall i, j | 0 <= i < j < |gs1| ensures BitsOf(gs1[i].mask) !! BitsOf(gs1[j].mask) {
      assert gs1[i].mask == gs[i].mask && gs1[j].mask == gs[j].mask;
    }
  }

  /** Marking a group that was not marked keeps the global mask the bits of the marked groups. */
  lemma MarkKeeps(p: Mods, g: nat, lock: bool)
    requires Consistent(p) && g < |p.groups| && !p.groups[g].latched && !p.groups[g].locked
    ensures Consistent(LatchOrLock(p, g, lock))
  {
    var r := LatchOrLock(p, g, lock);
    OthersDisjoint(p.groups, g);
    assert r.groups == p.groups[g := r.groups[g]];
    OrOfUpdate(p.groups, g, r.groups[g]);
    LatchBits(p.globalmod, p.groups[g].mask);
    GroupsOkUpdate(p.groups, g, r.groups[g]);
  }

  /** Removing the only mark of a group keeps the global mask the bits of the marked groups. */
  lemma UnmarkKeeps(p: Mods, g: nat, lock: bool)
    requires Consistent(p) && g < |p.groups|
    requires if lock then !p.groups[g].latched else !p.groups[g].locked
    ensures Consistent(UnlatchOrUnlock(p, g, lock))
  {
    var r := UnlatchOrUnlock(p, g, lock);
    OthersDisjoint(p.groups, g);
    assert r.groups == p.groups[g := r.groups[g]];
    OrOfUpdate(p.groups, g, r.groups[g]);
    UnlatchBits(p.globalmod, p.groups[g].mask);
    GroupsOkUpdate(p.groups, g, r.groups[g]);
  }

  /**
   * Releasing a modifier key keeps the global mask the bits of the marked
   * groups. Locker keys only ever lock, so a locker's group is not latched.
   */
  lemma ModifierReleaseKeeps(p: Mods, g: nat, locker: bool)
    requires Consistent(p) && g < |p.groups|
    requires locker ==> !p.groups[g].latched
    ensures Consistent(ModifierRelease(p, g, locker))
  {
    var s := p.groups[g];
    if locker {
      if !s.locked {
        MarkKeeps(p, g, true);
      } else {
        UnmarkKeeps(p, g, true);
      }
    } else if s.locked {
      UnmarkKeeps(p, g, true);
    } else if s.latched {
      UnmarkKeeps(p, g, false);
      MarkKeeps(UnlatchOrUnlock(p, g, false), g, true);
    } else {
      MarkKeeps(p, g, false);
    }
  }

  /** Unlatching the groups from `i` on keeps the global mask the bits of the marked groups. */
  lemma {:induction false} UnlatchFromKeeps(p: Mods, i: nat)
    requires Consistent(p) && i <= |p.groups|
    ensures Consistent(UnlatchFrom(p, i))
    decreases |p.groups| - i
  {
    if i < |p.groups| {
      if p.groups[i].latched {
        UnmarkKeeps(p, i, false);
        UnlatchFromKeeps(UnlatchOrUnlock(p, i, false), i + 1);
      } else {
        UnlatchFromKeeps(p, i + 1);
      }
    }
  }

  /** Releasing a plain key keeps the global mask the bits of the marked groups. */
  lemma PlainReleaseKeeps(p: Mods)
    requires Consistent(p)
    ensures Consistent(PlainRelease(p))
  {
    UnlatchFromKeeps(p, 0);
  }

  // ---------------------------------------------------------------------
  // Latching and locking cycles

  /** Latching a mask and then unlatching it clears it, whatever the global mask held. */
  lemma UnlatchLatch(g: Mask, m: Mask)
    ensures Unlatch(Latch(g, m), m) == Unlatch(g, m)
  {
  }

  /** Clearing bits the global mask does not hold leaves it as it was. */
  lemma ClearAbsent(g: Mask, m: Mask)
    requires BitsOf(g) !! BitsOf(m)
    ensures Unlatch(g, m) == g
  {
    forall i: nat | i < 8 ensures HasBit(g, i) ==> !HasBit(m, i) {
      assert HasBit(g, i) ==> i in BitsOf(g);
    }
    BitsAbsent(g, m);
  }

  lemma BitsAbsent(g: Mask, m: Mask)
    requires forall i: nat | i < 8 :: HasBit(g, i) ==> !HasBit(m, i)
    ensures g & (255 - m) == g
  {
    assert HasBit(g, 0) ==> !HasBit(m, 0);
    assert HasBit(g, 1) ==> !HasBit(m, 1);
    assert HasBit(g, 2) ==> !HasBit(m, 2);
    assert HasBit(g, 3) ==> !HasBit(m, 3);
    assert HasBit(g, 4) ==> !HasBit(m, 4);
    assert HasBit(g, 5) ==> !HasBit(m, 5);
    assert HasBit(g, 6) ==> !HasBit(m, 6);
    assert HasBit(g, 7) ==> !HasBit(m, 7);
  }

  /** An unmarked group's bits are not in the union of the marked groups. */
  lemma UnmarkedAbsent(gs: seq<Group>, g: nat)
    requires GroupsOk(gs) && g < |gs| && !gs[g].latched && !gs[g].locked
    ensures BitsOf(gs[g].mask) !! OrOf(gs)
  {
    OthersDisjoint(gs, g);
    assert gs[g := gs[g]] == gs;
    OrOfUpdate(gs, g, gs[g]);
  }

  /**
   * Three releases of a plain modifier key take its group from released
   * to latched, to locked, and back to the state it started from.
   */
  lemma LatchLockCycle(p: Mods, g: nat)
    requires Consistent(p) && g < |p.groups| && !p.groups[g].latched && !p.groups[g].locked
    ensures var p1 := ModifierRelease(p, g, false);
      var p2 := ModifierRelease(p1, g, false);
      && p1.groups[g].latched && !p1.groups[g].locked
      && !p2.groups[g].latched && p2.groups[g].locked
      && ModifierRelease(p2, g, false) == p
  {
    var m := p.groups[g].mask;
    var p1 := ModifierRelease(p, g, false);
    var q := UnlatchOrUnlock(p1, g, false);
    var p2 := ModifierRelease(p1, g, false);
    var p3 := ModifierRelease(p2, g, false);
    assert p3.groups == p.groups;
    UnlatchLatch(p.globalmod, m);
    UnlatchLatch(q.globalmod, m);
    assert p3.globalmod == Unlatch(Unlatch(p.globalmod, m), m);
    UnmarkedAbsent(p.groups, g);
    ClearAbsent(p.globalmod, m);
  }

  /** Two releases of a locker key lock its group and unlock it again. */
  lemma LockerCycle(p: Mods, g: nat)
    requires Consistent(p) && g < |p.groups| && !p.groups[g].latched && !p.groups[g].locked
    ensures var p1 := ModifierRelease(p, g, true);
      p1.groups[g].locked && ModifierRelease(p1, g, true) == p
  {
    var m := p.groups[g].mask;
    var p2 := ModifierRelease(ModifierRelease(p, g, true), g, true);
    assert p2.groups == p.groups;
    UnlatchLatch(p.globalmod, m);
    UnmarkedAbsent(p.groups, g);
    ClearAbsent(p.globalmod, m);
  }

  /** With no group latched from `i` on, there is nothing to unlatch. */
  lemma {:induction false} UnlatchFromNone(p: Mods, i: nat)
    requires i <= |p.groups|
    requires forall j | i <= j < |p.groups| :: !p.groups[j].latched
    ensures UnlatchFrom(p, i) == p
    decreases |p.groups| - i
  {
    if i < |p.groups| {
      UnlatchFromNone(p, i + 1);
    }
  }

  /** With only group `g` latched from `i` on, unlatching is unlatching `g`. */
  lemma {:induction false} UnlatchFromOne(p: Mods, i: nat, g: nat)
    requires i <= g < |p.groups| && p.groups[g].latched
    requires forall j | i <= j < |p.groups| && j != g :: !p.groups[j].latched
    ensures UnlatchFrom(p, i) == UnlatchOrUnlock(p, g, false)
    decreases |p.groups| - i
  {
    if i == g {
      UnlatchFromNone(UnlatchOrUnlock(p, g, false), g + 1);
    } else {
      UnlatchFromOne(p, i + 1, g);
    }
  }

  /**
   * A latched modifier applies to the next key only: with nothing else
   * latched, releasing a modifier key and then a plain key gives back the
   * state before both.
   */
  lemma LatchOnce(p: Mods, g: nat)
    requires Consistent(p) && g < |p.groups| && !p.groups[g].locked
    requires forall j | 0 <= j < |p.groups| :: !p.groups[j].latched
    ensures PlainRelease(ModifierRelease(p, g, false)) == p
  {
    var m := p.groups[g].mask;
    var p1 := ModifierRelease(p, g, false);
    UnlatchFromOne(p1, 0, g);
    var p2 := UnlatchOrUnlock(p1, g, false);
    assert p2.groups == p.groups;
    UnlatchLatch(p.globalmod, m);
    UnmarkedAbsent(p.groups, g);
    ClearAbsent(p.globalmod, m);
  }

  // ---------------------------------------------------------------------
  // A key release

  /** Whether a key is a modifier (its class names a group) and, if so, a locker. */
  datatype KeyKind = Plain | Modifier(group: nat, locker: bool)

  /** The text field with its column memory, and the modifier state. */
  datatype Demo = Demo(ed: Editor, mods: Mods)

  /**
   * `onKeyRelease`: the command selected by the visible symbol's class `c`
   * and label `t` is applied to the field, then the modifier state moves.
   */
  function KeyRelease(d: Demo, c: string, t: string, kind: KeyKind): (r: Demo)
    requires Good(d.ed)
    requires kind.Modifier? ==> kind.group < |d.mods.groups|
    ensures Good(r.ed) && r.ed == Apply(d.ed, Dispatch(c, t))
    ensures |r.mods.groups| == |d.mods.groups|
    ensures kind.Plain? ==> forall j | 0 <= j < |d.mods.groups| :: !r.mods.groups[j].latched
  {
    var ed := Apply(d.ed, Dispatch(c, t));
    match kind
    case Plain => Demo(ed, PlainRelease(d.mods))
    case Modifier(g, locker) => Demo(ed, ModifierRelease(d.mods, g, locker))
  }

  /** Every key release keeps the global mask the bits of the marked groups. */
  lemma KeyReleaseKeeps(d: Demo, c: string, t: string, kind: KeyKind)
    requires Good(d.ed) && Consistent(d.mods)
    requires kind.Modifier? ==> kind.group < |d.mods.groups|
    requires kind.Modifier? && kind.locker ==> !d.mods.groups[kind.group].latched
    ensures Consistent(KeyRelease(d, c, t, kind).mods)
  {
    match kind
    case Plain => PlainReleaseKeeps(d.mods);
    case Modifier(g, locker) => ModifierReleaseKeeps(d.mods, g, locker);
  }
}

=== FILE: web_text.dfy ===
/**
 * The JavaScript string operations the web demo's text editing uses,
 * with their exact edge behaviour: `substring` clamps and orders its
 * bounds, searches answer -1 when there is nothing to find.
 */
module WebText {

  /** A bound of `substring`, clamped into the string. */
  function Clamp(x: int, len: nat): (r: nat)
    ensures r <= len
    ensures 0 <= x <= len ==> r == x
    ensures x < 0 ==> r == 0
    ensures x > len ==> r == len
  {
    if x < 0 then 0 else if x > len then len else x
  }

  /** `s.substring(a, b)`: both bounds clamped, then taken in increasing order. */
  function Substring(s: string, a: int, b: int): (r: string)
    ensures 0 <= a <= b <= |s| ==> r == s[a..b]
    ensures 0 <= b <= a <= |s| ==> r == s[b..a]
    ensures a <= 0 && 0 <= b <= |s| ==> r == s[..b]
    ensures 0 <= a <= |s| && b >= |s| ==> r == s[a..]
  {
    var x, y := Clamp(a, |s|), Clamp(b, |s|);
    if x <= y then s[x..y] else s[y..x]
  }

  /** `s.substring(i, i + 1) == c` holds exactly when `c` is at `i`: past the end the substring is empty. */
  lemma CharAt(s: string, i: nat, c: char)
    ensures Substring(s, i, i + 1) == [c] <==> i < |s| && s[i] == c
  {
    if i < |s| {
      assert s[i..i + 1] == [s[i]];
    }
  }

  /** The index of the first `c` in `s`, or -1: `indexOf`, and `search` for a one-character pattern. */
  function IndexOf(s: string, c: char): (r: int)
    ensures -1 <= r < |s|
    ensures r >= 0 ==> s[r] == c
    ensures forall k | 0 <= k < |s| && (r == -1 || k < r) :: s[k] != c
  {
    IndexFrom(s, c, 0, |s|)
  }

  /** The index of the first `c` in `s[k..b]`, counted in `s`, or -1. */
  function IndexFrom(s: string, c: char, k: nat, b: nat): (r: int)
    requires k <= b <= |s|
    ensures -1 <= r < b
    ensures r >= 0 ==> k <= r && s[r] == c
    ensures forall j | k <= j < b && (r == -1 || j < r) :: s[j] != c
    decreases b - k
  {
    if k == b then -1
    else if s[k] == c then k
    else IndexFrom(s, c, k + 1, b)
  }

  /**
   * `s.substring(a, b).indexOf(c)` for bounds inside `s`, found without
   * cutting the string: see `SearchSubstring`.
   */
  function Search(s: string, c: char, a: nat, b: nat): int
    requires a <= b <= |s|
  {
    var k := IndexFrom(s, c, a, b);
    if k == -1 then -1 else k - a
  }

  /** Searching inside the bounds is searching the cut-out substring. */
  lemma SearchSubstring(s: string, c: char, a: nat, b: nat)
    requires a <= b <= |s|
    ensures Search(s, c, a, b) == IndexOf(Substring(s, a, b), c)
  {
    var t := s[a..b];
    assert forall j | 0 <= j < |t| :: t[j] == s[a + j];
    var r := IndexOf(t, c);
    var k := IndexFrom(s, c, a, b);
    if r >= 0 {
      assert s[a + r] == c;
    }
    if k >= 0 {
      assert t[k - a] == c;
    }
  }

  /** A search stopped at `b1` finds what a longer one finds, when that lies before `b1`. */
  lemma IndexFromShorter(s: string, c: char, k: nat, b1: nat, b2: nat)
    requires k <= b1 <= b2 <= |s|
    ensures var m := IndexFrom(s, c, k, b2);
      IndexFrom(s, c, k, b1) == (if m != -1 && m < b1 then m else -1)
  {
    var m := IndexFrom(s, c, k, b2);
    var r := IndexFrom(s, c, k, b1);
    if r >= 0 {
      assert s[r] == c;
    }
    if m >= 0 && m < b1 {
      assert s[m] == c;
    }
  }

  /** The index of the last `c` in `s`, or -1: `lastIndexOf`. */
  function LastIndexOf(s: string, c: char): (r: int)
    ensures -1 <= r < |s|
    ensures r >= 0 ==> s[r] == c
    ensures forall k | r < k < |s| :: s[k] != c
  {
    LastBefore(s, c, |s|)
  }

  /** The index of the last `c` in `s` before `k`, or -1: `s.substring(0, k).lastIndexOf(c)`, see `LastBeforeSubstring`. */
  function LastBefore(s: string, c: char, k: nat): (r: int)
    requires k <= |s|
    ensures -1 <= r < k
    ensures r >= 0 ==> s[r] == c
    ensures forall j | r < j < k :: s[j] != c
  {
    if k == 0 then -1
    else if s[k - 1] == c then k - 1
    else LastBefore(s, c, k - 1)
  }

  /** Searching backwards from `k` is searching the prefix cut at `k`. */
  lemma LastBeforeSubstring(s: string, c: char, k: nat)
    requires k <= |s|
    ensures LastBefore(s, c, k) == LastIndexOf(Substring(s, 0, k), c)
  {
    var t := s[..k];
    assert forall j | 0 <= j < |t| :: t[j] == s[j];
    var r := LastIndexOf(t, c);
    var q := LastBefore(s, c, k);
    if r >= 0 {
      assert s[r] == c;
    }
    if q >= 0 {
      assert t[q] == c;
    }
  }

  /** There is a `c` before `k` exactly when a forward search finds one. */
  lemma SearchFindsLast(s: string, c: char, k: nat)
    requires k <= |s|
    ensures Search(s, c, 0, k) > -1 <==> LastBefore(s, c, k) > -1
  {
    var q := LastBefore(s, c, k);
    var f := IndexFrom(s, c, 0, k);
    if q >= 0 {
      assert s[q] == c;
    }
    if f >= 0 {
      assert s[f] == c;
    }
  }

  /** `a` directly followed by `b` at index `i`. */
  predicate PairAt(s: string, a: char, b: char, i: int)
  {
    0 <= i && i + 1 < |s| && s[i] == a && s[i + 1] == b
  }

  /** The index of the last `a` directly followed by `b`, or -1: `lastIndexOf` of a two-character string. */
  function LastPairIndex(s: string, a: char, b: char): (r: int)
    ensures -1 <= r && r + 1 < |s| + (if r == -1 then 1 else 0)
    ensures r >= 0 ==> PairAt(s, a, b, r)
    ensures forall k :: r < k && PairAt(s, a, b, k) ==> false
    decreases |s|
  {
    if |s| < 2 then -1
    else if s[|s| - 2] == a && s[|s| - 1] == b then |s| - 2
    else
      var init := s[..|s| - 1];
      var k := LastPairIndex(init, a, b);
      assert forall j :: PairAt(s, a, b, j) && j + 1 < |init| ==> PairAt(init, a, b, j);
      if k >= 0 then
        assert PairAt(init, a, b, k);
        k
      else -1
  }

  /** How many times `c` occurs: the length of a global `match` on a one-character pattern. */
  function Count(s: string, c: char): (n: nat)
    ensures n <= |s|
    ensures n == 0 <==> c !in s
    decreases |s|
  {
    if |s| == 0 then 0
    else
      assert s == [s[0]] + s[1..];
      (if s[0] == c then 1 else 0) + Count(s[1..], c)
  }

  /** Every newline followed by a tab: `replace(/\n/g, "\n\t")`. */
  function Indent(s: string): (r: string)
    ensures |r| == |s| + Count(s, '\n')
    ensures '\n' !in s ==> r == s
    decreases |s|
  {
    if |s| == 0 then ""
    else
      var head: string := if s[0] == '\n' then "\n\t" else [s[0]];
      var rest := Indent(s[1..]);
      assert s == [s[0]] + s[1..];
      assert Count(s, '\n') == (if s[0] == '\n' then 1 else 0) + Count(s[1..], '\n');
      assert '\n' !in s ==> head == [s[0]] && '\n' !in s[1..];
      head + rest
  }

  /** The indented text begins as the text does, with a tab after a leading newline. */
  lemma IndentHead(s: string)
    requires |s| > 0
    ensures s[0] != '\n' ==> |Indent(s)| > 0 && Indent(s)[0] == s[0]
    ensures s[0] == '\n' ==> |Indent(s)| > 1 && Indent(s)[0] == '\n' && Indent(s)[1] == '\t'
  {
    var head: string := if s[0] == '\n' then "\n\t" else [s[0]];
    assert Indent(s) == head + Indent(s[1..]);
  }

  /** How many newline-tab pairs occur, scanning left to right without overlap: a global `match`. */
  function CountPairs(s: string): (n: nat)
    decreases |s|
  {
    if |s| < 2 then 0
    else if s[0] == '\n' && s[1] == '\t' then 1 + CountPairs(s[2..])
    else CountPairs(s[1..])
  }

  /** Every newline-tab pair reduced to its newline: `replace(/\n\t/g, "\n")`. */
  function Unindent(s: string): (r: string)
    ensures |r| == |s| - CountPairs(s)
    decreases |s|
  {
    if |s| < 2 then s
    else if s[0] == '\n' && s[1] == '\t' then "\n" + Unindent(s[2..])
    else [s[0]] + Unindent(s[1..])
  }

  /** Unindenting undoes indenting. */
  lemma {:induction false} UnindentIndent(s: string)
    ensures Unindent(Indent(s)) == s
    decreases |s|
  {
    if |s| > 0 {
      UnindentIndent(s[1..]);
      var rest := Indent(s[1..]);
      if s[0] == '\n' {
        assert Indent(s) == "\n\t" + rest;
        assert (Indent(s))[2..] == rest;
      } else if |rest| == 0 {
        assert Indent(s) == [s[0]];
      } else {
        assert Indent(s) == [s[0]] + rest;
        assert (Indent(s))[1..] == rest;
      }
    }
  }
}

=== FILE: xkeyboard.dfy ===
/**
 * The XKB layout names. The X server describes the configured layouts as
 * one symbols string such as "pc+us+fr(oss)+inet+group(alt_shift)";
 * a small state machine extracts the layout names from it, skipping the
 * entries that are not layouts. The keyboard then cycles through the
 * resulting groups.
 */
module XKeyboard {
  import opened Optional

  /** Longest name kept; longer runs are truncated (a 32-byte buffer). */
  const MaxLen: nat := 31

  /** Entries of the symbols string that name no layout. */
  const NonSymbols: seq<string> := ["group", "inet", "pc", "terminate", "compose", "level"]

  /** Whether a name is a layout name: it is none of the non-symbols. */
  predicate IsSym(name: string)
  {
    name !in NonSymbols
  }

  /** Exactly six names are not layout names. */
  lemma NotSym(name: string)
    ensures !IsSym(name) <==> (name == "group" || name == "inet" || name == "pc"
                              || name == "terminate" || name == "compose" || name == "level")
  {
  }

  /** The characters a name is made of: ASCII letters and the underscore. */
  predicate SymChar(ch: char)
  {
    'a' <= ch <= 'z' || 'A' <= ch <= 'Z' || ch == '_'
  }

  /** The parser's state: inside a name or not, the name so far, the names found. */
  datatype PState = PState(inSym: bool, cur: string, out: seq<string>)

  const Init: PState := PState(false, [], [])

  /** Appends a finished name unless it is a non-symbol. */
  function Emit(out: seq<string>, name: string): seq<string>
  {
    if IsSym(name) then out + [name] else out
  }

  /** Adds a character to the name while there is room. */
  function Push(cur: string, ch: char): string
  {
    if |cur| < MaxLen then cur + [ch] else cur
  }

  /** One character of the symbols string. */
  function Step(st: PState, ch: char): PState
  {
    if ch == '+' then
      if st.inSym then PState(true, [], Emit(st.out, st.cur))
      else PState(true, st.cur, st.out)
    else if st.inSym && SymChar(ch) then PState(true, Push(st.cur, ch), st.out)
    else if st.inSym then PState(false, [], Emit(st.out, st.cur))
    else st
  }

  /** The state after a string. */
  function Run(st: PState, s: string): PState
    decreases |s|
  {
    if s == [] then st else Run(Step(st, s[0]), s[1..])
  }

  /** At the end of the string a name still open is emitted if it is not empty. */
  function Finish(st: PState): seq<string>
  {
    if st.inSym && st.cur != [] then Emit(st.out, st.cur) else st.out
  }

  /** The layout names of a symbols string, in order. */
  function SymParse(s: string): seq<string>
  {
    Finish(Run(Init, s))
  }

  // An independent, segment-wise description of the same result.

  /** Index of the first '+' of `s`, or `|s|`. */
  function PlusAt(s: string): (i: nat)
    ensures i <= |s|
    ensures i < |s| ==> s[i] == '+'
  {
    if s == [] then 0 else if s[0] == '+' then 0 else 1 + PlusAt(s[1..])
  }

  /** No '+' comes before `PlusAt`. */
  lemma {:induction false} PlusAtSkips(s: string)
    ensures '+' !in s[..PlusAt(s)]
    decreases |s|
  {
    if s != [] && s[0] != '+' {
      PlusAtSkips(s[1..]);
      assert s[..PlusAt(s)] == [s[0]] + s[1..][..PlusAt(s[1..])];
    }
  }

  /** `PlusAt` is the index that has no '+' before it and a '+' (or the end) at it. */
  lemma {:induction false} PlusAtIs(s: string, i: nat)
    requires i <= |s| && '+' !in s[..i] && (i < |s| ==> s[i] == '+')
    ensures PlusAt(s) == i
    decreases i
  {
    if i > 0 {
      assert s[0] == s[..i][0];
      assert s[1..][..i - 1] == s[..i][1..];
      NoPlusTail(s[..i]);
      PlusAtIs(s[1..], i - 1);
    }
  }

  /** The longest prefix made of name characters. */
  function LeadRun(s: string): (r: string)
    ensures |r| <= |s|
  {
    if s == [] || !SymChar(s[0]) then [] else [s[0]] + LeadRun(s[1..])
  }

  /** The leading run is a prefix of name characters that stops at the first other character. */
  lemma {:induction false} LeadRunShape(s: string)
    ensures LeadRun(s) == s[..|LeadRun(s)|]
    ensures AllSym(LeadRun(s))
    ensures |LeadRun(s)| < |s| ==> !SymChar(s[|LeadRun(s)|])
    decreases |s|
  {
    if s != [] && SymChar(s[0]) {
      LeadRunShape(s[1..]);
      var r := LeadRun(s[1..]);
      assert LeadRun(s) == [s[0]] + r;
      assert s[..1 + |r|] == [s[0]] + s[1..][..|r|];
      AllSymCons(LeadRun(s));
      assert LeadRun(s)[1..] == r;
    }
  }

  /** The first `MaxLen` characters. */
  function Trunc(s: string): (r: string)
    ensures |r| <= MaxLen && |r| <= |s| && r == s[..|r|]
    ensures |s| <= MaxLen ==> r == s
  {
    if |s| <= MaxLen then s else s[..MaxLen]
  }

  /** The name a segment contributes, if it is a layout name. */
  function Name(seg: string): seq<string>
  {
    var n := Trunc(LeadRun(seg));
    if IsSym(n) then [n] else []
  }

  /**
   * The segments after the first '+', each contributing the run of name
   * characters it starts with; the last segment contributes only when it
   * is not empty.
   */
  function Segments(rest: string): seq<string>
    decreases |rest|
  {
    var i := PlusAt(rest);
    if i == |rest| then (if rest != [] then Name(rest) else [])
    else Name(rest[..i]) + Segments(rest[i + 1..])
  }

  /** The reference description: nothing before the first '+' counts. */
  function Reference(s: string): seq<string>
  {
    var i := PlusAt(s);
    if i == |s| then [] else Segments(s[i + 1..])
  }

  /** Whether every character is a name character. */
  predicate AllSym(s: string)
  {
    forall j :: 0 <= j < |s| ==> SymChar(s[j])
  }

  lemma {:induction false} RunConcat(st: PState, a: string, b: string)
    ensures Run(st, a + b) == Run(Run(st, a), b)
    decreases |a|
  {
    if a == [] {
      assert a + b == b;
    } else {
      assert (a + b)[0] == a[0];
      assert (a + b)[1..] == a[1..] + b;
      RunConcat(Step(st, a[0]), a[1..], b);
    }
  }

  /** Outside a name, everything up to the next '+' is skipped. */
  lemma {:induction false} SkipToPlus(st: PState, s: string)
    requires !st.inSym && '+' !in s
    ensures Run(st, s) == st
    decreases |s|
  {
    if s != [] {
      assert s[0] in s;
      SkipToPlus(st, s[1..]);
    }
  }

  lemma TruncPush(q: string, ch: char)
    ensures Push(Trunc(q), ch) == Trunc(q + [ch])
  {
    if |q| < MaxLen {
    } else {
      assert (q + [ch])[..MaxLen] == q[..MaxLen];
    }
  }

  /** A non-empty string is all name characters when its head is one and its tail is all name characters. */
  lemma AllSymCons(s: string)
    requires s != []
    ensures AllSym(s) <==> SymChar(s[0]) && AllSym(s[1..])
  {
    if SymChar(s[0]) && AllSym(s[1..]) {
      forall j | 0 <= j < |s| ensures SymChar(s[j]) {
        if j > 0 { assert s[j] == s[1..][j - 1]; }
      }
    }
    if AllSym(s) {
      forall j | 0 <= j < |s[1..]| ensures SymChar(s[1..][j]) {
        assert s[1..][j] == s[j + 1];
      }
    }
  }

  /** The tail of a string without '+' has none either. */
  lemma NoPlusTail(s: string)
    requires s != [] && '+' !in s
    ensures '+' !in s[1..]
  {
    forall j | 0 <= j < |s[1..]| ensures s[1..][j] != '+' {
      assert s[1..][j] == s[j + 1];
    }
  }

  /**
   * Reading an all-name segment inside a name whose characters so far are
   * `q` extends the name.
   */
  lemma {:induction false} ReadNameSegment(q: string, out: seq<string>, seg: string)
    requires '+' !in seg && AllSym(seg)
    ensures Run(PState(true, Trunc(q), out), seg) == PState(true, Trunc(q + seg), out)
    decreases |seg|
  {
    if seg == [] {
      assert q + seg == q;
    } else {
      var c := seg[0];
      AllSymCons(seg);
      NoPlusTail(seg);
      assert c in seg;
      TruncPush(q, c);
      ReadNameSegment(q + [c], out, seg[1..]);
      assert q + [c] + seg[1..] == q + seg;
    }
  }

  /** Inside a name, a name character is added to it. */
  lemma ReadNameChar(q: string, out: seq<string>, seg: string)
    requires seg != [] && SymChar(seg[0])
    ensures Run(PState(true, Trunc(q), out), seg) == Run(PState(true, Trunc(q + [seg[0]]), out), seg[1..])
  {
    TruncPush(q, seg[0]);
  }

  /** Inside a name, another character other than '+' emits the name and the rest of the segment is skipped. */
  lemma ReadStop(q: string, out: seq<string>, seg: string)
    requires '+' !in seg && seg != [] && !SymChar(seg[0])
    ensures Run(PState(true, Trunc(q), out), seg) == PState(false, [], Emit(out, Trunc(q)))
  {
    assert seg[0] in seg;
    NoPlusTail(seg);
    SkipToPlus(PState(false, [], Emit(out, Trunc(q))), seg[1..]);
  }

  /**
   * Reading a segment that is not all name characters, inside a name whose
   * characters so far are `q`: the name is emitted at the first other
   * character and the rest of the segment is skipped.
   */
  lemma {:induction false} ReadSegment(q: string, out: seq<string>, seg: string)
    requires '+' !in seg && !AllSym(seg)
    ensures Run(PState(true, Trunc(q), out), seg) == PState(false, [], Emit(out, Trunc(q + LeadRun(seg))))
    decreases |seg|
  {
    var c := seg[0];
    if SymChar(c) {
      AllSymCons(seg);
      NoPlusTail(seg);
      ReadNameChar(q, out, seg);
      ReadSegment(q + [c], out, seg[1..]);
      assert q + LeadRun(seg) == (q + [c]) + LeadRun(seg[1..]);
    } else {
      ReadStop(q, out, seg);
      assert q + LeadRun(seg) == q;
    }
  }

  /** A name made of name characters is its own leading run. */
  lemma {:induction false} LeadRunAll(s: string)
    requires AllSym(s)
    ensures LeadRun(s) == s
    decreases |s|
  {
    if s != [] {
      assert AllSym(s[1..]) by {
        forall j | 0 <= j < |s[1..]| ensures SymChar(s[1..][j]) {
          assert s[1..][j] == s[j + 1];
        }
      }
      LeadRunAll(s[1..]);
      assert s == [s[0]] + s[1..];
    }
  }

  /** A whole segment followed by '+': its name is emitted and a new name starts. */
  lemma SegmentThenPlus(out: seq<string>, seg: string)
    requires '+' !in seg
    ensures Run(PState(true, [], out), seg + ['+']) == PState(true, [], out + Name(seg))
  {
    assert Trunc([]) == [];
    assert [] + seg == seg;
    assert [] + LeadRun(seg) == LeadRun(seg);
    if AllSym(seg) {
      ReadNameSegment([], out, seg);
      LeadRunAll(seg);
    } else {
      ReadSegment([], out, seg);
    }
    RunConcat(PState(true, [], out), seg, ['+']);
    var mid := Run(PState(true, [], out), seg);
    assert Run(mid, ['+']) == Step(mid, '+');
  }

  /** The last segment, with nothing after it. */
  lemma LastSegment(out: seq<string>, seg: string)
    requires '+' !in seg
    ensures Finish(Run(PState(true, [], out), seg)) == out + (if seg != [] then Name(seg) else [])
  {
    assert Trunc([]) == [];
    assert [] + seg == seg;
    assert [] + LeadRun(seg) == LeadRun(seg);
    if AllSym(seg) {
      ReadNameSegment([], out, seg);
      LeadRunAll(seg);
      if seg != [] {
        assert Trunc(seg) != [] by { assert |Trunc(seg)| >= 1 || |seg| == 0; }
      }
    } else {
      ReadSegment([], out, seg);
    }
  }

  /** A string cut around its character at `i`. */
  lemma SplitAt(s: string, i: nat)
    requires i < |s|
    ensures s == s[..i] + [s[i]] + s[i + 1..]
  {
  }

  /** Inside a name, a segment and its '+' leave the parser inside a new name, the segment's name emitted. */
  lemma SegmentStep(out: seq<string>, seg: string, tail: string)
    requires '+' !in seg
    ensures Run(PState(true, [], out), seg + ['+'] + tail) == Run(PState(true, [], out + Name(seg)), tail)
  {
    RunConcat(PState(true, [], out), seg + ['+'], tail);
    SegmentThenPlus(out, seg);
  }

  /** Inside a name, the state machine emits exactly the segments' names. */
  lemma {:induction false} RunSegments(out: seq<string>, rest: string)
    ensures Finish(Run(PState(true, [], out), rest)) == out + Segments(rest)
    decreases |rest|
  {
    var i := PlusAt(rest);
    PlusAtSkips(rest);
    if i == |rest| {
      assert rest[..i] == rest;
      LastSegment(out, rest);
    } else {
      var seg, tail := rest[..i], rest[i + 1..];
      SplitAt(rest, i);
      SegmentStep(out, seg, tail);
      SegmentsCons(seg, tail);
      RunSegments(out + Name(seg), tail);
    }
  }

  /** The state machine agrees with the segment-wise description on every string. */
  lemma SymParseIsReference(s: string)
    ensures SymParse(s) == Reference(s)
  {
    var i := PlusAt(s);
    PlusAtSkips(s);
    if i == |s| {
      assert s[..i] == s;
      SkipToPlus(Init, s);
    } else {
      assert s == s[..i] + (['+'] + s[i + 1..]);
      RunConcat(Init, s[..i], ['+'] + s[i + 1..]);
      SkipToPlus(Init, s[..i]);
      assert Run(Init, ['+'] + s[i + 1..]) == Run(PState(true, [], []), s[i + 1..]);
      RunSegments([], s[i + 1..]);
    }
  }

  /** A layout name made of name characters, at most 31 long. */
  predicate GoodName(n: string)
  {
    IsSym(n) && |n| <= MaxLen && AllSym(n)
  }

  /** A segment's name, if any, is a layout name of name characters, at most 31 long. */
  lemma NameShape(seg: string)
    ensures forall n | n in Name(seg) :: GoodName(n)
  {
    var r := LeadRun(seg);
    var n := Trunc(r);
    LeadRunShape(seg);
    assert AllSym(n) by {
      forall j | 0 <= j < |n| ensures SymChar(n[j]) {
        assert n[j] == r[j];
      }
    }
  }

  /** Every name the description yields is a layout name of name characters, at most 31 long. */
  lemma {:induction false} SegmentsShape(rest: string)
    ensures forall n | n in Segments(rest) :: GoodName(n)
    decreases |rest|
  {
    var i := PlusAt(rest);
    if i < |rest| {
      SegmentsShape(rest[i + 1..]);
      NameShape(rest[..i]);
    } else {
      NameShape(rest);
    }
  }

  /** The names of the reference description are layout names of name characters, at most 31 long. */
  lemma ReferenceShape(s: string)
    ensures forall n | n in Reference(s) :: GoodName(n)
  {
    var i := PlusAt(s);
    if i < |s| {
      SegmentsShape(s[i + 1..]);
    }
  }

  /** The names the parser emits: layout names only, of name characters, at most 31 long. */
  lemma SymParseShape(s: string)
    ensures forall n | n in SymParse(s) :: GoodName(n)
  {
    SymParseIsReference(s);
    ReferenceShape(s);
  }

  /** Nothing before the first '+' matters. */
  lemma PrefixIgnored(pre: string, s: string)
    requires '+' !in pre
    ensures SymParse(pre + s) == SymParse(s)
  {
    RunConcat(Init, pre, s);
    SkipToPlus(Init, pre);
  }

  /** A segment followed by '+' contributes its name, then the rest is read. */
  lemma SegmentsCons(seg: string, rest: string)
    requires '+' !in seg
    ensures Segments(seg + ['+'] + rest) == Name(seg) + Segments(rest)
  {
    var s := seg + ['+'] + rest;
    assert s[|seg|] == '+';
    assert s[..|seg|] == seg && s[|seg| + 1..] == rest;
    PlusAtIs(s, |seg|);
  }

  /** A non-empty last segment contributes its name. */
  lemma SegmentsLast(seg: string)
    requires '+' !in seg && seg != []
    ensures Segments(seg) == Name(seg)
  {
    assert seg[..|seg|] == seg;
    PlusAtIs(seg, |seg|);
  }

  /** A variant in parentheses ends the layout name. */
  lemma VariantDropped()
    ensures Name("fr(oss)") == ["fr"]
  {
    assert LeadRun("fr(oss)") == "fr";
  }

  lemma OptionName()
    ensures Name("inet") == []
  {
    assert LeadRun("inet") == "inet";
  }

  /** Three segments: the last one, not empty, contributes its name too. */
  lemma ThreeSegments(a: string, b: string, c: string)
    requires '+' !in a && '+' !in b && '+' !in c && c != []
    ensures Segments(a + ['+'] + (b + ['+'] + c)) == Name(a) + Name(b) + Name(c)
  {
    SegmentsCons(a, b + ['+'] + c);
    SegmentsCons(b, c);
    SegmentsLast(c);
  }

  lemma PlainName()
    ensures Name("us") == ["us"]
  {
    assert LeadRun("us") == "us";
  }

  /**
   * A symbols string of a model and three segments yields the three
   * segments' names: the model before the first '+' is dropped.
   */
  lemma ModelAndThree(p: string, a: string, b: string, c: string)
    requires '+' !in p && '+' !in a && '+' !in b && '+' !in c && c != []
    ensures SymParse(p + ['+'] + (a + ['+'] + (b + ['+'] + c))) == Name(a) + Name(b) + Name(c)
  {
    var t := a + ['+'] + (b + ['+'] + c);
    assert p + ['+'] + t == p + (['+'] + t);
    PrefixIgnored(p, ['+'] + t);
    SymParseIsReference(['+'] + t);
    assert PlusAt(['+'] + t) == 0;
    assert (['+'] + t)[1..] == t;
    ThreeSegments(a, b, c);
  }

  /** How the typical symbols string splits at its '+' signs. */
  lemma TypicalSplits(s: string)
    requires s == "pc+us+fr(oss)+inet"
    ensures s == "pc" + ['+'] + ("us" + ['+'] + ("fr(oss)" + ['+'] + "inet"))
  {
  }

  /** A typical symbols string: the model before the first '+', variants and options are dropped. */
  lemma TypicalSymbols(s: string)
    requires s == "pc+us+fr(oss)+inet"
    ensures SymParse(s) == ["us", "fr"]
  {
    TypicalSplits(s);
    ModelAndThree("pc", "us", "fr(oss)", "inet");
    PlainName();
    VariantDropped();
    OptionName();
  }

  /** Two '+' in a row yield an empty name, which is not a non-symbol. */
  lemma DoublePlus()
    ensures SymParse("a++b") == ["", "b"]
  {
    SymParseIsReference("a++b");
    assert PlusAt("a++b") == 1;
    assert "a++b"[2..] == "+b";
    assert PlusAt("+b") == 0;
    assert "+b"[1..] == "b";
    assert PlusAt("b") == 1;
    assert LeadRun("b") == "b";
  }

  /** The layouts the keyboard starts with: the parsed names, or "us" when there are none. */
  function Groups(symbols: Option<string>): (gs: seq<string>)
    ensures |gs| >= 1
    ensures symbols.Some? && SymParse(symbols.value) != [] ==> gs == SymParse(symbols.value)
    ensures (symbols.None? || SymParse(symbols.value) == []) ==> gs == ["us"]
  {
    var parsed := if symbols.Some? then SymParse(symbols.value) else [];
    if parsed == [] then ["us"] else parsed
  }

  /** The group after `current`, wrapping round; there is always at least one group. */
  function NextGroup(groups: seq<string>, current: nat): (g: nat)
    requires |groups| >= 1
    ensures g < |groups|
    ensures current + 1 < |groups| ==> g == current + 1
    ensures current + 1 == |groups| ==> g == 0
  {
    (current + 1) % |groups|
  }

  /** The name of the current group, or none when the index is past the list. */
  function CurrentLayout(groups: seq<string>, group: nat): (name: Option<string>)
    ensures group < |groups| <==> name.Some?
    ensures name.Some? ==> name.value == groups[group]
  {
    if group < |groups| then Some(groups[group]) else None
  }

  /** Switching `k` times. */
  function Switch(groups: seq<string>, current: nat, k: nat): nat
    requires |groups| >= 1
  {
    if k == 0 then current else NextGroup(groups, Switch(groups, current, k - 1))
  }

  /** Switching `a` then `b` times is switching `a + b` times. */
  lemma {:induction false} SwitchAdd(groups: seq<string>, current: nat, a: nat, b: nat)
    requires |groups| >= 1
    ensures Switch(groups, current, a + b) == Switch(groups, Switch(groups, current, a), b)
  {
    if b > 0 {
      SwitchAdd(groups, current, a, b - 1);
    }
  }

  /** Below the end of the list, switching `k` times moves `k` places on. */
  lemma {:induction false} SwitchUp(groups: seq<string>, current: nat, k: nat)
    requires |groups| >= 1 && current + k < |groups|
    ensures Switch(groups, current, k) == current + k
  {
    if k > 0 {
      SwitchUp(groups, current, k - 1);
    }
  }

  /** Switching as many times as there are groups comes back to the start. */
  lemma SwitchCycles(groups: seq<string>, current: nat)
    requires |groups| >= 1 && current < |groups|
    ensures Switch(groups, current, |groups|) == current
  {
    var n := |groups|;
    SwitchUp(groups, current, n - 1 - current);
    assert Switch(groups, current, n - current) == 0;
    SwitchAdd(groups, current, n - current, current);
    SwitchUp(groups, 0, current);
  }
}
